=== FILE: README.md ===
# NetPulse core, modelled in Dafny

NetPulse is a network-quality monitor in two parts:

- **The daemon (C).** It probes a small registry of targets over TCP or ICMP on a fixed interval. It keeps a window of the latest samples per target in a ring buffer and logs threshold breaches. It serves a small JSON control API over HTTP.
- **The dashboard (TypeScript/React).** It keeps a client-side store fed by a WebSocket stream, grades the fleet's health and colours each target's metrics against the thresholds.

This project models the logic at the heart of both parts:

- the bounded sample and event windows;
- the ring buffer;
- the target registry and its slugs;
- the breach hysteresis of the event log;
- one scheduler tick;
- the HTTP handlers and their tiny JSON field extractors;
- the ICMP Internet checksum;
- the client store's actions;
- the WebSocket client's reconnect back-off;
- the health grade and card status rules.

Modules, one per component:

| file | module | models |
|---|---|---|
| `window.dfy` | `Window` | the bounded first-in-first-out window law shared by `addSample`, `addEvent`, `ring_buffer_push` and the scheduler's sample windows |
| `metrics_store.dfy` | `MetricsStore` | the zustand store `useMetricsStore` as pure actions over a state value |
| `websocket.dfy` | `WebSocket` | `WebSocketClient`: a class with its socket, timer, back-off delay and store |
| `ratio.dfy`, `health_grade.dfy`, `target_card.dfy` | `Ratio`, `HealthGrade`, `TargetCard` | the `value / threshold` colouring rule, `calculateGrade` and the card's status |
| `ring_buffer.dfy` | `RingBuffers` | `ring_buffer_t`: a class over an `array`, with its contents as a ghost sequence |
| `config.dfy` | `DaemonConfig` | `slugify`, `config_t` and its target registry (a fixed array of 10 slots) |
| `event_log.dfy` | `EventLog` | `event_log_check`: the per-target bad state and the event ring |
| `scheduler.dfy` | `Scheduler` | `scheduler_t`, `scheduler_sync_targets`, `scheduler_tick`, `scheduler_get_target` |
| `http_handlers.dfy` | `HttpHandlers` | the JSON extractors, `atoi`, the three handlers and route dispatch |
| `icmp_checksum.dfy` | `IcmpChecksum` | `icmp_checksum` and the RFC 1071 receiver check |
| `wrappers.dfy`, `text.dfy`, `stats_types.dfy`, `frontend_types.dfy` | | `Option`; decimal rendering and parsing; `sample_t`/`metrics_t`; the dashboard's types |

Conventions:

- C's fixed-width integers are unbounded in the model. Each wrap or cast is written out where it matters:
  - the `uint64_t` clock differences (`Sub64`, `DurationS`);
  - the `(int)` casts (`ToInt32`);
  - `(uint16_t)port` (`ToUint16`);
  - the checksum's `uint32_t` sum.
- A Dafny `char` stands for one C byte, so the byte limits of the C buffers (`MAX_HOST_LEN` 256, `MAX_LABEL_LEN` 64, the 128-byte key pattern, the 32-byte action buffer) are character counts in the model. A C string is the sequence of bytes before its terminating NUL. No text encoding is modelled: a multi-byte UTF-8 label counts each of its bytes as one character, which the model does not see.
- `double` and JavaScript `number` are modelled as `real`.
- Two functions model their NULL paths, taking `Option` or nullable class references: `config_slugify` (`DaemonConfig.Slugify`) and `event_log_check` (`EventLog.Check`). Everywhere else an object or string argument is never NULL in the model (see "## Left out").

## Model

| member | source | states |
|---|---|---|
| Window.PushIsLastN | frontend/src/stores/metricsStore.ts:40-44 | on a window within capacity, append-then-shift keeps exactly the newest `cap` elements in order, never exceeds `cap`, and the new element is newest |
| Window.PushCases | frontend/src/stores/metricsStore.ts:60-66 | below capacity nothing is evicted; at capacity exactly the oldest element is dropped |
| Window.PushOverfullKeepsLength | frontend/src/stores/metricsStore.ts:40-44 | a single `shift()` cannot bring an over-long window back under its bound |
| Window.PushAllIsLastN | frontend/src/stores/metricsStore.ts:36-49 | any sequence of pushes onto a bounded window leaves the newest `cap` of everything pushed, in arrival order |
| MetricsStore.AddSamplesIsPushAll | frontend/src/stores/metricsStore.ts:36-49 | a run of `addSample` calls on a known target pushes its samples one by one onto that target's window and changes nothing else |
| MetricsStore.Initial | frontend/src/stores/metricsStore.ts:22-26 | the store starts with no targets, no config, no events, disconnected, and within its bounds |
| MetricsStore.TargetMap | frontend/src/stores/metricsStore.ts:28-34 | the snapshot map has exactly the ids of the list, each key maps to a target with that id taken from the list |
| MetricsStore.TargetMapLastWins | frontend/src/stores/metricsStore.ts:30-32 | with duplicate ids the last target with an id is the one kept |
| MetricsStore.SetSnapshot | frontend/src/stores/metricsStore.ts:28-34 | replaces the targets and config; events and connection flag are untouched |
| MetricsStore.SetSnapshotIdempotent | frontend/src/stores/metricsStore.ts:28-34 | applying the same snapshot twice equals applying it once |
| MetricsStore.AddSample | frontend/src/stores/metricsStore.ts:36-49 | an unknown target leaves the state unchanged; otherwise only that target's samples change, to the bounded push of the sample |
| MetricsStore.AddSamplesKeepsNewest | frontend/src/stores/metricsStore.ts:36-49 | a stream of samples leaves the target with the newest 120 of all its samples |
| MetricsStore.UpdateMetrics | frontend/src/stores/metricsStore.ts:51-58 | an unknown target leaves the state unchanged; otherwise only that target's metrics are replaced |
| MetricsStore.AddEvent | frontend/src/stores/metricsStore.ts:60-66 | the event list becomes the bounded push of the event (at most 100, oldest dropped); nothing else changes |
| MetricsStore.UpdateConfig | frontend/src/stores/metricsStore.ts:68 | only the config changes |
| MetricsStore.SetConnected | frontend/src/stores/metricsStore.ts:70 | only the connection flag changes |
| MetricsStore.SnapshotBounded | frontend/src/stores/metricsStore.ts:19-34 | a snapshot whose targets carry at most 120 samples yields a bounded state |
| MetricsStore.IncrementalActionsPreserveBounded | frontend/src/stores/metricsStore.ts:36-70 | every action other than a snapshot keeps the 120-sample and 100-event bounds |
| WebSocket.BackoffDelayFacts | frontend/src/api/websocket.ts:85-96 | the nth retry delay lies in [1000, 30000], doubles until the cap, is monotone, is 8000 on the fourth attempt and the cap from the sixth on |
| WebSocket.Dispatch | frontend/src/api/websocket.ts:46-83 | each message type maps to its store action; `targets_updated` calls a store method that does not exist, so the handler throws and the store is untouched; unknown types leave the store as is |
| WebSocket.DispatchPreservesBounded | frontend/src/api/websocket.ts:46-83 | handling a message whose windows fit keeps the store within its bounds |
| WebSocket.WebSocketClient.constructor | frontend/src/api/websocket.ts:4-8 | no socket, no pending timer, delay 1000 |
| WebSocket.WebSocketClient.Connect | frontend/src/api/websocket.ts:10-18 | an open socket is kept; otherwise a new connecting socket replaces the old one |
| WebSocket.WebSocketClient.OnOpen | frontend/src/api/websocket.ts:20-24 | marks the store connected and resets the delay to 1000 |
| WebSocket.WebSocketClient.OnClose | frontend/src/api/websocket.ts:26-30 | marks the store disconnected and schedules a reconnect unless one is pending |
| WebSocket.WebSocketClient.ScheduleReconnect | frontend/src/api/websocket.ts:85-96 | arms a timer for the current delay only when none is pending |
| WebSocket.WebSocketClient.OnError | frontend/src/api/websocket.ts:32-34 | changes nothing |
| WebSocket.WebSocketClient.OnMessage | frontend/src/api/websocket.ts:36-43 | a malformed frame leaves the store unchanged; a decoded one applies `Dispatch`, keeping the old store when it throws |
| WebSocket.WebSocketClient.OnTimer | frontend/src/api/websocket.ts:90-95 | clears the timer, reconnects and doubles the delay up to 30000 |
| WebSocket.WebSocketClient.Disconnect | frontend/src/api/websocket.ts:98-107 | cancels the pending timer, closes and drops the socket |
| WebSocket.DisconnectDoesNotPreventReconnect | frontend/src/api/websocket.ts:98-107 | closing the socket fires `onclose`, which schedules a fresh reconnect after `disconnect()` |
| WebSocket.BackoffScenario | frontend/src/api/websocket.ts:85-96 | four failed connections in a row wait 1000, 2000, 4000 and 8000 ms |
| Ratio.LevelWithoutDivision | frontend/src/components/HealthGrade.tsx:72-79 | for non-negative inputs: over iff value > threshold, approaching iff 0.8·threshold < value ≤ threshold, within otherwise |
| Ratio.LevelAntitone | frontend/src/components/HealthGrade.tsx:72-79 | lowering a threshold never makes a metric's level better |
| HealthGrade.OfflineCount | frontend/src/components/HealthGrade.tsx:28 | at most the number of targets; zero iff no target is offline |
| HealthGrade.CountRedYellow | frontend/src/components/HealthGrade.tsx:58-79 | the loop's red and yellow counts equal the fleet-wide counts of over and approaching checks |
| HealthGrade.CalculateGrade | frontend/src/components/HealthGrade.tsx:17-118 | returns the grade and message of the reference classification |
| HealthGrade.GradeFIff | frontend/src/components/HealthGrade.tsx:28-45 | the grade is F iff some target is offline or some target loses more than 10% |
| HealthGrade.RedYellowBound | frontend/src/components/HealthGrade.tsx:58-79 | red plus yellow is at most three per target |
| HealthGrade.ChecksSplit | frontend/src/components/HealthGrade.tsx:72-79 | each check is counted red or yellow at most once |
| HealthGrade.CountsMonotone | frontend/src/components/HealthGrade.tsx:65-79 | lower thresholds never lower the red count nor the red-plus-yellow count |
| HealthGrade.FleetCountsMonotone | frontend/src/components/HealthGrade.tsx:58-79 | the same, across the whole fleet |
| HealthGrade.LoweringThresholdsNeverImproves | frontend/src/components/HealthGrade.tsx:85-117 | lowering all three thresholds never improves the grade |
| HealthGrade.NoThresholdsAllOnline | frontend/src/components/HealthGrade.tsx:47-55 | with no thresholds a healthy fleet gets A with "All targets online" |
| HealthGrade.OneTargetOffline | frontend/src/components/HealthGrade.tsx:31-45 | one offline target yields F with the singular message |
| HealthGrade.GradeTiers | frontend/src/components/HealthGrade.tsx:85-117 | three or more red checks give D, one or two give C, otherwise any yellow gives B, otherwise A |
| TargetCard.GetStatusColor | frontend/src/components/TargetCard.tsx:12-17 | red iff over, yellow iff approaching, with the division-free reading for non-negative inputs |
| TargetCard.MetricRow | frontend/src/components/TargetCard.tsx:19-49 | warming-up rows show no value; rows without a threshold are neutral; the others carry the threshold colour |
| TargetCard.FormatTimeAgoReadsBack | frontend/src/components/TargetCard.tsx:51-57 | under a second is "just now", under a minute is whole seconds, otherwise whole minutes, and the number reads back |
| TargetCard.Status | frontend/src/components/TargetCard.tsx:60-104 | online iff current RTT > 0; warming iff fewer than 20 samples; a freshness label iff a newest sample has a timestamp; "Stale" iff more than 5 s have passed |
| RingBuffers.RingWriteBelowCapacity | src/core/ring_buffer.c:33-51 | writing at the head of a non-full ring appends the element to the contents |
| RingBuffers.RingWriteAtCapacity | src/core/ring_buffer.c:33-51 | writing over the tail of a full ring and advancing it drops the oldest and appends the new element |
| RingBuffers.RingPushed | src/core/ring_buffer.c:33-51 | writing at the head and advancing head, count and tail as `ring_buffer_push` does turns the contents into their bounded push |
| RingBuffers.RingBuffer.Init | src/core/ring_buffer.c:5-22 | a zero element size or capacity returns -1 and changes nothing; otherwise an empty buffer of that capacity |
| RingBuffers.RingBuffer.Free | src/core/ring_buffer.c:24-31 | releases the storage: capacity and count become 0 |
| RingBuffers.RingBuffer.Push | src/core/ring_buffer.c:33-51 | the contents become the bounded push of the element; head advances modulo capacity; tail advances only when full |
| RingBuffers.RingBuffer.Get | src/core/ring_buffer.c:53-61 | the index-th element counting from the oldest, or nothing when out of range |
| RingBuffers.RingBuffer.Newest | src/core/ring_buffer.c:63-71 | the most recently pushed element, or nothing when empty |
| RingBuffers.RingBuffer.Oldest | src/core/ring_buffer.c:73-79 | the oldest element, or nothing when empty |
| RingBuffers.RingBuffer.Count | src/core/ring_buffer.h:44-46 | the length of the contents |
| RingBuffers.RingBuffer.Empty | src/core/ring_buffer.h:49-51 | true iff there are no contents |
| RingBuffers.RingBuffer.Full | src/core/ring_buffer.h:54-56 | true iff the contents fill the capacity |
| RingBuffers.RingBuffer.Clear | src/core/ring_buffer.c:81-87 | empties the buffer and keeps its storage |
| RingBuffers.RingBuffer.CopyToArray | src/core/ring_buffer.c:89-103 | copies the contents oldest first to the front of `dest`, returns their number and leaves the rest of `dest` alone |
| DaemonConfig.ScanWellFormed | src/core/config.c:15-25 | the scan only emits lowercase letters, digits and single dashes never leading, within the length limit |
| DaemonConfig.SlugShape | src/core/config.c:6-33 | a slug is well formed, has no trailing dash and fits the buffer |
| DaemonConfig.ScanKeepsAlnums | src/core/config.c:15-25 | within the limit, the scan keeps every letter and digit in order |
| DaemonConfig.SlugKeepsEveryAlnum | src/core/config.c:6-33 | a label that fits loses none of its letters or digits, in order, lower-cased |
| DaemonConfig.SlugOfAlnumLabel | src/core/config.c:6-33 | a label of letters and digits slugs to its lower-case form |
| DaemonConfig.SlugIdempotent | src/core/config.c:6-33 | slugifying a slug changes nothing |
| DaemonConfig.SlugOfWellFormed | src/core/config.c:6-33 | a well-formed label without a trailing dash that fits the buffer is its own slug |
| DaemonConfig.DefaultSlugs | src/core/config.c:35-56 | the default labels slug to "cloudflare" and "google" |
| DaemonConfig.Slugify | src/core/config.c:6-33 | NULL buffer or size 0 does nothing; NULL name gives ""; otherwise the buffer holds the slug and a NUL |
| DaemonConfig.ScanInto | src/core/config.c:15-25 | the loop writes exactly the scan of the label into the buffer |
| DaemonConfig.StepInto | src/core/config.c:15-25 | one character of the loop: a letter or digit is written lower-cased, a separator writes one dash unless at the start or after a dash, anything else is skipped |
| DaemonConfig.SlugInBuffer | src/core/config.c:67-69 | slugifying into a `MAX_LABEL_LEN` buffer and reading it back as a C string gives the slug |
| DaemonConfig.ReadCString | src/core/config.c:79-80 | the C string in a buffer: the characters before its first NUL, which is inside the buffer |
| DaemonConfig.IndexOfId | src/core/config.c:120-132 | the first slot whose id matches, or nothing iff no slot matches |
| DaemonConfig.IndexOfIdFirst | src/core/config.c:125-129 | the first slot whose id matches is the index the scan returns |
| DaemonConfig.RemoveAtKeepsUnique | src/core/config.c:97-118 | removing an entry keeps ids unique and removes that id |
| DaemonConfig.ShiftDown | src/core/config.c:105-107 | the shift loop removes slot i and keeps the order of the others |
| DaemonConfig.RemoveSlot | src/core/config.c:105-111 | the shift drops entry i keeping the order of the others, and the freed last slot is cleared like every slot after it |
| DaemonConfig.Config.Init | src/core/config.c:35-56 | the documented defaults and exactly the two default targets |
| DaemonConfig.Config.AddTarget | src/core/config.c:58-95 | fails when full or when the slug is taken; otherwise appends the slugged, truncated, enabled target at the end and returns its index |
| DaemonConfig.Config.RemoveTarget | src/core/config.c:97-118 | returns -1 and changes nothing when absent; otherwise removes exactly that entry, keeping order and unique ids |
| DaemonConfig.Config.RemoveAt | src/core/config.c:104-113 | the registry loses exactly entry i, keeps its order, its unique ids and its settings, and no entry left carries the removed id |
| DaemonConfig.Config.FindTarget | src/core/config.c:120-132 | the index of the first target with the id |
| EventLog.TypeToField | src/core/event_log.c:56-63 | a non-empty field name per breach type |
| EventLog.TypeToString | src/core/event_log.c:47-54 | a non-empty reason that fits the 128-byte buffer |
| EventLog.ReasonNamesField | src/core/event_log.c:47-63 | each reason is its field name followed by " exceeded threshold", and reasons are distinct |
| EventLog.ReasonHasSuffix | src/core/event_log.c:47-63 | each reason is its field name followed by " exceeded threshold" |
| EventLog.ReasonIdentifiesType | src/core/event_log.c:47-54 | different breach types have different reasons |
| EventLog.FirstBreach | src/core/event_log.c:80-95 | no breach iff every metric is within its threshold; loss is checked first, then p95, then jitter, and the breach carries that metric and threshold |
| EventLog.DurationS | src/core/event_log.c:107-108 | the `uint32_t` seconds of the `uint64_t` difference; the true seconds when the clock has not wrapped |
| EventLog.Step | src/core/event_log.c:97-131 | hysteresis: entering a bad period records its start; staying bad keeps start and type; clearing resets; an event is emitted iff bad, not yet emitted in this period, and the period has lasted at least 10 s (on the `uint32_t` seconds of the `uint64_t` difference) |
| EventLog.OneEventPerBadPeriod | src/core/event_log.c:97-131 | a run of bad observations emits at most one event, none if one was already emitted |
| EventLog.ClearedPeriodCanEmitAgain | src/core/event_log.c:97-131 | a clear restarts the period: the next breach starts a new one at its own time without emitting, and a breach still present 10 s or more later emits again, with that duration |
| EventLog.Log.constructor | src/core/event_log.c:7-37 | an empty event ring of capacity 100 |
| EventLog.Check | src/core/event_log.c:65-134 | any NULL argument returns false and changes nothing; otherwise the bad state follows `Step` and an emitted event is pushed onto the ring |
| EventLog.DetectBreach | src/core/event_log.c:79-95 | bad iff some metric exceeds its threshold, and then the first such metric in the order loss, p95, jitter with its value and threshold |
| EventLog.TrackBreach | src/core/event_log.c:97-126 | the bad state follows `Step` for the breach; an emitted event, built from the reason, value, threshold and duration, is pushed onto the ring, which is otherwise unchanged |
| Scheduler.ToInt32 | src/core/scheduler.c:218 | the `(int)` cast: in range and exact for values that fit |
| Scheduler.Sub64 | src/core/scheduler.c:218 | `uint64_t` subtraction: below 2^64 and exact when no wrap |
| Scheduler.Complete | src/core/scheduler.c:146-165 | pushes one sample (RTT 0 on failure) onto the 120-sample window, goes idle and schedules the next probe one interval later |
| Scheduler.StepTargetCases | src/core/scheduler.c:206-262 | idle and due starts a probe (ICMP completes at once; TCP connects or fails); idle and not due reports its wait; connecting completes, times out or reports the remaining time; done goes idle; the configuration is kept, and a target that reports a wait is unchanged |
| Scheduler.StepTargetRecordsSample | src/core/scheduler.c:146-165 | a turn that records a sample leaves the target idle, without a socket, due one interval from now, asking for no wait, with its newest sample stamped at the wall clock; a turn that asks for a wait records nothing |
| Scheduler.StepTargetConsistent | src/core/scheduler.c:206-262 | a step keeps the sample window within 120 and the descriptor consistent with the probe state: one is held exactly while connecting |
| Scheduler.MinWait | src/core/scheduler.c:199-252 | the tick's minimum is at most 1000 |
| Scheduler.MinWaitIsLeast | src/core/scheduler.c:199-252 | the minimum is at most every reported wait and equals one of them or 1000 |
| Scheduler.TakeTurn | src/core/scheduler.c:206-262 | the target in slot i takes its step in place; every other slot is unchanged; the step's wait is returned |
| Scheduler.PollTimeout | src/core/scheduler.c:299 | a positive minimum is returned as is, otherwise 1 |
| Scheduler.TickTargets | src/core/scheduler.c:203-263 | every active target takes one step; other slots are untouched; the minimum wait is that of the steps |
| Scheduler.Scheduler.constructor | src/core/scheduler.c:34-44 | no targets, running, start time now, metrics never updated |
| Scheduler.Init | src/core/scheduler.c:34-77 | a fresh running scheduler started now whose closing target sync decides the result: -1 and no targets when an allocation fails, otherwise 0 and one fresh idle state per configured target |
| Scheduler.Scheduler.SyncTargets | src/core/scheduler.c:100-144 | rebuilds one fresh idle state per configured target; an allocation failure leaves none and returns -1 |
| Scheduler.Scheduler.Tick | src/core/scheduler.c:193-300 | stopped returns 1000; otherwise each target steps and the timeout lies in [1, 1000]; metrics are due once a second |
| Scheduler.Scheduler.GetTarget | src/core/scheduler.c:302-314 | the index of the first target with the id |
| HttpHandlers.FindFrom | src/server/http_handlers.c:13 | `strstr`: the first occurrence of the pattern, or none iff there is no occurrence |
| HttpHandlers.SkipBlanks | src/server/http_handlers.c:19 | stops at the first character that is not a space or tab, skipping only those |
| HttpHandlers.TakeUntilQuote | src/server/http_handlers.c:26-30 | a quote-free prefix of the input, at most `max` long, ending at a quote or the end when shorter |
| HttpHandlers.JsonStringField | src/server/http_handlers.c:9-33 | a value that fits the buffer and holds no quote |
| HttpHandlers.FindValue | src/server/http_handlers.c:9-19 | the pattern search and blank-skipping loop give the value's start |
| HttpHandlers.ValueStartAfterKey | src/server/http_handlers.c:9-19 | in `{"key":rest` the search finds the key and the value starts right after the colon |
| HttpHandlers.CopyQuoted | src/server/http_handlers.c:26-30 | the copy loop writes the quoted value, cut to the buffer, then a NUL |
| HttpHandlers.CopyUntilQuote | src/server/http_handlers.c:26-29 | the loop copies exactly the characters up to the quote or the end, at most `value_size - 1`, and leaves the rest of the buffer alone |
| HttpHandlers.ReadQuoted | src/server/http_handlers.c:21-32 | false and the buffer untouched unless the value opens with a quote; otherwise the quoted text, cut to fit, and a NUL |
| HttpHandlers.JsonGetString | src/server/http_handlers.c:9-33 | false and the buffer untouched when there is no quoted value; otherwise the value and a NUL |
| HttpHandlers.JsonGetInt | src/server/http_handlers.c:35-49 | `atoi` of the text at the value, or nothing when the key is absent |
| HttpHandlers.JsonGetDouble | src/server/http_handlers.c:51-65 | `atof` of the text at the value, or nothing when the key is absent |
| HttpHandlers.JsonStringFieldReadsBack | src/server/http_handlers.c:9-33 | `{"key":"v"}` reads back v when v has no quote and fits |
| HttpHandlers.AtoiReadsBack | src/server/http_handlers.c:47 | `atoi` reads back a `%d` rendering followed by a non-digit |
| HttpHandlers.JsonIntFieldReadsBack | src/server/http_handlers.c:35-49 | `{"key":n}` reads back n |
| HttpHandlers.Accept | src/server/http_handlers.c:118-128 | a setting takes an in-range value and otherwise keeps its old value |
| HttpHandlers.AcceptReal | src/server/http_handlers.c:131-147 | the same for the thresholds |
| HttpHandlers.AcceptStaysInRange | src/server/http_handlers.c:118-128 | an in-range setting stays in range |
| HttpHandlers.PostConfig | src/server/http_handlers.c:110-153 | the settings become `PostedSettings`: each present, in-range setting is taken, the others kept; targets and port are kept; settings in range stay in range; always 200 |
| HttpHandlers.ReadSettings | src/server/http_handlers.c:118-147 | reads the two intervals with `json_get_int` and the three thresholds with `json_get_double` |
| HttpHandlers.ApplySettings | src/server/http_handlers.c:118-147 | each setting takes its value when present and in range; targets and port are untouched; settings in range stay in range |
| HttpHandlers.ReadField | src/server/http_handlers.c:161-162 | a zeroed buffer read as a C string after `json_get_string` holds the field's value or "" |
| HttpHandlers.ToUint16 | src/server/http_handlers.c:179 | the `(uint16_t)` cast: below 65536, exact for valid ports |
| HttpHandlers.PostAdd | src/server/http_handlers.c:164-196 | 400 without host or label; 400 when the registry refuses; otherwise 200 with the new slug, the target appended; settings and port are kept |
| HttpHandlers.PostRemove | src/server/http_handlers.c:196-221 | 400 without an id; 404 when absent; otherwise 200, that entry removed; settings and port are kept |
| HttpHandlers.PostTargets | src/server/http_handlers.c:155-225 | `TargetsOutcome` of the `action` field: add, remove or 400; a 200 resynchronises the scheduler to the registry, giving every entry a fresh slot (empty window, idle, fd -1, due now, so all sample history is dropped), or leaves it empty when an allocation fails while the reply stays 200; any other reply leaves the scheduler and all its slots untouched; settings and port are kept; the scheduler's running flag, start time and last metrics time are kept |
| HttpHandlers.ApplyAction | src/server/http_handlers.c:164-224 | add, remove or 400 by action; the reply is 200 iff the registry changed, a refused request leaves it unchanged, and settings and port are kept |
| HttpHandlers.ApplyActionAndSync | src/server/http_handlers.c:164-224 | the same outcomes; after a 200 the scheduler holds one fresh slot per registry entry (empty window, idle, fd -1, due now), or none when an allocation failed; any other reply leaves the scheduler and all its slots untouched; settings and port are kept; the scheduler's running flag, start time and last metrics time are kept |
| HttpHandlers.RouteOf | src/server/http_handlers.c:227-250 | each handler is chosen iff its exact path and method match; 405 iff a known path has another method; 404 iff the path is unknown |
| HttpHandlers.HandleRequest | src/server/http_handlers.c:227-250 | health replies with the uptime in seconds; GET config with its rendering; POST config replies 200 with `PostedSettings`; POST targets has the `TargetsOutcome` and the scheduler resync of `PostTargets`, fresh slots included; the error routes reply 405 and 404; only POST targets changes the registry, only a 200 to POST targets touches the scheduler, only POST config the settings, and no route the port; the scheduler's running flag, start time and last metrics time are kept |
| IcmpChecksum.FoldOnceFacts | src/net/icmp_probe_linux.c:51-53 | one fold step shrinks the sum, keeps it non-zero and keeps it modulo 0xFFFF |
| IcmpChecksum.FoldAll | src/net/icmp_probe_linux.c:51-53 | the fold loop ends at most 0xFFFF, congruent modulo 0xFFFF, and zero only for zero |
| IcmpChecksum.FoldAllIsOnesFold | src/net/icmp_probe_linux.c:51-53 | the folded value is the ones' complement sum |
| IcmpChecksum.Complement16 | src/net/icmp_probe_linux.c:55 | the 16-bit complement: it and the folded sum add up to 0xFFFF |
| IcmpChecksum.SumWords | src/net/icmp_probe_linux.c:37-48 | the word loop and the odd byte give the 32-bit sum of the little-endian words |
| IcmpChecksum.FoldSum | src/net/icmp_probe_linux.c:51-53 | the fold loop computes the folded sum |
| IcmpChecksum.Checksum | src/net/icmp_probe_linux.c:36-56 | the word loop, odd byte, fold loop and complement compute the checksum of the 32-bit word sum, at most 0xFFFF |
| IcmpChecksum.ChecksumVerifies | src/net/icmp_probe_linux.c:36-56 | storing the checksum in a zeroed field makes the packet's checksum 0, the receiver's check of RFC 1071 section 1 |

## Left out

- WebSocket.WebSocketClient.OnMessage: a decoded frame is taken to be well-typed; a frame that parses as JSON but has missing or mistyped fields (a `snapshot` whose `targets` is not an array, a `sample` message without its sample) is not represented, since the model's frame datatype only holds well-formed messages.
- React rendering, Tailwind classes, `toFixed` formatting, the charts and the settings page: presentation only.
- Floating point: NaN or infinite metric and threshold values, and rounding, are not modelled; doubles and JavaScript numbers are reals. The one division by a possibly-zero divisor on the client, `value / threshold` in the ratio rule, is modelled exactly by `Ratio.RatioExceeds` (+Infinity, -Infinity and NaN included).
- WebSocket.Dispatch: the `targets_updated` message is modelled as the code behaves: the call to a store method that does not exist throws inside `onmessage`'s try, and the store is left unchanged.
- The daemon's I/O is not modelled: socket creation, `poll`, `getaddrinfo`, the raw ICMP send and receive, mongoose, and the events file in the data directory.
- Probe outcomes are inputs of the tick (`ProbeIo`).
- The clock is read once per tick (`now`, `wall`). The C code reads it again inside `handle_probe_complete` and `do_tcp_probe_start`.
- Scheduler.Scheduler.Tick: the once-a-second phase (`stats_compute`, `event_log_check`, the callbacks) is reported as `metricsDue` and not composed. The event log is modelled on its own in `EventLog.Check`.
- Scheduler.Scheduler.constructor: ICMP initialisation, `event_log_init`, the NULL checks and the callbacks are not modelled; the closing `scheduler_sync_targets` is the `SyncTargets` call made by `Scheduler.Init`.
- Scheduler.Init: the freeing of the event log and the ICMP clean-up on a failed sync are not modelled, since neither is.
- The `probe_type` field that `config.c` and `scheduler.c` read is not declared in `config.h`. The tick takes `useIcmp` as an input.
- Scheduler.StepTarget: the side effects of `tcp_probe_cleanup` on the socket are not modelled.
- Scheduler.StepTarget: `next_probe_ms = now + interval` is not wrapped at 2^64.
- RingBuffers.RingBuffer.Init: `calloc` always succeeds in the model. Allocation failure during a scheduler sync is an input (`allocFailsAt`).
- EventLog.TypeToString: the "unknown" default of the C `switch` cannot be reached with the Dafny enumeration.
- HttpHandlers.JsonGetString: requires a buffer of at least one byte. Every caller passes 32 or more. With 0 the C code's `value_size - 1` would wrap.
- HttpHandlers.Atoi: overflow of `int` is undefined in C. The model returns the exact value.
- HttpHandlers.JsonGetDouble: `atof` is a parameter, not a model of decimal-to-double conversion.
- The JSON extractors know no escapes, nesting or arrays. The model reproduces this: a backslash does not escape a quote.
- HttpHandlers.HandleRequest: the `snprintf` body of `GET /api/config` (with `%.1f`) is a parameter.
- HttpHandlers.HandleRequest: `server_broadcast_targets_updated` and the response headers are not modelled.
- IcmpChecksum.Checksum: words are read in little-endian host order. Big-endian hosts are not modelled.
- IcmpChecksum.ChecksumVerifies: requires that the 32-bit sum does not wrap, which holds for any packet shorter than 128 KiB.
- Console logging is not modelled.
- RingBuffers.RingBuffer.Push: `elem == NULL` (-1) is not modelled; the element is a value and the method returns nothing, the C success code 0 being the only other outcome.
- RingBuffers.RingBuffer.CopyToArray: `dest == NULL` (returns 0) is not modelled; `dest` is a non-null array.
- RingBuffers.RingBuffer: `rb == NULL` in every ring function is not modelled; the functions are methods on an object.
- DaemonConfig.Config.AddTarget: `cfg`, `host` or `label == NULL` (-1) is not modelled; the strings are values.
- DaemonConfig.Config.RemoveTarget: `cfg` or `id == NULL` (-1) is not modelled.
- DaemonConfig.Config.FindTarget: `cfg` or `id == NULL` (NULL) is not modelled.
- Scheduler.Scheduler.GetTarget: `sched` or `id == NULL` is not modelled.
- Scheduler.Scheduler.Tick: `sched == NULL` is not modelled; the stopped scheduler is.
- Scheduler.Scheduler.SyncTargets: `sched` or `sched->config == NULL` (-1) is not modelled.
- DaemonConfig.Config.Init: `cfg == NULL` is not modelled.

=== FILE: config.dfy ===
/** The daemon's configuration and target registry (src/core/config.h,
    src/core/config.c). C strings are modelled by their characters before
    the terminating NUL; a fixed `char[N]` field holds at most N-1 of them. */
module DaemonConfig {
  import opened Wrappers

  const DEFAULT_PROBE_INTERVAL_MS: nat := 500
  const DEFAULT_PROBE_TIMEOUT_MS: nat := 1500
  const DEFAULT_WINDOW_SIZE: nat := 120
  const DEFAULT_LOSS_THRESHOLD: real := 5.0
  const DEFAULT_P95_THRESHOLD: real := 100.0
  const DEFAULT_JITTER_THRESHOLD: real := 20.0
  const BAD_CONDITION_DURATION_S: nat := 10
  const HTTP_WS_PORT: nat := 7331
  const MAX_TARGETS: nat := 10
  const MAX_LABEL_LEN: nat := 64
  const MAX_HOST_LEN: nat := 256

  datatype Thresholds = Thresholds(lossPct: real, p95Ms: real, jitterMs: real)

  /** `target_config_t`; `displayLabel` is the C field `label`. */
  datatype TargetConfig = TargetConfig(id: string, host: string, port: nat, displayLabel: string, enabled: bool)

  /** A zero-filled `target_config_t`. */
  const EMPTY_SLOT := TargetConfig("", "", 0, "", false)

  /** What `strncpy(dst, src, n); dst[n] = '\0'` leaves in `dst`. */
  function Truncate(s: string, n: nat): (t: string)
    ensures |t| <= n && t <= s
    ensures |s| <= n ==> t == s
  {
    if |s| <= n then s else s[..n]
  }

  // ---------------------------------------------------------------------
  // Slug generation

  /** `isalnum` in the C locale. */
  predicate IsAlnum(c: char)
  {
    'a' <= c <= 'z' || 'A' <= c <= 'Z' || '0' <= c <= '9'
  }

  /** `tolower` in the C locale. */
  function ToLower(c: char): (d: char)
    ensures 'A' <= c <= 'Z' ==> 'a' <= d <= 'z'
    ensures !('A' <= c <= 'Z') ==> d == c
  {
    if 'A' <= c <= 'Z' then (c as int - 'A' as int + 'a' as int) as char else c
  }

  predicate IsSeparator(c: char)
  {
    c == ' ' || c == '-' || c == '_'
  }

  /** The characters a slug may hold. */
  predicate SlugChar(c: char)
  {
    'a' <= c <= 'z' || '0' <= c <= '9' || c == '-'
  }

  /** One iteration of the slugify loop on the slug written so far: an
      alphanumeric is lowered and kept, a separator becomes a dash unless
      the slug is empty or already ends in one, anything else is dropped. */
  function Step(acc: string, c: char): string
  {
    if IsAlnum(c) then acc + [ToLower(c)]
    else if IsSeparator(c) && |acc| > 0 && acc[|acc| - 1] != '-' then acc + ['-']
    else acc
  }

  /** The slugify loop: it stops at the end of the label or once `limit`
      characters have been written. */
  function Scan(s: string, acc: string, limit: nat): string
    decreases |s|
  {
    if s == [] || |acc| >= limit then acc
    else Scan(s[1..], Step(acc, s[0]), limit)
  }

  lemma {:induction false} ScanUnfold(s: string, i: nat, acc: string, limit: nat)
    requires i < |s| && |acc| < limit
    ensures Scan(s[i..], acc, limit) == Scan(s[i + 1..], Step(acc, s[i]), limit)
  {
    assert s[i..][1..] == s[i + 1..];
  }

  lemma {:induction false} ScanDone(s: string, i: nat, acc: string, limit: nat)
    requires i <= |s| && (i == |s| || |acc| >= limit)
    ensures Scan(s[i..], acc, limit) == acc
  {
  }

  /** `config_slugify` into a buffer of `size` bytes: the loop, then one
      trailing dash removed. */
  function Slug(s: string, size: nat): string
    requires size > 0
  {
    TrimDash(Scan(s, [], size - 1))
  }

  function TrimDash(t: string): string
  {
    if |t| > 0 && t[|t| - 1] == '-' then t[..|t| - 1] else t
  }

  /** Only slug characters, no leading dash and no two dashes in a row. */
  ghost predicate WellFormed(t: string)
  {
    && (forall k :: 0 <= k < |t| ==> SlugChar(t[k]))
    && (|t| > 0 ==> t[0] != '-')
    && (forall k :: 0 <= k < |t| - 1 ==> !(t[k] == '-' && t[k + 1] == '-'))
  }

  lemma {:induction false} ScanWellFormed(s: string, acc: string, limit: nat)
    requires WellFormed(acc) && |acc| <= limit
    ensures var t := Scan(s, acc, limit); WellFormed(t) && |t| <= limit && acc <= t
    decreases |s|
  {
    if s == [] || |acc| >= limit {
    } else {
      var acc' := Step(acc, s[0]);
      assert WellFormed(acc') && acc <= acc';
      ScanWellFormed(s[1..], acc', limit);
    }
  }

  /** A slug holds only lower-case letters, digits and dashes, never starts
      or ends with a dash, never has two dashes in a row and fits its buffer
      with the terminating NUL. */
  lemma {:induction false} SlugShape(s: string, size: nat)
    requires size > 0
    ensures var r := Slug(s, size);
      && WellFormed(r)
      && (|r| > 0 ==> r[|r| - 1] != '-')
      && |r| <= size - 1
  {
    ScanWellFormed(s, [], size - 1);
    var t := Scan(s, [], size - 1);
    var r := Slug(s, size);
  }

  /** The label's alphanumerics, lowered, in order. */
  function Alnums(s: string): (t: string)
    ensures forall k :: 0 <= k < |t| ==> t[k] != '-'
  {
    if s == [] then []
    else if IsAlnum(s[0]) then [ToLower(s[0])] + Alnums(s[1..])
    else Alnums(s[1..])
  }

  function WithoutDashes(t: string): string
  {
    if t == [] then []
    else if t[0] == '-' then WithoutDashes(t[1..])
    else [t[0]] + WithoutDashes(t[1..])
  }

  lemma {:induction false} WithoutDashesAppend(a: string, b: string)
    ensures WithoutDashes(a + b) == WithoutDashes(a) + WithoutDashes(b)
  {
    if a != [] {
      assert (a + b)[1..] == a[1..] + b;
      WithoutDashesAppend(a[1..], b);
    } else {
      assert a + b == b;
    }
  }

  lemma {:induction false} ScanKeepsAlnums(s: string, acc: string, limit: nat)
    requires |acc| + |s| <= limit
    ensures WithoutDashes(Scan(s, acc, limit)) == WithoutDashes(acc) + Alnums(s)
    decreases |s|
  {
    if s != [] {
      var acc' := Step(acc, s[0]);
      ScanKeepsAlnums(s[1..], acc', limit);
      if acc' != acc {
        WithoutDashesAppend(acc, acc'[|acc|..]);
        assert acc' == acc + acc'[|acc|..];
      }
    }
  }

  /** When the label fits, every alphanumeric of it survives, lowered and in
      order, and nothing else but dashes is in the slug. */
  lemma {:induction false} SlugKeepsEveryAlnum(s: string, size: nat)
    requires size > 0 && |s| <= size - 1
    ensures WithoutDashes(Slug(s, size)) == Alnums(s)
  {
    ScanKeepsAlnums(s, [], size - 1);
    assert WithoutDashes([]) + Alnums(s) == Alnums(s);
    TrimDashKeepsAlnums(Scan(s, [], size - 1));
  }

  lemma {:induction false} TrimDashKeepsAlnums(t: string)
    ensures WithoutDashes(TrimDash(t)) == WithoutDashes(t)
  {
    if |t| > 0 && t[|t| - 1] == '-' {
      WithoutDashesAppend(t[..|t| - 1], ['-']);
      assert t == t[..|t| - 1] + ['-'];
    }
  }

  /** The label lowered character by character. */
  function Lowered(s: string): (t: string)
    ensures |t| == |s| && forall k :: 0 <= k < |s| ==> t[k] == ToLower(s[k])
  {
    seq(|s|, k requires 0 <= k < |s| => ToLower(s[k]))
  }

  lemma {:induction false} ScanAllAlnum(s: string, acc: string, limit: nat)
    requires forall k :: 0 <= k < |s| ==> IsAlnum(s[k])
    requires |acc| + |s| <= limit
    ensures Scan(s, acc, limit) == acc + Lowered(s)
    decreases |s|
  {
    if s != [] {
      ScanAllAlnum(s[1..], acc + [ToLower(s[0])], limit);
      assert acc + [ToLower(s[0])] + Lowered(s[1..]) == acc + Lowered(s);
    }
  }

  /** A label of letters and digits that fits is its own slug, lowered. */
  lemma {:induction false} SlugOfAlnumLabel(s: string, size: nat)
    requires size > 0 && |s| <= size - 1
    requires forall k :: 0 <= k < |s| ==> IsAlnum(s[k])
    ensures Slug(s, size) == Lowered(s)
  {
    ScanAllAlnum(s, [], size - 1);
    assert [] + Lowered(s) == Lowered(s);
  }

  lemma {:induction false} ScanCopiesSlug(t: string, acc: string, limit: nat)
    requires WellFormed(acc + t) && |acc| + |t| <= limit
    ensures Scan(t, acc, limit) == acc + t
    decreases |t|
  {
    if t != [] {
      var c := t[0];
      assert (acc + t)[|acc|] == c;
      assert SlugChar(c);
      if c == '-' && |acc| > 0 {
        assert (acc + t)[|acc| - 1] == acc[|acc| - 1];
      }
      assert Step(acc, c) == acc + [c];
      assert acc + [c] + t[1..] == acc + t;
      ScanCopiesSlug(t[1..], acc + [c], limit);
    }
  }

  /** Slugifying a slug gives it back: a slug is its own id. */
  lemma {:induction false} SlugIdempotent(s: string, size: nat)
    requires size > 0
    ensures Slug(Slug(s, size), size) == Slug(s, size)
  {
    SlugShape(s, size);
    SlugOfWellFormed(Slug(s, size), size);
  }

  /** A well-formed text that fits and does not end in a dash is its own slug. */
  lemma {:induction false} SlugOfWellFormed(r: string, size: nat)
    requires size > 0 && |r| <= size - 1
    requires WellFormed(r) && (|r| > 0 ==> r[|r| - 1] != '-')
    ensures Slug(r, size) == r
  {
    ScanCopiesFromEmpty(r, size - 1);
  }

  lemma {:induction false} ScanCopiesFromEmpty(r: string, limit: nat)
    requires WellFormed(r) && |r| <= limit
    ensures Scan(r, [], limit) == r
  {
    assert [] + r == r;
    ScanCopiesSlug(r, [], limit);
  }

  lemma {:induction false} SlugOfLiteral(name: string, id: string)
    requires 0 < |name| < MAX_LABEL_LEN && |id| == |name|
    requires forall k :: 0 <= k < |name| ==> IsAlnum(name[k]) && ToLower(name[k]) == id[k]
    ensures Slug(name, MAX_LABEL_LEN) == id
  {
    SlugOfAlnumLabel(name, MAX_LABEL_LEN);
    assert Lowered(name) == id;
  }

  /** The ids of the two targets `config_init` adds. */
  lemma {:induction false} DefaultSlugs()
    ensures Slug("Cloudflare", MAX_LABEL_LEN) == "cloudflare"
    ensures Slug("Google", MAX_LABEL_LEN) == "google"
  {
    CloudflareSlug();
    GoogleSlug();
  }

  lemma {:induction false} CloudflareSlug()
    ensures Slug("Cloudflare", MAX_LABEL_LEN) == "cloudflare"
  {
    var name, id := "Cloudflare", "cloudflare";
    forall k | 0 <= k < |name|
      ensures IsAlnum(name[k]) && ToLower(name[k]) == id[k]
    {
    }
    SlugOfLiteral(name, id);
  }

  lemma {:induction false} GoogleSlug()
    ensures Slug("Google", MAX_LABEL_LEN) == "google"
  {
    var name, id := "Google", "google";
    forall k | 0 <= k < |name|
      ensures IsAlnum(name[k]) && ToLower(name[k]) == id[k]
    {
    }
    SlugOfLiteral(name, id);
  }

  /** `config_slugify(name, slug, slug.Length)`: a null buffer or a zero
      size is left alone, a null name writes the empty string; otherwise the buffer holds
      `Slug(name, slug.Length)` followed by a NUL, and nothing after the
      NUL is touched. */
  method Slugify(name: Option<string>, slug: array?<char>)
    modifies slug
    ensures slug == null || slug.Length == 0 ==> slug == null || unchanged(slug)
    ensures slug != null && slug.Length > 0 && name.None? ==>
              slug[0] == '\0' && slug[1..] == old(slug[1..])
    ensures slug != null && slug.Length > 0 && name.Some? ==>
              var r := Slug(name.value, slug.Length);
              && |r| < slug.Length && slug[..|r|] == r && slug[|r|] == '\0'
              && slug[|r| + 1..] == old(slug[|r| + 1..])
  {
    if name.None? || slug == null || slug.Length == 0 {
      if slug != null && slug.Length > 0 {
        slug[0] := '\0';
      }
      return;
    }
    var j := ScanInto(name.value, slug);
    if j > 0 && slug[j - 1] == '-' {
      j := j - 1;
    }
    assert slug[..j] == Slug(name.value, slug.Length);
    slug[j] := '\0';
  }

  /** One character of the `config_slugify` loop, written at `slug[j]`. */
  method StepInto(slug: array<char>, j: nat, c: char) returns (j': nat)
    requires j < slug.Length
    modifies slug
    ensures j' <= j + 1 && slug[..j'] == Step(old(slug[..j]), c)
    ensures forall k :: j' <= k < slug.Length ==> slug[k] == old(slug[k])
  {
    j' := j;
    if IsAlnum(c) {
      slug[j] := ToLower(c);
      j' := j + 1;
    } else if IsSeparator(c) {
      if j > 0 && slug[j - 1] != '-' {
        slug[j] := '-';
        j' := j + 1;
      }
    }
  }

  /** The loop of `config_slugify`: writes `Scan(s, [], slug.Length - 1)`
      into the front of `slug` and returns its length; nothing from that
      length on is touched. */
  method ScanInto(s: string, slug: array<char>) returns (j: nat)
    requires slug.Length > 0
    modifies slug
    ensures j <= slug.Length - 1 && slug[..j] == Scan(s, [], slug.Length - 1)
    ensures forall k :: j <= k < slug.Length ==> slug[k] == old(slug[k])
  {
    var limit := slug.Length - 1;
    var i := 0;
    j := 0;
    while i < |s| && j < limit
      invariant 0 <= i <= |s| && j <= limit
      invariant Scan(s[i..], slug[..j], limit) == Scan(s, [], limit)
      invariant forall k :: j <= k < slug.Length ==> slug[k] == old(slug[k])
    {
      ScanUnfold(s, i, slug[..j], limit);
      j := StepInto(slug, j, s[i]);
      i := i + 1;
    }
    ScanDone(s, i, slug[..j], limit);
  }

  /** Reads the C string held in a buffer: the characters before the first
      NUL. */
  method ReadCString(a: array<char>) returns (s: string)
    requires exists k :: 0 <= k < a.Length && a[k] == '\0'
    ensures |s| < a.Length && s == a[..|s|] && a[|s|] == '\0' && '\0' !in s
  {
    var n := 0;
    while a[n] != '\0'
      invariant 0 <= n < a.Length && '\0' !in a[..n]
      invariant exists k :: n <= k < a.Length && a[k] == '\0'
      decreases a.Length - n
    {
      n := n + 1;
    }
    s := a[..n];
  }

  /** The index of the first entry with the given id, as the registry's
      `strcmp` scans find it. */
  function IndexOfId(ts: seq<TargetConfig>, id: string): (r: Option<nat>)
    ensures r.None? <==> forall k :: 0 <= k < |ts| ==> ts[k].id != id
    ensures r.Some? ==> r.value < |ts| && ts[r.value].id == id
                        && forall k :: 0 <= k < r.value ==> ts[k].id != id
  {
    if ts == [] then None
    else if ts[0].id == id then Some(0)
    else match IndexOfId(ts[1..], id)
      case None => None
      case Some(k) => Some(k + 1)
  }

  /** The first entry carrying `id` is the one `IndexOfId` finds. */
  lemma {:induction false} IndexOfIdFirst(ts: seq<TargetConfig>, id: string, i: nat)
    requires i < |ts| && ts[i].id == id
    requires forall k :: 0 <= k < i ==> ts[k].id != id
    ensures IndexOfId(ts, id) == Some(i)
  {
    var r := IndexOfId(ts, id);
    assert r.Some?;
    assert !(r.value < i) && !(i < r.value);
  }

  ghost predicate UniqueIds(ts: seq<TargetConfig>)
  {
    forall a, b :: 0 <= a < b < |ts| ==> ts[a].id != ts[b].id
  }

  /** Deleting one entry of a list with distinct ids leaves distinct ids,
      none of them the deleted one. */
  lemma {:induction false} RemoveAtKeepsUnique(ts: seq<TargetConfig>, i: nat)
    requires UniqueIds(ts) && i < |ts|
    ensures UniqueIds(ts[..i] + ts[i + 1..])
    ensures forall t :: t in ts[..i] + ts[i + 1..] ==> t in ts && t.id != ts[i].id
  {
    var r := ts[..i] + ts[i + 1..];
    assert forall a :: 0 <= a < |r| ==> r[a] == ts[if a < i then a else a + 1];
  }

  /** The shift-down loop of `config_remove_target`: entries `i+1 .. n-1`
      move one slot down over entry `i`; slot `n-1` keeps its old value
      and later slots are untouched. */
  method ShiftDown(a: array<TargetConfig>, i: nat, n: nat)
    requires i < n <= a.Length
    modifies a
    ensures a[..n - 1] == old(a[..i]) + old(a[i + 1..n])
    ensures a[n - 1..] == old(a[n - 1..])
  {
    var j := i;
    while j < n - 1
      invariant i <= j <= n - 1
      invariant a[..j] == old(a[..i]) + old(a[i + 1..j + 1])
      invariant a[j..] == old(a[j..])
    {
      a[j] := a[j + 1];
      j := j + 1;
    }
  }

  /** The deletion in `config_remove_target`: shift slots `i+1 .. n-1`
      down one and zero-fill slot `n-1`, which is then free like the
      slots after it. */
  method RemoveSlot(a: array<TargetConfig>, i: nat, n: nat)
    requires i < n <= a.Length
    requires forall k :: n <= k < a.Length ==> a[k] == EMPTY_SLOT
    modifies a
    ensures a[..n - 1] == old(a[..i]) + old(a[i + 1..n])
    ensures forall k :: n - 1 <= k < a.Length ==> a[k] == EMPTY_SLOT
  {
    ShiftDown(a, i, n);
    forall k | n <= k < a.Length
      ensures a[k] == EMPTY_SLOT
    {
      assert a[k] == a[n - 1..][k - (n - 1)];
    }
    a[n - 1] := EMPTY_SLOT;
  }

  /** `config_slugify` into a fresh `char[MAX_LABEL_LEN]` buffer, read back
      as a C string. */
  method SlugInBuffer(name: string) returns (slug: string)
    ensures slug == Slug(name, MAX_LABEL_LEN)
  {
    var buf := new char[MAX_LABEL_LEN];
    Slugify(Some(name), buf);
    ghost var r := Slug(name, MAX_LABEL_LEN);
    assert buf[|r|] == '\0';
    slug := ReadCString(buf);
    assert slug == r by {
      assert '\0' !in r by {
        SlugShape(name, MAX_LABEL_LEN);
        assert forall k :: 0 <= k < |r| ==> SlugChar(r[k]);
      }
    }
  }

  /** `config_t`. */
  class Config {
    var probeIntervalMs: nat
    var probeTimeoutMs: nat
    var httpPort: nat
    var thresholds: Thresholds
    var targets: array<TargetConfig>
    var targetCount: nat

    /** Ten slots, the first `targetCount` in use with pairwise distinct
        ids, the rest zero-filled. */
    ghost predicate Valid()
      reads this, targets
    {
      && targets.Length == MAX_TARGETS
      && targetCount <= MAX_TARGETS
      && UniqueIds(targets[..targetCount])
      && (forall k :: targetCount <= k < MAX_TARGETS ==> targets[k] == EMPTY_SLOT)
    }

    /** The targets in use, in registry order. */
    ghost function Registry(): seq<TargetConfig>
      reads this, targets
      requires Valid()
    {
      targets[..targetCount]
    }

    /** `config_init`: zero everything, set the defaults and add the two
        default targets. */
    constructor Init()
      ensures Valid()
      ensures probeIntervalMs == DEFAULT_PROBE_INTERVAL_MS && probeTimeoutMs == DEFAULT_PROBE_TIMEOUT_MS
      ensures httpPort == HTTP_WS_PORT
      ensures thresholds == Thresholds(DEFAULT_LOSS_THRESHOLD, DEFAULT_P95_THRESHOLD, DEFAULT_JITTER_THRESHOLD)
      ensures Registry() == [TargetConfig("cloudflare", "1.1.1.1", 443, "Cloudflare", true),
                             TargetConfig("google", "8.8.8.8", 443, "Google", true)]
    {
      probeIntervalMs := DEFAULT_PROBE_INTERVAL_MS;
      probeTimeoutMs := DEFAULT_PROBE_TIMEOUT_MS;
      httpPort := HTTP_WS_PORT;
      thresholds := Thresholds(DEFAULT_LOSS_THRESHOLD, DEFAULT_P95_THRESHOLD, DEFAULT_JITTER_THRESHOLD);
      targets := new TargetConfig[MAX_TARGETS](_ => EMPTY_SLOT);
      targetCount := 0;
      new;
      DefaultSlugs();
      var a := AddTarget("1.1.1.1", 443, "Cloudflare");
      assert Registry() == [TargetConfig("cloudflare", "1.1.1.1", 443, "Cloudflare", true)];
      assert IndexOfId(Registry(), "google").None? by {
        assert "cloudflare"[0] != "google"[0];
      }
      var b := AddTarget("8.8.8.8", 443, "Google");
    }

    /** `config_add_target`: -1 and no change when the registry is full or
        the slug of the label `name` is already an id; otherwise the new entry (slug id,
        host and label truncated to their fields, enabled) goes at the end
        and its index is returned. The port arrives already a `uint16_t`. */
    method AddTarget(host: string, port: nat, name: string) returns (idx: int)
      requires Valid()
      modifies this, targets
      ensures Valid() && targets == old(targets)
      ensures probeIntervalMs == old(probeIntervalMs) && probeTimeoutMs == old(probeTimeoutMs)
      ensures httpPort == old(httpPort) && thresholds == old(thresholds)
      ensures old(targetCount) >= MAX_TARGETS || IndexOfId(old(Registry()), Slug(name, MAX_LABEL_LEN)).Some? ==>
                idx == -1 && Registry() == old(Registry())
      ensures old(targetCount) < MAX_TARGETS && IndexOfId(old(Registry()), Slug(name, MAX_LABEL_LEN)).None? ==>
                && idx == old(targetCount)
                && Registry() == old(Registry()) + [TargetConfig(Slug(name, MAX_LABEL_LEN), Truncate(host, MAX_HOST_LEN - 1),
                                                                 port, Truncate(name, MAX_LABEL_LEN - 1), true)]
    {
      if targetCount >= MAX_TARGETS {
        return -1;
      }
      var slug := SlugInBuffer(name);
      var found := FindTarget(slug);
      if found.Some? {
        return -1;
      }
      idx := targetCount;
      assert Truncate(slug, MAX_LABEL_LEN - 1) == slug by {
        SlugShape(name, MAX_LABEL_LEN);
      }
      targets[idx] := TargetConfig(Truncate(slug, MAX_LABEL_LEN - 1), Truncate(host, MAX_HOST_LEN - 1),
                                   port, Truncate(name, MAX_LABEL_LEN - 1), true);
      targetCount := targetCount + 1;
      assert targets[..targetCount] == old(targets[..targetCount]) + [targets[idx]];
    }

    /** `config_remove_target`: delete the entry with the given id, shifting
        the later entries down one slot and zero-filling the freed slot;
        -1 and no change when no entry has that id. */
    method RemoveTarget(id: string) returns (rc: int)
      requires Valid()
      modifies this, targets
      ensures Valid() && targets == old(targets)
      ensures probeIntervalMs == old(probeIntervalMs) && probeTimeoutMs == old(probeTimeoutMs)
      ensures httpPort == old(httpPort) && thresholds == old(thresholds)
      ensures IndexOfId(old(Registry()), id).None? ==> rc == -1 && Registry() == old(Registry())
      ensures IndexOfId(old(Registry()), id).Some? ==>
                var k := IndexOfId(old(Registry()), id).value;
                rc == 0 && Registry() == old(Registry())[..k] + old(Registry())[k + 1..]
      ensures forall t :: t in Registry() ==> t in old(Registry()) && t.id != id
    {
      var found := FindTarget(id);
      if found.None? {
        return -1;
      }
      RemoveAt(found.value);
      rc := 0;
    }

    /** The deletion of entry `i` in `config_remove_target`. */
    method RemoveAt(i: nat)
      requires Valid() && i < targetCount
      modifies this, targets
      ensures Valid() && targets == old(targets)
      ensures probeIntervalMs == old(probeIntervalMs) && probeTimeoutMs == old(probeTimeoutMs)
      ensures httpPort == old(httpPort) && thresholds == old(thresholds)
      ensures Registry() == old(Registry())[..i] + old(Registry())[i + 1..]
      ensures forall t :: t in Registry() ==> t in old(Registry()) && t.id != old(Registry())[i].id
    {
      ghost var before := targets[..targetCount];
      ghost var after := before[..i] + before[i + 1..];
      RemoveAtKeepsUnique(before, i);
      assert before[..i] == targets[..i] && before[i + 1..] == targets[i + 1..targetCount];
      RemoveSlot(targets, i, targetCount);
      targetCount := targetCount - 1;
      assert targets[..targetCount] == after;
      assert UniqueIds(targets[..targetCount]);
    }

    /** `config_find_target`: the index of the first entry whose id is
        `id`, or nothing. */
    method FindTarget(id: string) returns (r: Option<nat>)
      requires Valid()
      ensures r == IndexOfId(Registry(), id)
      ensures r.Some? ==> r.value < targetCount && targets[r.value].id == id
    {
      ghost var registry := Registry();
      var i := 0;
      while i < targetCount
        invariant 0 <= i <= targetCount
        invariant forall k :: 0 <= k < i ==> registry[k].id != id
      {
        if targets[i].id == id {
          IndexOfIdFirst(registry, id, i);
          return Some(i);
        }
        i := i + 1;
      }
      return None;
    }
  }
}

=== FILE: event_log.dfy ===
/** The daemon's bad-condition detector and event log
    (src/core/event_log.h, src/core/event_log.c): per target, a tracker
    that notices when a metric goes over its threshold and emits one event
    once the condition has lasted `BAD_CONDITION_DURATION_S` seconds, into
    a ring buffer of the latest `EVENT_BUFFER_SIZE` events. The monotonic
    and wall clocks are parameters; the JSON-lines file append is not
    modelled. */
module EventLog {
  import opened Wrappers
  import Window
  import opened StatsTypes
  import opened RingBuffers
  import opened DaemonConfig

  const EVENT_BUFFER_SIZE: nat := 100
  const MAX_REASON_LEN: nat := 128
  /** `sizeof(event_t)` on an LP64 target; the ring buffer only needs it
      to be non-zero. */
  const EVENT_RECORD_SIZE: nat := 232
  const UINT64_MODULUS: int := 0x1_0000_0000_0000_0000
  const UINT32_MODULUS: int := 0x1_0000_0000

  datatype EventType = BadLoss | BadP95 | BadJitter

  /** `event_type_to_field`: the metrics field an event type is about. */
  function TypeToField(t: EventType): (f: string)
    ensures |f| > 0
  {
    match t
    case BadLoss => "loss_pct"
    case BadP95 => "p95_ms"
    case BadJitter => "jitter_ms"
  }

  /** `event_type_to_string`: the event's reason text. */
  function TypeToString(t: EventType): (s: string)
    ensures 0 < |s| < MAX_REASON_LEN
  {
    match t
    case BadLoss => "loss_pct exceeded threshold"
    case BadP95 => "p95_ms exceeded threshold"
    case BadJitter => "jitter_ms exceeded threshold"
  }

  /** The reason of every event type is the name of its field followed by
      " exceeded threshold", so the reason identifies the type. */
  lemma {:induction false} ReasonNamesField(t: EventType)
    ensures TypeToString(t) == TypeToField(t) + " exceeded threshold"
    ensures forall u :: TypeToString(u) == TypeToString(t) ==> u == t
  {
    ReasonHasSuffix(t);
    ReasonIdentifiesType(t);
  }

  lemma {:induction false} ReasonHasSuffix(t: EventType)
    ensures TypeToString(t) == TypeToField(t) + " exceeded threshold"
  {
    match t
    case BadLoss => LossReason();
    case BadP95 => P95Reason();
    case BadJitter => JitterReason();
  }

  lemma {:induction false} LossReason()
    ensures "loss_pct exceeded threshold" == "loss_pct" + " exceeded threshold"
  {
    Joined("loss_pct", " exceeded threshold", "loss_pct exceeded threshold");
  }

  lemma {:induction false} P95Reason()
    ensures "p95_ms exceeded threshold" == "p95_ms" + " exceeded threshold"
  {
    Joined("p95_ms", " exceeded threshold", "p95_ms exceeded threshold");
  }

  lemma {:induction false} JitterReason()
    ensures "jitter_ms exceeded threshold" == "jitter_ms" + " exceeded threshold"
  {
    Joined("jitter_ms", " exceeded threshold", "jitter_ms exceeded threshold");
  }

  /** `c` is `a` followed by `b`, checked character by character. */
  lemma {:induction false} Joined(a: string, b: string, c: string)
    requires |c| == |a| + |b|
    requires forall k :: 0 <= k < |a| ==> c[k] == a[k]
    requires forall k :: 0 <= k < |b| ==> c[|a| + k] == b[k]
    ensures c == a + b
  {
    forall k | 0 <= k < |c|
      ensures c[k] == (a + b)[k]
    {
      if k >= |a| {
        assert c[|a| + (k - |a|)] == b[k - |a|];
      }
    }
  }

  lemma {:induction false} ReasonIdentifiesType(t: EventType)
    ensures forall u :: TypeToString(u) == TypeToString(t) ==> u == t
  {
    forall u | TypeToString(u) == TypeToString(t)
      ensures u == t
    {
      assert TypeToString(u)[0] == TypeToString(t)[0];
    }
  }

  /** `event_t` */
  datatype Event = Event(
    timestampMs: nat,
    targetId: string,
    kind: EventType,
    reason: string,
    value: real,
    threshold: real,
    durationS: nat)

  /** The metric over its threshold, with both values. */
  datatype Breach = Breach(kind: EventType, value: real, threshold: real)

  /** The threshold comparisons of `event_log_check`: the first of loss,
      p95 and jitter strictly over its threshold, in that order. */
  function FirstBreach(m: Metrics, th: Thresholds): (r: Option<Breach>)
    ensures r.None? <==> m.lossPct <= th.lossPct && m.p95Ms <= th.p95Ms && m.jitterMs <= th.jitterMs
    ensures m.lossPct > th.lossPct ==> r == Some(Breach(BadLoss, m.lossPct, th.lossPct))
    ensures r.Some? && r.value.kind == BadP95 <==> m.lossPct <= th.lossPct && m.p95Ms > th.p95Ms
    ensures r.Some? && r.value.kind == BadP95 ==> r.value == Breach(BadP95, m.p95Ms, th.p95Ms)
    ensures r.Some? && r.value.kind == BadJitter <==>
              m.lossPct <= th.lossPct && m.p95Ms <= th.p95Ms && m.jitterMs > th.jitterMs
    ensures r.Some? && r.value.kind == BadJitter ==> r.value == Breach(BadJitter, m.jitterMs, th.jitterMs)
  {
    if m.lossPct > th.lossPct then Some(Breach(BadLoss, m.lossPct, th.lossPct))
    else if m.p95Ms > th.p95Ms then Some(Breach(BadP95, m.p95Ms, th.p95Ms))
    else if m.jitterMs > th.jitterMs then Some(Breach(BadJitter, m.jitterMs, th.jitterMs))
    else None
  }

  /** Whole seconds since `start`, as `(uint32_t)((now - start) / 1000)`
      on `uint64_t` operands: the subtraction wraps and the cast
      truncates. */
  function DurationS(now: nat, start: nat): (d: nat)
    ensures d < UINT32_MODULUS
    ensures start <= now < start + 1000 * UINT32_MODULUS && now < UINT64_MODULUS ==> d == (now - start) / 1000
  {
    ((now - start) % UINT64_MODULUS / 1000) % UINT32_MODULUS
  }

  /** The fields of `bad_state_t`, as a value. */
  datatype Tracker = Tracker(isBad: bool, badStartMs: nat, eventEmitted: bool, lastBadType: EventType)

  /** The tracker after one check, whether an event is emitted, and the
      duration in whole seconds the check computed (0 when not bad). */
  datatype StepResult = StepResult(next: Tracker, emitted: bool, durationS: nat)

  /** One `event_log_check` on the tracker. */
  function Step(t: Tracker, b: Option<Breach>, now: nat): (r: StepResult)
    // conditions cleared: the period ends, the start time is kept
    ensures b.None? ==> && !r.emitted && !r.next.isBad && !r.next.eventEmitted
                        && r.next.badStartMs == t.badStartMs && r.next.lastBadType == t.lastBadType
    // just became bad: a new period starts now
    ensures b.Some? && !t.isBad ==> && r.next.isBad && r.next.badStartMs == now
                                    && r.next.lastBadType == b.value.kind
    // staying bad never restarts the period
    ensures b.Some? && t.isBad ==> r.next.isBad && r.next.badStartMs == t.badStartMs && r.next.lastBadType == t.lastBadType
    // one event, once the period has lasted long enough
    ensures r.emitted <==> && b.Some? && !(t.isBad && t.eventEmitted)
                           && DurationS(now, r.next.badStartMs) >= BAD_CONDITION_DURATION_S
    ensures r.next.eventEmitted <==> b.Some? && (r.emitted || (t.isBad && t.eventEmitted))
    ensures r.emitted ==> r.durationS == DurationS(now, r.next.badStartMs)
  {
    match b
    case None => StepResult(t.(isBad := false, eventEmitted := false), false, 0)
    case Some(breach) =>
      var t1 := if t.isBad then t else Tracker(true, now, false, breach.kind);
      var d := DurationS(now, t1.badStartMs);
      if d >= BAD_CONDITION_DURATION_S && !t1.eventEmitted then StepResult(t1.(eventEmitted := true), true, d)
      else StepResult(t1, false, d)
  }

  /** The event a check emits. */
  function MakeEvent(wall: nat, targetId: string, b: Breach, durationS: nat): Event
  {
    Event(wall, Truncate(targetId, MAX_LABEL_LEN - 1), b.kind, TypeToString(b.kind), b.value, b.threshold, durationS)
  }

  /** One check of a run: the metrics' breach, if any, and the clock. */
  datatype Observation = Observation(breach: Option<Breach>, now: nat)

  /** The tracker after a run of checks, and how many events they emitted. */
  function Run(t: Tracker, obs: seq<Observation>): (Tracker, nat)
    decreases |obs|
  {
    if obs == [] then (t, 0)
    else
      var r := Step(t, obs[0].breach, obs[0].now);
      var rest := Run(r.next, obs[1..]);
      (rest.0, rest.1 + (if r.emitted then 1 else 0))
  }

  /** At most one event per continuous bad period: along checks that all
      find a breach, at most one event is emitted, and none when the
      period's event was already emitted. */
  lemma {:induction false} OneEventPerBadPeriod(t: Tracker, obs: seq<Observation>)
    requires forall i :: 0 <= i < |obs| ==> obs[i].breach.Some?
    ensures Run(t, obs).1 <= if t.isBad && t.eventEmitted then 0 else 1
    ensures obs != [] ==> Run(t, obs).0.isBad
    decreases |obs|
  {
    if obs != [] {
      var r := Step(t, obs[0].breach, obs[0].now);
      OneEventPerBadPeriod(r.next, obs[1..]);
      if r.emitted {
        assert r.next.isBad && r.next.eventEmitted;
      }
    }
  }

  /** After a check without a breach, the next breach starts a new period
      at its own time without emitting, and a breach still present ten
      seconds or more into that period emits again, whatever was emitted
      before the clear. */
  lemma {:induction false} ClearedPeriodCanEmitAgain(t: Tracker, now: nat, b: Breach, later: nat, b2: Breach, later2: nat)
    requires later + BAD_CONDITION_DURATION_S * 1000 <= later2 < later + 1000 * UINT32_MODULUS
    ensures var t1 := Step(t, None, now).next;
      var t2 := Step(t1, Some(b), later).next;
      && !t1.isBad && !t1.eventEmitted
      && t2.badStartMs == later && !Step(t1, Some(b), later).emitted
      && Step(t2, Some(b2), later2).emitted
      && Step(t2, Some(b2), later2).durationS == (later2 - later) / 1000
  {
    var t2 := Step(Step(t, None, now).next, Some(b), later).next;
    assert (later2 - later) % UINT64_MODULUS == later2 - later;
    assert DurationS(later2, t2.badStartMs) == (later2 - later) / 1000;
  }

  /** `bad_state_t` */
  class BadState {
    var isBad: bool
    var badStartMs: nat
    var eventEmitted: bool
    var lastBadType: EventType

    /** A zero-filled `bad_state_t`. */
    constructor ()
      ensures Value() == Tracker(false, 0, false, BadLoss)
    {
      isBad, badStartMs, eventEmitted, lastBadType := false, 0, false, BadLoss;
    }

    function Value(): Tracker
      reads this
    {
      Tracker(isBad, badStartMs, eventEmitted, lastBadType)
    }
  }

  /** `event_log_t`: the ring buffer of the latest events. */
  class Log {
    var events: RingBuffer<Event>

    ghost predicate Valid()
      reads this, events
    {
      events.Valid() && events.capacity == EVENT_BUFFER_SIZE
    }

    /** `event_log_init`, without the events file path: an empty buffer of
        `EVENT_BUFFER_SIZE` events. */
    constructor ()
      ensures Valid() && fresh(events) && fresh(events.data) && events.Contents() == []
    {
      var rb := new RingBuffer<Event>();
      var rc := rb.Init(EVENT_RECORD_SIZE, EVENT_BUFFER_SIZE);
      events := rb;
    }
  }

  /** `event_log_check`: any null argument gives false and changes nothing;
      otherwise the tracker takes one `Step` on the metrics' first breach,
      and when that step emits, the event is pushed onto the log and true
      is returned. `now` is the monotonic clock, `wall` the wall clock
      stamped on the event. */
  method Check(log: Log?, state: BadState?, targetId: Option<string>, metrics: Option<Metrics>,
               thresholds: Option<Thresholds>, now: nat, wall: nat) returns (emitted: bool)
    requires log != null ==> log.Valid()
    modifies state, if log == null then {} else {log.events, log.events.data}
    ensures log != null ==> log.events == old(log.events) && log.Valid()
    ensures log == null || state == null || targetId.None? || metrics.None? || thresholds.None? ==>
              && !emitted
              && (state != null ==> state.Value() == old(state.Value()))
              && (log != null ==> log.events.Contents() == old(log.events.Contents()))
    ensures log != null && state != null && targetId.Some? && metrics.Some? && thresholds.Some? ==>
              var b := FirstBreach(metrics.value, thresholds.value);
              var r := Step(old(state.Value()), b, now);
              && state.Value() == r.next
              && emitted == r.emitted
              && log.events.Contents() ==
                   if r.emitted
                   then Window.Push(old(log.events.Contents()), MakeEvent(wall, targetId.value, b.value, r.durationS), EVENT_BUFFER_SIZE)
                   else old(log.events.Contents())
  {
    if log == null || state == null || targetId.None? || metrics.None? || thresholds.None? {
      return false;
    }
    var currentlyBad, badType, badValue, badThreshold := DetectBreach(metrics.value, thresholds.value);
    if currentlyBad {
      emitted := TrackBreach(log, state, targetId.value, Breach(badType, badValue, badThreshold), now, wall);
    } else {
      state.isBad := false;
      state.eventEmitted := false;
      emitted := false;
    }
  }

  /** The threshold comparisons of `event_log_check`. */
  method DetectBreach(m: Metrics, th: Thresholds)
    returns (currentlyBad: bool, badType: EventType, badValue: real, badThreshold: real)
    ensures currentlyBad <==> FirstBreach(m, th).Some?
    ensures currentlyBad ==> FirstBreach(m, th).value == Breach(badType, badValue, badThreshold)
  {
    currentlyBad, badType, badValue, badThreshold := false, BadLoss, 0.0, 0.0;
    if m.lossPct > th.lossPct {
      currentlyBad, badType, badValue, badThreshold := true, BadLoss, m.lossPct, th.lossPct;
    } else if m.p95Ms > th.p95Ms {
      currentlyBad, badType, badValue, badThreshold := true, BadP95, m.p95Ms, th.p95Ms;
    } else if m.jitterMs > th.jitterMs {
      currentlyBad, badType, badValue, badThreshold := true, BadJitter, m.jitterMs, th.jitterMs;
    }
  }

  /** The bad branch of `event_log_check`: start the period if it is new,
      and emit the event once it has lasted long enough. */
  method TrackBreach(log: Log, state: BadState, targetId: string, b: Breach, now: nat, wall: nat)
    returns (emitted: bool)
    requires log.Valid()
    modifies state, log.events, log.events.data
    ensures log.events == old(log.events) && log.Valid()
    ensures var r := Step(old(state.Value()), Some(b), now);
      && state.Value() == r.next
      && emitted == r.emitted
      && log.events.Contents() ==
           if r.emitted
           then Window.Push(old(log.events.Contents()), MakeEvent(wall, targetId, b, r.durationS), EVENT_BUFFER_SIZE)
           else old(log.events.Contents())
  {
    ghost var t0 := state.Value();
    ghost var r := Step(t0, Some(b), now);
    if !state.isBad {
      state.isBad := true;
      state.badStartMs := now;
      state.eventEmitted := false;
      state.lastBadType := b.kind;
    }
    assert state.Value() == if t0.isBad then t0 else Tracker(true, now, false, b.kind);
    var durationMs := (now - state.badStartMs) % UINT64_MODULUS;
    var durationS := (durationMs / 1000) % UINT32_MODULUS;
    assert durationS == DurationS(now, state.badStartMs) == r.durationS;
    if durationS >= BAD_CONDITION_DURATION_S && !state.eventEmitted {
      var event := Event(wall, Truncate(targetId, MAX_LABEL_LEN - 1), b.kind, TypeToString(b.kind),
                         b.value, b.threshold, durationS);
      assert event == MakeEvent(wall, targetId, b, r.durationS);
      log.events.Push(event);
      state.eventEmitted := true;
      return true;
    }
    return false;
  }
}

=== FILE: frontend_types.dfy ===
/** The client's data model (frontend/src/types/index.ts). JavaScript numbers
    that hold metric values are reals; timestamps and ports are integers. */
module FrontendTypes {

  /** One probe outcome. */
  datatype Sample = Sample(ts: int, rttMs: real, success: bool)

  /** The daemon's statistics for one target, stored as received. */
  datatype Metrics = Metrics(
    currentRttMs: real,
    maxRttMs: real,
    lossPct: real,
    jitterMs: real,
    p50Ms: real,
    p95Ms: real)

  /** A monitored endpoint with its latest metrics and its sample window
      (oldest first). */
  datatype Target = Target(
    id: string,
    host: string,
    port: int,
    displayLabel: string,
    metrics: Metrics,
    samples: seq<Sample>)

  datatype Thresholds = Thresholds(lossPct: real, p95Ms: real, jitterMs: real)

  datatype Config = Config(probeIntervalMs: int, probeTimeoutMs: int, thresholds: Thresholds)

  /** A notable-condition record emitted by the daemon. */
  datatype NetEvent = NetEvent(ts: int, targetId: string, reason: string, details: map<string, real>)
}

=== FILE: health_grade.dfy ===
/** The fleet health classifier `calculateGrade`
    (frontend/src/components/HealthGrade.tsx): a grade A to F and a message
    from the targets' latest metrics and the optional thresholds. */
module HealthGrade {
  import opened Wrappers
  import opened FrontendTypes
  import opened Ratio
  import Text

  /** Packet loss above this percentage fails the fleet outright. */
  const SEVERE_LOSS_PCT: real := 10.0

  datatype Grade = A | B | C | D | F

  /** A lower rank is a healthier grade. */
  function GradeRank(g: Grade): nat {
    match g
    case A => 0
    case B => 1
    case C => 2
    case D => 3
    case F => 4
  }

  /** The message shown under the grade. The healthy message embeds the
      fleet-average loss printed with `toFixed(1)`; the model keeps the number
      rather than its rendering. */
  datatype Message = Text(text: string) | HealthyWithLoss(avgLossPct: real)

  datatype GradeInfo = GradeInfo(grade: Grade, message: Message)

  predicate IsOffline(t: Target) {
    t.metrics.currentRttMs <= 0.0
  }

  /** `targets.filter(offline).length` */
  function OfflineCount(ts: seq<Target>): (n: nat)
    ensures n <= |ts|
    ensures n == 0 <==> forall i :: 0 <= i < |ts| ==> !IsOffline(ts[i])
  {
    if ts == [] then 0
    else OfflineCount(ts[..|ts| - 1]) + (if IsOffline(ts[|ts| - 1]) then 1 else 0)
  }

  /** `targets.some(t => t.metrics.loss_pct > 10)` */
  predicate SevereLoss(ts: seq<Target>) {
    exists i :: 0 <= i < |ts| && ts[i].metrics.lossPct > SEVERE_LOSS_PCT
  }

  function Plural(n: nat): string {
    if n > 1 then "s" else ""
  }

  /** The reasons for an F grade, in order, joined by " · ". */
  function FailureMessage(offline: nat, severe: bool): string {
    var offlineText := Text.NatToString(offline) + " target" + Plural(offline) + " offline";
    if offline > 0 && severe then offlineText + " · >10% packet loss"
    else if offline > 0 then offlineText
    else ">10% packet loss"
  }

  /** The three (value, threshold) checks made for one target. */
  function Checks(m: Metrics, th: Thresholds): seq<(real, real)> {
    [(m.lossPct, th.lossPct), (m.p95Ms, th.p95Ms), (m.jitterMs, th.jitterMs)]
  }

  function CountLevel(cs: seq<(real, real)>, l: Level): (n: nat)
    ensures n <= |cs|
  {
    if cs == [] then 0
    else CountLevel(cs[..|cs| - 1], l) + (if LevelOf(cs[|cs| - 1].0, cs[|cs| - 1].1) == l then 1 else 0)
  }

  /** The fleet-wide number of checks at level `l`. */
  function FleetCount(ts: seq<Target>, th: Thresholds, l: Level): nat {
    if ts == [] then 0
    else FleetCount(ts[..|ts| - 1], th, l) + CountLevel(Checks(ts[|ts| - 1].metrics, th), l)
  }

  function SumLoss(ts: seq<Target>): real {
    if ts == [] then 0.0 else SumLoss(ts[..|ts| - 1]) + ts[|ts| - 1].metrics.lossPct
  }

  /** The classification, stated as a function of its inputs. */
  function Classify(ts: seq<Target>, th: Option<Thresholds>): GradeInfo {
    if |ts| == 0 then GradeInfo(A, Text("No targets configured"))
    else if OfflineCount(ts) > 0 || SevereLoss(ts) then
      GradeInfo(F, Text(FailureMessage(OfflineCount(ts), SevereLoss(ts))))
    else if th.None? then GradeInfo(A, Text("All targets online"))
    else
      var red := FleetCount(ts, th.value, Over);
      var yellow := FleetCount(ts, th.value, Approaching);
      if red >= 3 then GradeInfo(D, Text(Text.NatToString(red) + " metrics above threshold"))
      else if red >= 1 then
        GradeInfo(C, Text(Text.NatToString(red) + " metric" + Plural(red) + " above threshold"))
      else if yellow >= 1 then
        GradeInfo(B, Text(Text.NatToString(yellow) + " metric" + Plural(yellow) + " approaching threshold"))
      else GradeInfo(A, HealthyWithLoss(SumLoss(ts) / (|ts| as real)))
  }

  /** The red/yellow counting loops of `calculateGrade`. */
  method CountRedYellow(ts: seq<Target>, th: Thresholds) returns (red: nat, yellow: nat)
    ensures red == FleetCount(ts, th, Over)
    ensures yellow == FleetCount(ts, th, Approaching)
  {
    red, yellow := 0, 0;
    for i := 0 to |ts|
      invariant red == FleetCount(ts[..i], th, Over)
      invariant yellow == FleetCount(ts[..i], th, Approaching)
    {
      var checks := Checks(ts[i].metrics, th);
      for j := 0 to |checks|
        invariant red == FleetCount(ts[..i], th, Over) + CountLevel(checks[..j], Over)
        invariant yellow == FleetCount(ts[..i], th, Approaching) + CountLevel(checks[..j], Approaching)
      {
        assert checks[..j + 1][..j] == checks[..j];
        var (value, threshold) := checks[j];
        if RatioExceeds(value, threshold, 1.0) {
          red := red + 1;
        } else if RatioExceeds(value, threshold, WARN_RATIO) {
          yellow := yellow + 1;
        }
      }
      assert checks[..|checks|] == checks;
      assert ts[..i + 1][..i] == ts[..i];
    }
    assert ts[..|ts|] == ts;
  }

  /** `calculateGrade` */
  method CalculateGrade(ts: seq<Target>, th: Option<Thresholds>) returns (info: GradeInfo)
    ensures info == Classify(ts, th)
  {
    if |ts| == 0 {
      return GradeInfo(A, Text("No targets configured"));
    }
    var offline := OfflineCount(ts);
    var severe := SevereLoss(ts);
    if offline > 0 || severe {
      return GradeInfo(F, Text(FailureMessage(offline, severe)));
    }
    if th.None? {
      return GradeInfo(A, Text("All targets online"));
    }
    var red, yellow := CountRedYellow(ts, th.value);
    var avgLoss := SumLoss(ts) / (|ts| as real);
    if red >= 3 {
      return GradeInfo(D, Text(Text.NatToString(red) + " metrics above threshold"));
    }
    if red >= 1 {
      return GradeInfo(C, Text(Text.NatToString(red) + " metric" + Plural(red) + " above threshold"));
    }
    if yellow >= 1 {
      return GradeInfo(B, Text(Text.NatToString(yellow) + " metric" + Plural(yellow) + " approaching threshold"));
    }
    return GradeInfo(A, HealthyWithLoss(avgLoss));
  }

  /** The grade is F exactly when there are targets and one is offline or
      one loses more than 10% of its packets, whatever the thresholds. */
  lemma {:induction false} GradeFIff(ts: seq<Target>, th: Option<Thresholds>)
    ensures Classify(ts, th).grade == F <==>
              |ts| > 0 && (OfflineCount(ts) > 0 || SevereLoss(ts))
  {
  }

  /** Each check adds to at most one of the two counters, so both together
      count at most three per target. */
  lemma {:induction false} RedYellowBound(ts: seq<Target>, th: Thresholds)
    ensures FleetCount(ts, th, Over) + FleetCount(ts, th, Approaching) <= 3 * |ts|
  {
    if ts != [] {
      RedYellowBound(ts[..|ts| - 1], th);
      var cs := Checks(ts[|ts| - 1].metrics, th);
      ChecksSplit(cs);
    }
  }

  lemma {:induction false} ChecksSplit(cs: seq<(real, real)>)
    ensures CountLevel(cs, Over) + CountLevel(cs, Approaching) <= |cs|
  {
    if cs != [] {
      ChecksSplit(cs[..|cs| - 1]);
    }
  }

  /** Componentwise lower, still non-negative, thresholds. */
  predicate LowerThresholds(lower: Thresholds, th: Thresholds) {
    && 0.0 <= lower.lossPct <= th.lossPct
    && 0.0 <= lower.p95Ms <= th.p95Ms
    && 0.0 <= lower.jitterMs <= th.jitterMs
  }

  lemma {:induction false} CountsMonotone(cs: seq<(real, real)>, cs': seq<(real, real)>)
    requires |cs| == |cs'|
    requires forall k :: 0 <= k < |cs| ==>
      cs[k].0 == cs'[k].0 && 0.0 <= cs'[k].1 <= cs[k].1
    ensures CountLevel(cs', Over) >= CountLevel(cs, Over)
    ensures CountLevel(cs', Over) + CountLevel(cs', Approaching)
         >= CountLevel(cs, Over) + CountLevel(cs, Approaching)
  {
    if cs != [] {
      var n := |cs| - 1;
      CountsMonotone(cs[..n], cs'[..n]);
      LevelAntitone(cs[n].0, cs[n].1, cs'[n].1);
    }
  }

  lemma {:induction false} FleetCountsMonotone(ts: seq<Target>, th: Thresholds, lower: Thresholds)
    requires LowerThresholds(lower, th)
    ensures FleetCount(ts, lower, Over) >= FleetCount(ts, th, Over)
    ensures FleetCount(ts, lower, Over) + FleetCount(ts, lower, Approaching)
         >= FleetCount(ts, th, Over) + FleetCount(ts, th, Approaching)
  {
    if ts != [] {
      FleetCountsMonotone(ts[..|ts| - 1], th, lower);
      var m := ts[|ts| - 1].metrics;
      CountsMonotone(Checks(m, th), Checks(m, lower));
    }
  }

  /** Lowering any thresholds (keeping them non-negative) never moves the
      grade towards A. */
  lemma {:induction false} LoweringThresholdsNeverImproves(ts: seq<Target>, th: Thresholds, lower: Thresholds)
    requires LowerThresholds(lower, th)
    ensures GradeRank(Classify(ts, Some(lower)).grade) >= GradeRank(Classify(ts, Some(th)).grade)
  {
    FleetCountsMonotone(ts, th, lower);
  }

  /** With targets, none failing, and no thresholds, the fleet is healthy. */
  lemma {:induction false} NoThresholdsAllOnline(ts: seq<Target>)
    requires |ts| > 0 && OfflineCount(ts) == 0 && !SevereLoss(ts)
    ensures Classify(ts, None) == GradeInfo(A, Text("All targets online"))
  {
  }

  /** One offline target among targets with moderate loss gives F with the
      message "1 target offline", whatever the thresholds. */
  lemma {:induction false} OneTargetOffline(ts: seq<Target>, th: Option<Thresholds>)
    requires OfflineCount(ts) == 1 && !SevereLoss(ts)
    ensures Classify(ts, th) == GradeInfo(F, Text("1 target offline"))
  {
    assert FailureMessage(1, false) == "1 target offline" by {
      assert Text.NatToString(1) == "1";
    }
  }

  /** The fleet is graded on the worst tier any check reaches: three or more
      metrics over give D, one or two give C, none over but some approaching
      give B, otherwise A. */
  lemma {:induction false} GradeTiers(ts: seq<Target>, th: Thresholds)
    requires |ts| > 0 && OfflineCount(ts) == 0 && !SevereLoss(ts)
    ensures var (red, yellow) := (FleetCount(ts, th, Over), FleetCount(ts, th, Approaching));
      Classify(ts, Some(th)).grade ==
        if red >= 3 then D else if red >= 1 then C else if yellow >= 1 then B else A
  {
  }
}

=== FILE: http_handlers.dfy ===
/** The daemon's control API (src/server/http_handlers.c): the minimal
    `"key":` extractors it reads request bodies with, the configuration
    and target handlers, and route dispatch. A reply is the status and
    body handed to `mg_http_reply`. The request body is the C string
    starting at the body (it may run past `json_len`, as `strstr` does). */
module HttpHandlers {
  import opened Wrappers
  import Text
  import opened DaemonConfig
  import Scheduler

  datatype Reply = Reply(status: int, body: string)

  const PATTERN_BUFFER_SIZE: nat := 128
  const ACTION_BUFFER_SIZE: nat := 32
  const DEFAULT_TARGET_PORT: int := 443
  const UINT16_MODULUS: int := 0x1_0000

  // ---------------------------------------------------------------------
  // Extractors

  /** `s` holds `pat` starting at index `k`. */
  predicate MatchAt(s: string, pat: string, k: nat)
  {
    k + |pat| <= |s| && s[k..k + |pat|] == pat
  }

  /** `strstr` from index `from`: the first index at which `pat` occurs. */
  function FindFrom(s: string, pat: string, from: nat): (r: Option<nat>)
    ensures r.Some? ==> from <= r.value && MatchAt(s, pat, r.value)
                        && forall k :: from <= k < r.value ==> !MatchAt(s, pat, k)
    ensures r.None? ==> forall k :: from <= k ==> !MatchAt(s, pat, k)
    decreases |s| - from
  {
    if from + |pat| > |s| then None
    else if s[from..from + |pat|] == pat then Some(from)
    else FindFrom(s, pat, from + 1)
  }

  /** The search pattern `"key":`, as `snprintf` leaves it in a 128-byte
      buffer. */
  function Pattern(key: string): string
  {
    Truncate(KeyPattern(key), PATTERN_BUFFER_SIZE - 1)
  }

  /** `"key":` before truncation. */
  function KeyPattern(key: string): string
  {
    "\"" + key + "\":"
  }

  predicate IsBlank(c: char)
  {
    c == ' ' || c == '\t'
  }

  /** The first index from `i` on that is not a space or tab. */
  function SkipBlanks(s: string, i: nat): (j: nat)
    requires i <= |s|
    ensures i <= j <= |s| && (j == |s| || !IsBlank(s[j]))
    ensures forall k :: i <= k < j ==> IsBlank(s[k])
    decreases |s| - i
  {
    if i == |s| || !IsBlank(s[i]) then i else SkipBlanks(s, i + 1)
  }

  /** Where the value of `key` starts: after the first `"key":` (which must
      start inside the body's `json_len` bytes) and any spaces and tabs. */
  function ValueStart(json: string, jsonLen: nat, key: string): (r: Option<nat>)
    ensures r.Some? ==> r.value <= |json|
  {
    match FindFrom(json, Pattern(key), 0)
    case None => None
    case Some(p) => if p >= jsonLen then None else Some(SkipBlanks(json, p + |Pattern(key)|))
  }

  /** The characters from `i` up to the next `"` or the end, at most
      `max` of them; a backslash does not escape the quote. */
  function TakeUntilQuote(s: string, i: nat, max: nat): (r: string)
    requires i <= |s|
    ensures |r| <= max && i + |r| <= |s| && r == s[i..i + |r|] && '"' !in r
    ensures |r| < max ==> i + |r| == |s| || s[i + |r|] == '"'
    decreases |s| - i
  {
    if i == |s| || s[i] == '"' || max == 0 then []
    else [s[i]] + TakeUntilQuote(s, i + 1, max - 1)
  }

  /** What `json_get_string` reads with a buffer of `max + 1` bytes: the
      quoted value of `key`, cut to `max` characters, or nothing when the
      key is absent or its value does not start with `"`. */
  function JsonStringField(json: string, jsonLen: nat, key: string, max: nat): (r: Option<string>)
    ensures r.Some? ==> |r.value| <= max && '"' !in r.value
  {
    QuotedAt(json, ValueStart(json, jsonLen, key), max)
  }

  /** The quoted text that opens at `start`, cut to `max` characters. */
  function QuotedAt(json: string, start: Option<nat>, max: nat): (r: Option<string>)
    ensures r.Some? ==> |r.value| <= max && '"' !in r.value
  {
    match start
    case None => None
    case Some(p) => if p < |json| && json[p] == '"' then Some(TakeUntilQuote(json, p + 1, max)) else None
  }

  /** `isspace` in the C locale. */
  predicate IsSpace(c: char)
  {
    c == ' ' || c == '\t' || c == '\n' || c == '\r' || c == 11 as char || c == 12 as char
  }

  function SkipSpaces(s: string, i: nat): (j: nat)
    requires i <= |s|
    ensures i <= j <= |s| && (j == |s| || !IsSpace(s[j]))
    decreases |s| - i
  {
    if i == |s| || !IsSpace(s[i]) then i else SkipSpaces(s, i + 1)
  }

  /** The end of the run of digits starting at `i`. */
  function DigitsEnd(s: string, i: nat): (j: nat)
    requires i <= |s|
    ensures i <= j <= |s| && (j == |s| || !Text.IsDigit(s[j]))
    ensures forall k :: i <= k < j ==> Text.IsDigit(s[k])
    decreases |s| - i
  {
    if i == |s| || !Text.IsDigit(s[i]) then i else DigitsEnd(s, i + 1)
  }

  /** `atoi`: leading white space, an optional sign, then the longest run
      of digits (0 when there is none). */
  function Atoi(s: string): int
  {
    var i := SkipSpaces(s, 0);
    var signed := i < |s| && (s[i] == '-' || s[i] == '+');
    var j := if signed then i + 1 else i;
    var k := DigitsEnd(s, j);
    var v: int := Text.ParseDecimal(s[j..k]);
    if signed && s[i] == '-' then -v else v
  }

  /** What `json_get_int` reads: `atoi` at the value of `key`. */
  function JsonIntField(json: string, jsonLen: nat, key: string): Option<int>
  {
    match ValueStart(json, jsonLen, key)
    case None => None
    case Some(p) => Some(Atoi(json[p..]))
  }

  /** What `json_get_double` hands to `atof`: the text at the value of
      `key`. */
  function JsonNumberText(json: string, jsonLen: nat, key: string): Option<string>
  {
    match ValueStart(json, jsonLen, key)
    case None => None
    case Some(p) => Some(json[p..])
  }

  /** What `json_get_double` reads: `atof` applied at the value of `key`. */
  function JsonDoubleField(json: string, jsonLen: nat, key: string, atof: string -> real): Option<real>
  {
    match JsonNumberText(json, jsonLen, key)
    case None => None
    case Some(t) => Some(atof(t))
  }

  /** The shared prefix of the three extractors: find `"key":` inside the
      body and skip spaces and tabs (the `while (*p == ' ' || ...)` loop). */
  method FindValue(json: string, jsonLen: nat, key: string) returns (r: Option<nat>)
    ensures r == ValueStart(json, jsonLen, key)
  {
    var pattern := Pattern(key);
    var found := FindFrom(json, pattern, 0);
    if found.None? || found.value >= jsonLen {
      return None;
    }
    var p := found.value + |pattern|;
    while p < |json| && IsBlank(json[p])
      invariant found.value + |pattern| <= p <= |json|
      invariant SkipBlanks(json, found.value + |pattern|) == SkipBlanks(json, p)
      decreases |json| - p
    {
      p := p + 1;
    }
    r := Some(p);
  }

  /** While the copy loop of `json_get_string` goes on, the character it
      copies is the next one taken. */
  lemma {:induction false} TakeUntilQuoteNext(s: string, i: nat, max: nat, n: nat)
    requires i <= |s| && n <= |TakeUntilQuote(s, i, max)|
    requires i + n < |s| && s[i + n] != '"' && n < max
    ensures n < |TakeUntilQuote(s, i, max)| && TakeUntilQuote(s, i, max)[n] == s[i + n]
  {
    var r := TakeUntilQuote(s, i, max);
    assert n < |r|;
    assert r[n] == s[i..i + |r|][n];
  }

  /** When the copy loop stops, all of the value has been taken. */
  lemma {:induction false} TakeUntilQuoteStop(s: string, i: nat, max: nat, n: nat)
    requires i <= |s| && n <= |TakeUntilQuote(s, i, max)|
    requires i + n == |s| || (i + n < |s| && s[i + n] == '"') || n == max
    ensures n == |TakeUntilQuote(s, i, max)|
  {
    var r := TakeUntilQuote(s, i, max);
    assert forall k :: 0 <= k < |r| ==> r[k] == s[i + k] && r[k] in r;
  }

  /** The copy loop of `json_get_string`: the characters from `start` up
      to the closing quote, at most `max` of them, go to the front of
      `value`. */
  method CopyUntilQuote(json: string, start: nat, max: nat, value: array<char>) returns (n: nat)
    requires start <= |json| && max < value.Length
    modifies value
    ensures n == |TakeUntilQuote(json, start, max)|
    ensures forall k :: 0 <= k < n ==> value[k] == TakeUntilQuote(json, start, max)[k]
    ensures forall k :: n <= k < value.Length ==> value[k] == old(value[k])
  {
    ghost var t := TakeUntilQuote(json, start, max);
    var p := start;
    n := 0;
    while p < |json| && json[p] != '"' && n < max
      invariant p == start + n && n <= |t| && n <= max
      invariant forall k :: 0 <= k < n ==> value[k] == t[k]
      invariant forall k :: n <= k < value.Length ==> value[k] == old(value[k])
      decreases |json| - p
    {
      TakeUntilQuoteNext(json, start, max, n);
      value[n] := json[p];
      n := n + 1;
      p := p + 1;
    }
    TakeUntilQuoteStop(json, start, max, n);
  }

  /** The copy loop, then the terminating NUL. */
  method CopyQuoted(json: string, start: nat, value: array<char>) returns (n: nat)
    requires start <= |json| && value.Length > 0
    modifies value
    ensures n == |TakeUntilQuote(json, start, value.Length - 1)| && n < value.Length
    ensures value[..n] == TakeUntilQuote(json, start, value.Length - 1) && value[n] == '\0'
    ensures value[n + 1..] == old(value[n + 1..])
  {
    n := CopyUntilQuote(json, start, value.Length - 1, value);
    value[n] := '\0';
  }

  /** The copy of `json_get_string` once the value has been located. */
  method ReadQuoted(json: string, start: Option<nat>, value: array<char>) returns (found: bool)
    requires value.Length > 0
    modifies value
    ensures found <==> QuotedAt(json, start, value.Length - 1).Some?
    ensures !found ==> value[..] == old(value[..])
    ensures found ==> var v := QuotedAt(json, start, value.Length - 1).value;
              && value[..|v|] == v && value[|v|] == '\0' && value[|v| + 1..] == old(value[|v| + 1..])
  {
    if start.None? || start.value >= |json| || json[start.value] != '"' {
      return false;
    }
    var n := CopyQuoted(json, start.value + 1, value);
    found := true;
  }

  /** `json_get_string(json, json_len, key, value, value.Length)`: false and
      the buffer untouched when there is no quoted value; otherwise the
      value, cut to fit, NUL-terminated at the front of the buffer. */
  method JsonGetString(json: string, jsonLen: nat, key: string, value: array<char>) returns (found: bool)
    requires value.Length > 0
    modifies value
    ensures found <==> JsonStringField(json, jsonLen, key, value.Length - 1).Some?
    ensures !found ==> value[..] == old(value[..])
    ensures found ==> var v := JsonStringField(json, jsonLen, key, value.Length - 1).value;
              && value[..|v|] == v && value[|v|] == '\0' && value[|v| + 1..] == old(value[|v| + 1..])
  {
    var start := FindValue(json, jsonLen, key);
    found := ReadQuoted(json, start, value);
  }

  /** `json_get_int`: `atoi` at the value of `key`, or nothing when the key
      is absent. */
  method JsonGetInt(json: string, jsonLen: nat, key: string) returns (r: Option<int>)
    ensures r == JsonIntField(json, jsonLen, key)
  {
    var start := FindValue(json, jsonLen, key);
    if start.None? {
      return None;
    }
    r := Some(Atoi(json[start.value..]));
  }

  /** `json_get_double`: `atof` at the value of `key`, or nothing when the
      key is absent. */
  method JsonGetDouble(json: string, jsonLen: nat, key: string, atof: string -> real) returns (r: Option<real>)
    ensures r == JsonDoubleField(json, jsonLen, key, atof)
  {
    var start := FindValue(json, jsonLen, key);
    if start.None? {
      return None;
    }
    r := Some(atof(json[start.value..]));
  }

  // ---------------------------------------------------------------------
  // What the extractors read back

  /** The body `{"key":"v"}`. */
  function StringBody(key: string, v: string): string
  {
    "{\"" + key + "\":\"" + v + "\"}"
  }

  /** The body `{"key":n}`. */
  function IntBody(key: string, n: int): string
  {
    "{\"" + key + "\":" + IntText(n) + "}"
  }

  /** `%d` */
  function IntText(n: int): string
  {
    if n < 0 then "-" + Text.NatToString(-n) else Text.NatToString(n)
  }

  /** `{"key":` followed by the value text. */
  lemma {:induction false} BodyShape(key: string, rest: string)
    ensures "{\"" + key + "\":" + rest == "{" + KeyPattern(key) + rest
  {
  }

  /** In `{"key":rest`, the value starts right after the colon when
      `rest` does not start with a blank. */
  lemma {:induction false} ValueStartAfterKey(key: string, rest: string)
    requires |key| + 3 <= PATTERN_BUFFER_SIZE - 1
    requires rest == [] || !IsBlank(rest[0])
    ensures var json := "{" + KeyPattern(key) + rest;
      && ValueStart(json, |json|, key) == Some(1 + |KeyPattern(key)|)
      && json[1 + |KeyPattern(key)|..] == rest
  {
    var json := "{" + KeyPattern(key) + rest;
    var pat := KeyPattern(key);
    assert Pattern(key) == pat;
    assert !MatchAt(json, pat, 0) by {
      assert json[0..|pat|][0] == '{' != pat[0];
    }
    assert MatchAt(json, pat, 1) by {
      assert json[1..1 + |pat|] == pat;
    }
    assert FindFrom(json, pat, 0) == Some(1);
    assert json[1 + |pat|..] == rest;
    assert SkipBlanks(json, 1 + |pat|) == 1 + |pat|;
  }

  lemma {:induction false} TakeUntilQuoteReads(s: string, i: nat, v: string, max: nat)
    requires i + |v| < |s| && s[i..i + |v|] == v && s[i + |v|] == '"'
    requires '"' !in v && |v| <= max
    ensures TakeUntilQuote(s, i, max) == v
    decreases |v|
  {
    if v != [] {
      assert s[i] == v[0];
      assert s[i + 1..i + 1 + |v[1..]|] == v[1..];
      TakeUntilQuoteReads(s, i + 1, v[1..], max - 1);
    }
  }

  /** `json_get_string` reads back a quoted value without quotes that
      fits its buffer. */
  lemma {:induction false} JsonStringFieldReadsBack(key: string, v: string, max: nat)
    requires |key| + 3 <= PATTERN_BUFFER_SIZE - 1
    requires '"' !in v && |v| <= max
    ensures var json := StringBody(key, v); JsonStringField(json, |json|, key, max) == Some(v)
  {
    var rest := "\"" + v + "\"}";
    var json := "{" + KeyPattern(key) + rest;
    BodyShape(key, rest);
    assert StringBody(key, v) == "{\"" + key + "\":" + rest;
    ValueStartAfterKey(key, rest);
    var q := 1 + |KeyPattern(key)|;
    assert json[q] == rest[0] == '"';
    assert json[q + 1..q + 1 + |v|] == rest[1..1 + |v|] == v;
    assert json[q + 1 + |v|] == rest[1 + |v|] == '"';
    TakeUntilQuoteReads(json, q + 1, v, max);
  }

  lemma {:induction false} DigitsEndAt(s: string, j: nat, k: nat)
    requires j <= k <= |s|
    requires forall m :: j <= m < k ==> Text.IsDigit(s[m])
    requires k == |s| || !Text.IsDigit(s[k])
    ensures DigitsEnd(s, j) == k
    decreases k - j
  {
    if j < k {
      DigitsEndAt(s, j + 1, k);
    }
  }

  /** `atoi` reads back a rendered integer followed by a non-digit. */
  lemma {:induction false} AtoiReadsBack(n: int, rest: string)
    requires rest == [] || !Text.IsDigit(rest[0])
    ensures Atoi(IntText(n) + rest) == n
  {
    var s := IntText(n) + rest;
    var digits := Text.NatToString(if n < 0 then -n else n);
    var j := if n < 0 then 1 else 0;
    assert s[j..j + |digits|] == digits;
    assert SkipSpaces(s, 0) == 0;
    DigitsEndAt(s, j, j + |digits|);
    Text.ParseNatToString(if n < 0 then -n else n);
  }

  /** `json_get_int` reads back a rendered integer. */
  lemma {:induction false} JsonIntFieldReadsBack(key: string, n: int)
    requires |key| + 3 <= PATTERN_BUFFER_SIZE - 1
    ensures var json := IntBody(key, n); JsonIntField(json, |json|, key) == Some(n)
  {
    var rest := IntText(n) + "}";
    BodyShape(key, rest);
    assert IntBody(key, n) == "{\"" + key + "\":" + rest;
    assert rest[0] == IntText(n)[0];
    ValueStartAfterKey(key, rest);
    AtoiReadsBack(n, "}");
  }

  // ---------------------------------------------------------------------
  // Handlers

  const OK_BODY := "{\"ok\":true}\n"
  const ERR_HOST_LABEL := "{\"ok\":false,\"error\":\"host and label required\"}\n"
  const ERR_ADD_FAILED := "{\"ok\":false,\"error\":\"failed to add target\"}\n"
  const ERR_ID_REQUIRED := "{\"ok\":false,\"error\":\"target_id required\"}\n"
  const ERR_NOT_FOUND := "{\"ok\":false,\"error\":\"target not found\"}\n"
  const ERR_BAD_ACTION := "{\"ok\":false,\"error\":\"action must be add or remove\"}\n"

  /** A setting after an update: the new value when present and inside
      `[lo, hi]`, otherwise the old one. */
  function Accept(old_: nat, v: Option<int>, lo: nat, hi: nat): (r: nat)
    ensures v.Some? && lo <= v.value <= hi ==> r == v.value
    ensures !(v.Some? && lo <= v.value <= hi) ==> r == old_
  {
    if v.Some? && lo <= v.value <= hi then v.value else old_
  }

  function AcceptReal(old_: real, v: Option<real>, lo: real, hi: real): (r: real)
    ensures v.Some? && lo <= v.value <= hi ==> r == v.value
    ensures !(v.Some? && lo <= v.value <= hi) ==> r == old_
  {
    if v.Some? && lo <= v.value <= hi then v.value else old_
  }

  /** The ranges `POST /api/config` enforces. */
  ghost predicate SettingsInRange(c: Config)
    reads c
  {
    && 100 <= c.probeIntervalMs <= 10000
    && 100 <= c.probeTimeoutMs <= 30000
    && 0.0 <= c.thresholds.lossPct <= 100.0
    && 0.0 <= c.thresholds.p95Ms <= 10000.0
    && 0.0 <= c.thresholds.jitterMs <= 10000.0
  }

  /** An update keeps a setting inside its range. */
  lemma {:induction false} AcceptStaysInRange(old_: nat, v: Option<int>, lo: nat, hi: nat)
    requires lo <= old_ <= hi
    ensures lo <= Accept(old_, v, lo, hi) <= hi
  {
  }

  /** The settings `POST /api/config` may change. */
  datatype Settings = Settings(probeIntervalMs: nat, probeTimeoutMs: nat, thresholds: Thresholds)

  function SettingsOf(c: Config): Settings
    reads c
  {
    Settings(c.probeIntervalMs, c.probeTimeoutMs, c.thresholds)
  }

  /** The settings after `http_handle_post_config` reads `json`: each one
      takes its field's value when the key is present and the value in
      range, and keeps `s`'s otherwise. */
  function PostedSettings(s: Settings, json: string, jsonLen: nat, atof: string -> real): Settings
  {
    Settings(Accept(s.probeIntervalMs, JsonIntField(json, jsonLen, "probe_interval_ms"), 100, 10000),
             Accept(s.probeTimeoutMs, JsonIntField(json, jsonLen, "probe_timeout_ms"), 100, 30000),
             Thresholds(AcceptReal(s.thresholds.lossPct, JsonDoubleField(json, jsonLen, "loss_pct", atof), 0.0, 100.0),
                        AcceptReal(s.thresholds.p95Ms, JsonDoubleField(json, jsonLen, "p95_ms", atof), 0.0, 10000.0),
                        AcceptReal(s.thresholds.jitterMs, JsonDoubleField(json, jsonLen, "jitter_ms", atof), 0.0, 10000.0)))
  }

  /** `http_handle_post_config`: each setting whose key is present and
      whose value is in range is replaced, the rest are silently kept, and
      the reply is always 200. `atof` is the C library's, left abstract. */
  method PostConfig(json: string, jsonLen: nat, config: Config, atof: string -> real) returns (reply: Reply)
    modifies config
    ensures reply == Reply(200, OK_BODY)
    ensures SettingsOf(config) == PostedSettings(old(SettingsOf(config)), json, jsonLen, atof)
    ensures config.targets == old(config.targets) && config.targetCount == old(config.targetCount)
    ensures config.httpPort == old(config.httpPort)
    ensures old(SettingsInRange(config)) ==> SettingsInRange(config)
  {
    var interval, timeout, loss, p95, jitter := ReadSettings(json, jsonLen, atof);
    ApplySettings(config, interval, timeout, loss, p95, jitter);
    reply := Reply(200, OK_BODY);
  }

  /** The range checks and assignments of `http_handle_post_config`. */
  method ApplySettings(config: Config, interval: Option<int>, timeout: Option<int>,
                       loss: Option<real>, p95: Option<real>, jitter: Option<real>)
    modifies config
    ensures config.probeIntervalMs == Accept(old(config.probeIntervalMs), interval, 100, 10000)
    ensures config.probeTimeoutMs == Accept(old(config.probeTimeoutMs), timeout, 100, 30000)
    ensures config.thresholds.lossPct == AcceptReal(old(config.thresholds.lossPct), loss, 0.0, 100.0)
    ensures config.thresholds.p95Ms == AcceptReal(old(config.thresholds.p95Ms), p95, 0.0, 10000.0)
    ensures config.thresholds.jitterMs == AcceptReal(old(config.thresholds.jitterMs), jitter, 0.0, 10000.0)
    ensures config.targets == old(config.targets) && config.targetCount == old(config.targetCount)
    ensures config.httpPort == old(config.httpPort)
    ensures old(SettingsInRange(config)) ==> SettingsInRange(config)
  {
    ghost var wasInRange := SettingsInRange(config);
    config.probeIntervalMs := Accept(config.probeIntervalMs, interval, 100, 10000);
    config.probeTimeoutMs := Accept(config.probeTimeoutMs, timeout, 100, 30000);
    config.thresholds := Thresholds(AcceptReal(config.thresholds.lossPct, loss, 0.0, 100.0),
                                    AcceptReal(config.thresholds.p95Ms, p95, 0.0, 10000.0),
                                    AcceptReal(config.thresholds.jitterMs, jitter, 0.0, 10000.0));
    assert wasInRange ==> SettingsInRange(config);
  }

  /** The five field reads of `http_handle_post_config`. */
  method ReadSettings(json: string, jsonLen: nat, atof: string -> real)
    returns (interval: Option<int>, timeout: Option<int>, loss: Option<real>, p95: Option<real>, jitter: Option<real>)
    ensures interval == JsonIntField(json, jsonLen, "probe_interval_ms")
    ensures timeout == JsonIntField(json, jsonLen, "probe_timeout_ms")
    ensures loss == JsonDoubleField(json, jsonLen, "loss_pct", atof)
    ensures p95 == JsonDoubleField(json, jsonLen, "p95_ms", atof)
    ensures jitter == JsonDoubleField(json, jsonLen, "jitter_ms", atof)
  {
    interval := JsonGetInt(json, jsonLen, "probe_interval_ms");
    timeout := JsonGetInt(json, jsonLen, "probe_timeout_ms");
    loss := JsonGetDouble(json, jsonLen, "loss_pct", atof);
    p95 := JsonGetDouble(json, jsonLen, "p95_ms", atof);
    jitter := JsonGetDouble(json, jsonLen, "jitter_ms", atof);
  }

  /** Reads a string field into a zero-filled buffer of `size` bytes, as
      `http_handle_post_targets` does, and returns the C string left in
      it ("" when the field is missing). */
  method ReadField(json: string, jsonLen: nat, key: string, size: nat) returns (s: string)
    requires '\0' !in json && size > 0
    ensures s == JsonStringField(json, jsonLen, key, size - 1).GetOr("")
  {
    var buf := new char[size](_ => '\0');
    var found := JsonGetString(json, jsonLen, key, buf);
    ghost var v := JsonStringField(json, jsonLen, key, size - 1).GetOr("");
    assert buf[..|v|] == v && buf[|v|] == '\0' by {
      if !found {
        assert buf[0] == '\0';
      }
    }
    assert '\0' !in v by {
      if found {
        var i := ValueStart(json, jsonLen, key).value + 1;
        assert v == json[i..i + |v|];
        forall k | 0 <= k < |v| ensures v[k] != '\0' {
          assert v[k] == json[i + k];
        }
      }
    }
    s := ReadCString(buf);
  }

  /** `(uint16_t)port` */
  function ToUint16(n: int): (r: nat)
    ensures r < UINT16_MODULUS
    ensures 0 <= n < UINT16_MODULUS ==> r == n
  {
    n % UINT16_MODULUS
  }

  function AddedBody(id: string): string
  {
    "{\"ok\":true,\"target_id\":\"" + id + "\"}\n"
  }

  /** The outcome of an add on the registry `old_`, as
      `http_handle_post_targets` and `config_add_target` decide it. */
  ghost predicate AddOutcome(json: string, jsonLen: nat, old_: seq<TargetConfig>, new_: seq<TargetConfig>, reply: Reply)
  {
    var host := JsonStringField(json, jsonLen, "host", MAX_HOST_LEN - 1).GetOr("");
    var name := JsonStringField(json, jsonLen, "label", MAX_LABEL_LEN - 1).GetOr("");
    var port := ToUint16(JsonIntField(json, jsonLen, "port").GetOr(DEFAULT_TARGET_PORT));
    var id := Slug(name, MAX_LABEL_LEN);
    if host == "" || name == "" then
      reply == Reply(400, ERR_HOST_LABEL) && new_ == old_
    else if |old_| >= MAX_TARGETS || IndexOfId(old_, id).Some? then
      reply == Reply(400, ERR_ADD_FAILED) && new_ == old_
    else
      reply == Reply(200, AddedBody(id)) && new_ == old_ + [TargetConfig(id, host, port, name, true)]
  }

  /** The outcome of a remove on the registry `old_`. */
  ghost predicate RemoveOutcome(json: string, jsonLen: nat, old_: seq<TargetConfig>, new_: seq<TargetConfig>, reply: Reply)
  {
    var id := JsonStringField(json, jsonLen, "target_id", MAX_LABEL_LEN - 1).GetOr("");
    if id == "" then
      reply == Reply(400, ERR_ID_REQUIRED) && new_ == old_
    else match IndexOfId(old_, id)
      case None => reply == Reply(404, ERR_NOT_FOUND) && new_ == old_
      case Some(k) => reply == Reply(200, OK_BODY) && new_ == old_[..k] + old_[k + 1..]
  }

  /** The outcome of `http_handle_post_targets` with `action` on the
      registry `old_`: add, remove, or 400 and no change. */
  ghost predicate TargetsOutcome(action: string, json: string, jsonLen: nat, old_: seq<TargetConfig>,
                                 new_: seq<TargetConfig>, reply: Reply)
  {
    if action == "add" then AddOutcome(json, jsonLen, old_, new_, reply)
    else if action == "remove" then RemoveOutcome(json, jsonLen, old_, new_, reply)
    else reply == Reply(400, ERR_BAD_ACTION) && new_ == old_
  }

  /** The `action` field as `http_handle_post_targets` reads it into its
      32-byte buffer ("" when missing). */
  function TargetsAction(json: string, jsonLen: nat): string
  {
    JsonStringField(json, jsonLen, "action", ACTION_BUFFER_SIZE - 1).GetOr("")
  }

  /** The scheduler after `http_handle_post_targets`: untouched unless the
      reply is 200; after a 200 it has been resynchronised to `registry` at
      `now`, which leaves it empty when an allocation fails (the handler
      ignores `scheduler_sync_targets`' -1 and replies 200 all the same) and
      otherwise gives every entry a fresh slot: empty window, idle, no
      socket, due now. Sample history is not carried over. */
  ghost predicate SyncOutcome(sched: Scheduler.Scheduler, registry: seq<TargetConfig>, allocFailsAt: Option<nat>,
                              now: nat, reply: Reply, oldCount: nat)
    reads sched, sched.targets
    requires sched.Valid()
  {
    if reply.status != 200 then sched.targetCount == oldCount
    else if allocFailsAt.Some? && allocFailsAt.value < |registry| then sched.targetCount == 0
    else
      && sched.Configs() == registry
      && forall i :: 0 <= i < sched.targetCount ==>
           sched.targets[i] == Scheduler.TargetState(registry[i], [], Scheduler.Idle, -1, 0, now)
  }

  /** The `"add"` branch of `http_handle_post_targets`; the port defaults
      to 443 and is cast to 16 bits. */
  method PostAdd(json: string, jsonLen: nat, config: Config) returns (reply: Reply, changed: bool)
    requires '\0' !in json
    requires config.Valid()
    modifies config, config.targets
    ensures config.Valid()
    ensures AddOutcome(json, jsonLen, old(config.Registry()), config.Registry(), reply)
    ensures changed <==> reply.status == 200
    ensures SettingsOf(config) == old(SettingsOf(config))
    ensures config.httpPort == old(config.httpPort)
  {
    var host := ReadField(json, jsonLen, "host", MAX_HOST_LEN);
    var name := ReadField(json, jsonLen, "label", MAX_LABEL_LEN);
    var port := JsonGetInt(json, jsonLen, "port");
    var portValue := port.GetOr(DEFAULT_TARGET_PORT);
    ghost var before := config.Registry();
    if host == "" || name == "" {
      return Reply(400, ERR_HOST_LABEL), false;
    }
    assert Truncate(host, MAX_HOST_LEN - 1) == host && Truncate(name, MAX_LABEL_LEN - 1) == name;
    var idx := config.AddTarget(host, ToUint16(portValue), name);
    if idx < 0 {
      return Reply(400, ERR_ADD_FAILED), false;
    }
    ghost var id := Slug(name, MAX_LABEL_LEN);
    assert config.Registry() == before + [TargetConfig(id, host, ToUint16(portValue), name, true)];
    assert config.targets[idx] == config.Registry()[idx];
    reply, changed := Reply(200, AddedBody(config.targets[idx].id)), true;
  }

  /** The `"remove"` branch of `http_handle_post_targets`. */
  method PostRemove(json: string, jsonLen: nat, config: Config) returns (reply: Reply, changed: bool)
    requires '\0' !in json
    requires config.Valid()
    modifies config, config.targets
    ensures config.Valid()
    ensures RemoveOutcome(json, jsonLen, old(config.Registry()), config.Registry(), reply)
    ensures changed <==> reply.status == 200
    ensures SettingsOf(config) == old(SettingsOf(config))
    ensures config.httpPort == old(config.httpPort)
  {
    var id := ReadField(json, jsonLen, "target_id", MAX_LABEL_LEN);
    if id == "" {
      return Reply(400, ERR_ID_REQUIRED), false;
    }
    var rc := config.RemoveTarget(id);
    if rc != 0 {
      return Reply(404, ERR_NOT_FOUND), false;
    }
    reply, changed := Reply(200, OK_BODY), true;
  }

  /** `http_handle_post_targets`: the `action` field chooses add or remove;
      a change to the registry is followed by a scheduler sync (whose
      result the handler ignores). The broadcast to WebSocket clients is
      not modelled. */
  method PostTargets(json: string, jsonLen: nat, config: Config, sched: Scheduler.Scheduler,
                     now: nat, allocFailsAt: Option<nat>) returns (reply: Reply)
    requires '\0' !in json
    requires config.Valid() && sched.Valid() && sched.config == config
    modifies config, config.targets, sched, sched.targets
    ensures config.Valid() && sched.Valid()
    ensures sched.running == old(sched.running) && sched.startTimeMs == old(sched.startTimeMs)
            && sched.lastMetricsUpdateMs == old(sched.lastMetricsUpdateMs)
    ensures TargetsOutcome(TargetsAction(json, jsonLen), json, jsonLen, old(config.Registry()), config.Registry(), reply)
    ensures SyncOutcome(sched, config.Registry(), allocFailsAt, now, reply, old(sched.targetCount))
    ensures SettingsOf(config) == old(SettingsOf(config))
    ensures config.httpPort == old(config.httpPort)
    ensures reply.status != 200 ==> unchanged(sched) && sched.targets[..] == old(sched.targets[..])
  {
    var action := ReadField(json, jsonLen, "action", ACTION_BUFFER_SIZE);
    reply := ApplyActionAndSync(action, json, jsonLen, config, sched, now, allocFailsAt);
  }

  /** `http_handle_post_targets` once `action` is read: the change, then
      the scheduler sync when the registry changed. */
  method ApplyActionAndSync(action: string, json: string, jsonLen: nat, config: Config, sched: Scheduler.Scheduler,
                            now: nat, allocFailsAt: Option<nat>) returns (reply: Reply)
    requires '\0' !in json
    requires config.Valid() && sched.Valid() && sched.config == config
    modifies config, config.targets, sched, sched.targets
    ensures config.Valid() && sched.Valid()
    ensures sched.running == old(sched.running) && sched.startTimeMs == old(sched.startTimeMs)
            && sched.lastMetricsUpdateMs == old(sched.lastMetricsUpdateMs)
    ensures TargetsOutcome(action, json, jsonLen, old(config.Registry()), config.Registry(), reply)
    ensures SyncOutcome(sched, config.Registry(), allocFailsAt, now, reply, old(sched.targetCount))
    ensures SettingsOf(config) == old(SettingsOf(config))
    ensures config.httpPort == old(config.httpPort)
    ensures reply.status != 200 ==> unchanged(sched) && sched.targets[..] == old(sched.targets[..])
  {
    var changed;
    reply, changed := ApplyAction(action, json, jsonLen, config);
    ghost var registry := config.Registry();
    if changed {
      var rc := sched.SyncTargets(now, allocFailsAt);
      assert config.Valid() && config.Registry() == registry;
    }
  }

  /** The dispatch on `action` in `http_handle_post_targets`; `changed`
      says whether the registry was changed. */
  method ApplyAction(action: string, json: string, jsonLen: nat, config: Config) returns (reply: Reply, changed: bool)
    requires '\0' !in json
    requires config.Valid()
    modifies config, config.targets
    ensures config.Valid()
    ensures TargetsOutcome(action, json, jsonLen, old(config.Registry()), config.Registry(), reply)
    ensures changed <==> reply.status == 200
    ensures SettingsOf(config) == old(SettingsOf(config))
    ensures config.httpPort == old(config.httpPort)
    ensures !changed ==> config.Registry() == old(config.Registry())
  {
    if action == "add" {
      reply, changed := PostAdd(json, jsonLen, config);
    } else if action == "remove" {
      reply, changed := PostRemove(json, jsonLen, config);
    } else {
      reply, changed := Reply(400, ERR_BAD_ACTION), false;
    }
  }

  // ---------------------------------------------------------------------
  // Routing

  datatype Route = Health | GetConfig | PostConfigRoute | PostTargetsRoute | MethodNotAllowed | NotFound

  /** `http_handle_request`'s dispatch on the exact URI, then the method. */
  function RouteOf(uri: string, httpMethod: string): (r: Route)
    ensures r == NotFound <==> uri != "/api/health" && uri != "/api/config" && uri != "/api/targets"
    ensures r == Health <==> uri == "/api/health"
    ensures r == MethodNotAllowed <==>
              (uri == "/api/config" && httpMethod != "GET" && httpMethod != "POST")
              || (uri == "/api/targets" && httpMethod != "POST")
    ensures r == GetConfig <==> uri == "/api/config" && httpMethod == "GET"
    ensures r == PostConfigRoute <==> uri == "/api/config" && httpMethod == "POST"
    ensures r == PostTargetsRoute <==> uri == "/api/targets" && httpMethod == "POST"
  {
    if uri == "/api/health" then Health
    else if uri == "/api/config" then
      if httpMethod == "GET" then GetConfig
      else if httpMethod == "POST" then PostConfigRoute
      else MethodNotAllowed
    else if uri == "/api/targets" then
      if httpMethod == "POST" then PostTargetsRoute else MethodNotAllowed
    else NotFound
  }

  /** `http_handle_health`: uptime in whole seconds on the `uint64_t`
      clock. */
  function HealthReply(now: nat, startTimeMs: nat): Reply
  {
    Reply(200, "{\"ok\":true,\"uptime_s\":" + Text.NatToString(Scheduler.Sub64(now, startTimeMs) / 1000) + "}\n")
  }

  /** `http_handle_request`. The body of `GET /api/config` is its
      `snprintf` rendering of the configuration, given as `configJson`. */
  method HandleRequest(uri: string, httpMethod: string, json: string, jsonLen: nat, config: Config,
                       sched: Scheduler.Scheduler, now: nat, startTimeMs: nat, configJson: string,
                       atof: string -> real, allocFailsAt: Option<nat>) returns (reply: Reply)
    requires '\0' !in json
    requires config.Valid() && sched.Valid() && sched.config == config
    modifies config, config.targets, sched, sched.targets
    ensures config.Valid() && sched.Valid()
    ensures sched.running == old(sched.running) && sched.startTimeMs == old(sched.startTimeMs)
            && sched.lastMetricsUpdateMs == old(sched.lastMetricsUpdateMs)
    ensures RouteOf(uri, httpMethod) == Health ==> reply == HealthReply(now, startTimeMs)
    ensures RouteOf(uri, httpMethod) == GetConfig ==> reply == Reply(200, configJson)
    ensures RouteOf(uri, httpMethod) == PostConfigRoute ==>
              && reply == Reply(200, OK_BODY)
              && SettingsOf(config) == PostedSettings(old(SettingsOf(config)), json, jsonLen, atof)
    ensures RouteOf(uri, httpMethod) == PostTargetsRoute ==>
              && TargetsOutcome(TargetsAction(json, jsonLen), json, jsonLen, old(config.Registry()), config.Registry(), reply)
              && SyncOutcome(sched, config.Registry(), allocFailsAt, now, reply, old(sched.targetCount))
    ensures RouteOf(uri, httpMethod) == MethodNotAllowed ==> reply == Reply(405, "Method not allowed\n")
    ensures RouteOf(uri, httpMethod) == NotFound ==> reply == Reply(404, "Not found\n")
    ensures RouteOf(uri, httpMethod) != PostTargetsRoute ==> config.Registry() == old(config.Registry())
    ensures RouteOf(uri, httpMethod) != PostConfigRoute ==> SettingsOf(config) == old(SettingsOf(config))
    ensures RouteOf(uri, httpMethod) != PostTargetsRoute || reply.status != 200 ==>
              unchanged(sched) && sched.targets[..] == old(sched.targets[..])
    ensures config.httpPort == old(config.httpPort)
  {
    match RouteOf(uri, httpMethod)
    case Health => reply := HealthReply(now, startTimeMs);
    case GetConfig => reply := Reply(200, configJson);
    case PostConfigRoute => reply := PostConfig(json, jsonLen, config, atof);
    case PostTargetsRoute => reply := PostTargets(json, jsonLen, config, sched, now, allocFailsAt);
    case MethodNotAllowed => reply := Reply(405, "Method not allowed\n");
    case NotFound => reply := Reply(404, "Not found\n");
  }
}

=== FILE: icmp_checksum.dfy ===
/** The Internet checksum the ICMP prober puts in its echo requests
    (`icmp_checksum`, src/net/icmp_probe_linux.c): the sum of the packet's
    16-bit words in a `uint32_t`, folded to 16 bits with end-around carry,
    then complemented, as in section 1 of RFC 1071. Words are read in host
    order; the model takes a little-endian host. */
module IcmpChecksum {

  type byte = x: nat | x < 256

  const UINT32_MODULUS: nat := 0x1_0000_0000
  const UINT16_MODULUS: nat := 0x1_0000
  const ONES: nat := 0xFFFF

  /** The word the C code reads at an even offset: low byte first. */
  function Word(lo: byte, hi: byte): nat
  {
    lo + 256 * hi
  }

  /** The unbounded sum of the 16-bit words of `d`, a trailing odd byte
      added as it is. */
  function WordSum(d: seq<byte>): nat
  {
    if |d| == 0 then 0
    else if |d| == 1 then d[0]
    else Word(d[0], d[1]) + WordSum(d[2..])
  }

  /** One step of the fold loop: the high half added to the low half. */
  function FoldOnce(s: nat): nat
  {
    s % UINT16_MODULUS + s / UINT16_MODULUS
  }

  /** A step shrinks the sum, keeps it modulo 0xFFFF (2^16 is 1 modulo
      0xFFFF, the end-around carry) and keeps it non-zero. */
  lemma {:induction false} FoldOnceFacts(s: nat)
    requires s >= UINT16_MODULUS
    ensures FoldOnce(s) < s
    ensures FoldOnce(s) % ONES == s % ONES
    ensures FoldOnce(s) > 0
  {
    var q := s / UINT16_MODULUS;
    var m := s % UINT16_MODULUS;
    assert s == q * UINT16_MODULUS + m;
    assert q >= 1;
    assert s == FoldOnce(s) + q * ONES;
  }

  /** The value the fold loop leaves: at most 0xFFFF, the same modulo
      0xFFFF, and zero only when the sum was zero. */
  function FoldAll(s: nat): (r: nat)
    ensures r <= ONES
    ensures r % ONES == s % ONES
    ensures r == 0 <==> s == 0
    decreases s
  {
    if s < UINT16_MODULUS then s
    else
      FoldOnceFacts(s);
      FoldAll(FoldOnce(s))
  }

  /** Ones' complement addition's representative of `s`: 0 only for 0,
      otherwise the value in [1, 0xFFFF] congruent to `s`. */
  function OnesFold(s: nat): nat
  {
    if s == 0 then 0 else 1 + (s - 1) % ONES
  }

  /** The fold loop computes the ones' complement sum. */
  lemma {:induction false} FoldAllIsOnesFold(s: nat)
    ensures FoldAll(s) == OnesFold(s)
  {
    var r := FoldAll(s);
    if s != 0 {
      var t := OnesFold(s);
      assert 1 <= t <= ONES && t % ONES == s % ONES by {
        var q := (s - 1) / ONES;
        assert s - 1 == q * ONES + (s - 1) % ONES;
        assert s == q * ONES + t;
      }
      assert 1 <= r <= ONES;
      CongruentInRange(r, t);
    }
  }

  /** Two values in [1, 0xFFFF] congruent modulo 0xFFFF are equal. */
  lemma {:induction false} CongruentInRange(a: nat, b: nat)
    requires 1 <= a <= ONES && 1 <= b <= ONES && a % ONES == b % ONES
    ensures a == b
  {
  }

  /** `(uint16_t)~sum` for a folded sum. */
  function Complement16(s: nat): (r: nat)
    requires s <= ONES
    ensures r <= ONES && r + s == ONES
  {
    ONES - s
  }

  /** The checksum of `data` as the C function computes it. */
  function ChecksumOf(data: seq<byte>): nat
  {
    Complement16(FoldAll(WordSum(data) % UINT32_MODULUS))
  }

  /** `icmp_checksum(data, len)`: the word loop, the odd byte, the fold
      loop and the complement. */
  method Checksum(data: seq<byte>) returns (r: nat)
    ensures r == ChecksumOf(data)
    ensures r <= ONES
  {
    var total := SumWords(data);
    var sum := FoldSum(total);
    r := ONES - sum;
  }

  /** The word loop and the odd byte: the sum of the words in a `uint32_t`. */
  method SumWords(data: seq<byte>) returns (sum: nat)
    ensures sum == WordSum(data) % UINT32_MODULUS
  {
    sum := 0;
    var i := 0;
    var len: nat := |data|;
    while len > 1
      invariant i + len == |data|
      invariant sum < UINT32_MODULUS
      invariant (sum + WordSum(data[i..])) % UINT32_MODULUS == WordSum(data) % UINT32_MODULUS
      decreases len
    {
      assert data[i..][2..] == data[i + 2..];
      var w := Word(data[i], data[i + 1]);
      ModAddStep(sum, w, WordSum(data[i + 2..]));
      sum := (sum + w) % UINT32_MODULUS;
      i := i + 2;
      len := len - 2;
    }
    if len == 1 {
      assert WordSum(data[i..]) == data[i];
      sum := (sum + data[i]) % UINT32_MODULUS;
    } else {
      assert data[i..] == [];
    }
  }

  /** Reducing a partial sum modulo 2^32 before adding the rest does not
      change the total modulo 2^32. */
  lemma {:induction false} ModAddStep(sum: nat, w: nat, rest: nat)
    ensures ((sum + w) % UINT32_MODULUS + rest) % UINT32_MODULUS
         == (sum + w + rest) % UINT32_MODULUS
  {
    var q := (sum + w) / UINT32_MODULUS;
    assert sum + w == q * UINT32_MODULUS + (sum + w) % UINT32_MODULUS;
    assert sum + w + rest == ((sum + w) % UINT32_MODULUS + rest) + q * UINT32_MODULUS;
  }

  /** The fold loop: the high half added to the low half until the sum
      fits 16 bits. */
  method FoldSum(total: nat) returns (sum: nat)
    ensures sum == FoldAll(total)
  {
    sum := total;
    while sum >= UINT16_MODULUS
      invariant FoldAll(sum) == FoldAll(total)
      decreases sum
    {
      FoldOnceFacts(sum);
      sum := FoldOnce(sum);
    }
  }

  /** Writing a word over a zero word at an even offset adds it to the
      sum. */
  lemma {:induction false} WordSumUpdate(d: seq<byte>, k: nat, lo: byte, hi: byte)
    requires 2 * k + 1 < |d| && d[2 * k] == 0 && d[2 * k + 1] == 0
    ensures WordSum(d[2 * k := lo][2 * k + 1 := hi]) == WordSum(d) + Word(lo, hi)
    decreases k
  {
    var e := d[2 * k := lo][2 * k + 1 := hi];
    if k > 0 {
      assert e[2..] == d[2..][2 * (k - 1) := lo][2 * (k - 1) + 1 := hi];
      WordSumUpdate(d[2..], k - 1, lo, hi);
    } else {
      assert e[2..] == d[2..];
    }
  }

  /** Adding the complement of the ones' complement sum gives the sum
      0xFFFF ("all ones"). */
  lemma {:induction false} OnesFoldOfComplement(s: nat)
    ensures OnesFold(s + ONES - OnesFold(s)) == ONES
  {
    var s2 := s + ONES - OnesFold(s);
    if s != 0 {
      var q := (s - 1) / ONES;
      assert s - 1 == q * ONES + (s - 1) % ONES;
      assert s2 - 1 == q * ONES + (ONES - 1);
    }
  }

  /** The receiver's check of section 1 of RFC 1071: once the checksum is
      stored (low byte first) in the zeroed checksum field, the checksum of
      the packet is 0, provided the 32-bit sum does not wrap. */
  lemma {:induction false} ChecksumVerifies(d: seq<byte>, k: nat)
    requires 2 * k + 1 < |d| && d[2 * k] == 0 && d[2 * k + 1] == 0
    requires WordSum(d) + ONES < UINT32_MODULUS
    ensures var c := ChecksumOf(d); ChecksumOf(d[2 * k := c % 256][2 * k + 1 := c / 256]) == 0
  {
    var s := WordSum(d);
    assert s % UINT32_MODULUS == s;
    FoldAllIsOnesFold(s);
    var c := ChecksumOf(d);
    assert c == ONES - OnesFold(s);
    WordSumUpdate(d, k, c % 256, c / 256);
    assert Word(c % 256, c / 256) == c;
    var s2 := s + c;
    assert s2 % UINT32_MODULUS == s2;
    FoldAllIsOnesFold(s2);
    OnesFoldOfComplement(s);
  }
}

=== FILE: metrics_store.dfy ===
/** The client's live entity store (frontend/src/stores/metricsStore.ts).
    Every action maps the old state to a new one; the store never mutates a
    state in place, so each action is a function. */
module MetricsStore {
  import opened Wrappers
  import opened FrontendTypes
  import Window

  const MAX_SAMPLES: nat := 120
  const MAX_EVENTS: nat := 100

  datatype State = State(
    targets: map<string, Target>,
    config: Option<Config>,
    events: seq<NetEvent>,
    connected: bool)

  /** Every sample window and the event log are within their capacities. */
  ghost predicate Bounded(s: State) {
    && (forall id :: id in s.targets ==> |s.targets[id].samples| <= MAX_SAMPLES)
    && |s.events| <= MAX_EVENTS
  }

  /** The state the store is created with. */
  function Initial(): (s: State)
    ensures s.targets == map[] && s.config == None && s.events == [] && !s.connected
    ensures Bounded(s)
  {
    State(map[], None, [], false)
  }

  /** The ids occurring in a target list. */
  ghost function Ids(ts: seq<Target>): set<string> {
    set i | 0 <= i < |ts| :: ts[i].id
  }

  /** The entry at index `i` is the last one in `ts` with its id. */
  ghost predicate LastWithItsId(ts: seq<Target>, i: int)
    requires 0 <= i < |ts|
  {
    forall j :: i < j < |ts| ==> ts[j].id != ts[i].id
  }

  /** The map built by inserting the targets one by one, keyed by id. */
  function TargetMap(ts: seq<Target>): (m: map<string, Target>)
    ensures m.Keys == Ids(ts)
    ensures forall id :: id in m ==> m[id].id == id && m[id] in ts
  {
    if ts == [] then map[]
    else
      var init := ts[..|ts| - 1];
      var last := ts[|ts| - 1];
      assert Ids(ts) == Ids(init) + {last.id} by {
        forall id | id in Ids(ts) ensures id in Ids(init) + {last.id} {
          var i :| 0 <= i < |ts| && ts[i].id == id;
          if i < |init| { assert init[i].id == id; }
        }
      }
      TargetMap(init)[last.id := last]
  }

  /** When ids repeat, the later entry wins: the last target in the list with
      a given id is the one stored under that id. */
  lemma {:induction false} TargetMapLastWins(ts: seq<Target>, i: int)
    requires 0 <= i < |ts| && LastWithItsId(ts, i)
    ensures TargetMap(ts)[ts[i].id] == ts[i]
    decreases |ts|
  {
    var init := ts[..|ts| - 1];
    if i < |ts| - 1 {
      assert init[i] == ts[i];
      assert LastWithItsId(init, i);
      TargetMapLastWins(init, i);
    }
  }

  /** `setSnapshot`: replace the target set and the config wholesale. */
  function SetSnapshot(s: State, ts: seq<Target>, c: Config): (r: State)
    ensures r.targets.Keys == Ids(ts)
    ensures forall id :: id in r.targets ==> r.targets[id] in ts
    ensures r.config == Some(c)
    ensures r.events == s.events && r.connected == s.connected
  {
    s.(targets := TargetMap(ts), config := Some(c))
  }

  /** `addSample`: append one sample to the named target's window, dropping
      the oldest when the window grows beyond 120; a no-op for an unknown id. */
  function AddSample(s: State, id: string, x: Sample): (r: State)
    ensures id !in s.targets ==> r == s
    ensures r.targets.Keys == s.targets.Keys
    ensures r.config == s.config && r.events == s.events && r.connected == s.connected
    ensures forall other :: other in s.targets && other != id ==> r.targets[other] == s.targets[other]
    ensures id in s.targets ==>
      var (old_t, t) := (s.targets[id], r.targets[id]);
      && t.samples == Window.Push(old_t.samples, x, MAX_SAMPLES)
      && t == old_t.(samples := t.samples)
      && (|old_t.samples| <= MAX_SAMPLES ==>
            && t.samples == Window.LastN(old_t.samples + [x], MAX_SAMPLES)
            && |t.samples| <= MAX_SAMPLES)
  {
    if id !in s.targets then s
    else
      var t := s.targets[id];
      Window.PushIsLastN(t.samples, x, MAX_SAMPLES);
      s.(targets := s.targets[id := t.(samples := Window.Push(t.samples, x, MAX_SAMPLES))])
  }

  /** `updateMetrics`: replace the named target's metrics; a no-op for an
      unknown id. */
  function UpdateMetrics(s: State, id: string, m: Metrics): (r: State)
    ensures id !in s.targets ==> r == s
    ensures r.targets.Keys == s.targets.Keys
    ensures r.config == s.config && r.events == s.events && r.connected == s.connected
    ensures forall other :: other in s.targets && other != id ==> r.targets[other] == s.targets[other]
    ensures id in s.targets ==> r.targets[id] == s.targets[id].(metrics := m)
  {
    if id !in s.targets then s
    else s.(targets := s.targets[id := s.targets[id].(metrics := m)])
  }

  /** `addEvent`: append to the event log, dropping the oldest beyond 100. */
  function AddEvent(s: State, e: NetEvent): (r: State)
    ensures r.targets == s.targets && r.config == s.config && r.connected == s.connected
    ensures r.events == Window.Push(s.events, e, MAX_EVENTS)
    ensures |s.events| <= MAX_EVENTS ==>
      && r.events == Window.LastN(s.events + [e], MAX_EVENTS)
      && r.events[|r.events| - 1] == e
  {
    Window.PushIsLastN(s.events, e, MAX_EVENTS);
    s.(events := Window.Push(s.events, e, MAX_EVENTS))
  }

  /** `updateConfig`: replace the config and nothing else. */
  function UpdateConfig(s: State, c: Config): (r: State)
    ensures r == s.(config := Some(c))
  {
    s.(config := Some(c))
  }

  /** `setConnected`: replace the connectivity flag and nothing else. */
  function SetConnected(s: State, b: bool): (r: State)
    ensures r == s.(connected := b)
  {
    s.(connected := b)
  }

  /** Applying the same snapshot twice is the same as applying it once. */
  lemma {:induction false} SetSnapshotIdempotent(s: State, ts: seq<Target>, c: Config)
    ensures SetSnapshot(SetSnapshot(s, ts, c), ts, c) == SetSnapshot(s, ts, c)
  {
  }

  /** A snapshot whose windows are within 120 gives a bounded store. */
  lemma {:induction false} SnapshotBounded(s: State, ts: seq<Target>, c: Config)
    requires |s.events| <= MAX_EVENTS
    requires forall i :: 0 <= i < |ts| ==> |ts[i].samples| <= MAX_SAMPLES
    ensures Bounded(SetSnapshot(s, ts, c))
  {
    var r := SetSnapshot(s, ts, c);
    forall id | id in r.targets ensures |r.targets[id].samples| <= MAX_SAMPLES {
      assert r.targets[id] in ts;
    }
  }

  /** The incremental actions keep a bounded store bounded. */
  lemma {:induction false} IncrementalActionsPreserveBounded(s: State, id: string, x: Sample, m: Metrics,
                                          e: NetEvent, c: Config, b: bool)
    requires Bounded(s)
    ensures Bounded(AddSample(s, id, x))
    ensures Bounded(UpdateMetrics(s, id, m))
    ensures Bounded(AddEvent(s, e))
    ensures Bounded(UpdateConfig(s, c))
    ensures Bounded(SetConnected(s, b))
  {
  }

  /** Applying `addSample` for one target several times. */
  function AddSamples(s: State, id: string, xs: seq<Sample>): State
    decreases |xs|
  {
    if xs == [] then s else AddSamples(AddSample(s, id, xs[0]), id, xs[1..])
  }

  /** One `addSample` on a present target is one push onto its window. */
  lemma {:induction false} AddSampleIsPush(s: State, id: string, x: Sample)
    requires id in s.targets
    ensures var t := s.targets[id];
      AddSamples(s, id, [x]) == AddSample(s, id, x)
      == s.(targets := s.targets[id := t.(samples := Window.Push(t.samples, x, MAX_SAMPLES))])
  {
    assert [x][1..] == [];
  }

  /** A run of `addSample` calls on one target pushes its samples one by
      one onto that target's window and changes nothing else. */
  lemma {:induction false} AddSamplesIsPushAll(s: State, id: string, xs: seq<Sample>)
    requires id in s.targets
    ensures var t := s.targets[id];
      AddSamples(s, id, xs) == s.(targets := s.targets[id := t.(samples := Window.PushAll(t.samples, xs, MAX_SAMPLES))])
    decreases |xs|
  {
    var t := s.targets[id];
    if xs == [] {
      assert t.(samples := t.samples) == t;
      assert s.targets[id := t] == s.targets;
    } else {
      var t' := t.(samples := Window.Push(t.samples, xs[0], MAX_SAMPLES));
      var s' := s.(targets := s.targets[id := t']);
      AddSampleIsPush(s, id, xs[0]);
      assert AddSamples(s, id, xs) == AddSamples(s', id, xs[1..]);
      AddSamplesIsPushAll(s', id, xs[1..]);
      var all := Window.PushAll(t.samples, xs, MAX_SAMPLES);
      assert Window.PushAll(t'.samples, xs[1..], MAX_SAMPLES) == all;
      assert t'.(samples := all) == t.(samples := all);
      assert s'.targets[id := t.(samples := all)] == s.targets[id := t.(samples := all)];
    }
  }

  /** Any run of `addSample` calls on a target whose window is within 120
      leaves exactly the newest 120 of all its samples, in arrival order,
      and changes nothing else. */
  lemma {:induction false} AddSamplesKeepsNewest(s: State, id: string, xs: seq<Sample>)
    requires id in s.targets && |s.targets[id].samples| <= MAX_SAMPLES
    ensures var r := AddSamples(s, id, xs);
      && id in r.targets
      && r.targets[id].samples == Window.LastN(s.targets[id].samples + xs, MAX_SAMPLES)
      && r.targets[id] == s.targets[id].(samples := r.targets[id].samples)
      && r == s.(targets := s.targets[id := r.targets[id]])
  {
    AddSamplesIsPushAll(s, id, xs);
    Window.PushAllIsLastN(s.targets[id].samples, xs, MAX_SAMPLES);
  }
}

=== FILE: ratio.dfy ===
/** The ratio rule shared by the fleet health grade
    (frontend/src/components/HealthGrade.tsx) and the per-card metric
    colouring (frontend/src/components/TargetCard.tsx): a metric is over its
    threshold when value/threshold > 1 and approaching it when
    value/threshold > 0.8. */
module Ratio {

  /** The one fraction of a threshold above which a metric is approaching
      it. */
  const WARN_RATIO: real := 0.8

  /** JavaScript's `value / threshold > k` for a finite `k`, division
      included: dividing by a negative threshold flips the comparison;
      dividing by zero gives +Infinity for a positive value (greater than any
      k), -Infinity for a negative one and NaN for zero (greater than
      nothing). */
  predicate RatioExceeds(value: real, threshold: real, k: real) {
    if threshold > 0.0 then value > k * threshold
    else if threshold < 0.0 then value < k * threshold
    else value > 0.0
  }

  /** Where one metric stands against its threshold. */
  datatype Level = Within | Approaching | Over

  function LevelOf(value: real, threshold: real): Level {
    if RatioExceeds(value, threshold, 1.0) then Over
    else if RatioExceeds(value, threshold, WARN_RATIO) then Approaching
    else Within
  }

  function Rank(l: Level): nat {
    match l
    case Within => 0
    case Approaching => 1
    case Over => 2
  }

  /** For a non-negative value and threshold the division can be replaced by
      a multiplication, also at threshold 0: over iff value > threshold,
      approaching iff 0.8 * threshold < value <= threshold. */
  lemma {:induction false} LevelWithoutDivision(value: real, threshold: real)
    requires value >= 0.0 && threshold >= 0.0
    ensures LevelOf(value, threshold) == Over <==> value > threshold
    ensures LevelOf(value, threshold) == Approaching <==>
              WARN_RATIO * threshold < value <= threshold
    ensures LevelOf(value, threshold) == Within <==> value <= WARN_RATIO * threshold
  {
  }

  /** Lowering a threshold to a value that is still non-negative never
      lowers a metric's level, whatever the metric's sign. */
  lemma {:induction false} LevelAntitone(value: real, threshold: real, lower: real)
    requires 0.0 <= lower <= threshold
    ensures Rank(LevelOf(value, lower)) >= Rank(LevelOf(value, threshold))
  {
  }
}

=== FILE: ring_buffer.dfy ===
/** The daemon's generic ring buffer (src/core/ring_buffer.h,
    src/core/ring_buffer.c): a fixed array written in place, with the next
    write position `head`, the oldest element at `tail` and `count` stored
    elements; a push into a full buffer overwrites the oldest element. The
    C code copies `elem_size` bytes per element; the model stores values of
    the element type and keeps `elem_size` only as a recorded field. */
module RingBuffers {
  import opened Wrappers
  import Window

  /** `x % cap` for `0 <= x < 2 * cap`, without the division. */
  lemma {:induction false} ModSmall(x: int, cap: int)
    requires 0 < cap && 0 <= x < 2 * cap
    ensures x % cap == if x < cap then x else x - cap
  {
    if x >= cap {
      assert x == cap + (x - cap);
    }
  }

  /** `x` reduced once by `cap`: the position `x` slots along a ring of
      `cap` slots, for `x < 2 * cap`. */
  function Wrap(x: nat, cap: nat): (k: nat)
    requires x < 2 * cap
    ensures k < cap && k == x % cap
  {
    ModSmall(x, cap);
    if x < cap then x else x - cap
  }

  /** The `count` elements of a ring over the slots `d`, starting at slot
      `tail` and wrapping round to slot 0. */
  ghost function Ring<T>(d: seq<T>, tail: nat, count: nat): (s: seq<T>)
    requires tail < |d| && count <= |d|
    ensures |s| == count
    ensures forall i :: 0 <= i < count ==> s[i] == d[Wrap(tail + i, |d|)]
  {
    seq(count, i requires 0 <= i < count => d[Wrap(tail + i, |d|)])
  }

  /** Writing the slot just past the last element of a ring that is not
      full appends to it. */
  lemma {:induction false} RingWriteBelowCapacity<T>(d: seq<T>, tail: nat, count: nat, e: T)
    requires tail < |d| && count < |d|
    ensures Ring(d[Wrap(tail + count, |d|) := e], tail, count + 1) == Ring(d, tail, count) + [e]
  {
    var d' := d[Wrap(tail + count, |d|) := e];
    var a, b := Ring(d', tail, count + 1), Ring(d, tail, count) + [e];
    forall i | 0 <= i < count + 1
      ensures a[i] == b[i]
    {
    }
  }

  /** Overwriting the oldest slot of a full ring and moving its start one
      slot on drops the oldest element and appends the new one. */
  lemma {:induction false} RingWriteAtCapacity<T>(d: seq<T>, tail: nat, e: T)
    requires tail < |d|
    ensures Ring(d[tail := e], Wrap(tail + 1, |d|), |d|) == Ring(d, tail, |d|)[1..] + [e]
  {
    var n := |d|;
    var a, b := Ring(d[tail := e], Wrap(tail + 1, n), n), Ring(d, tail, n)[1..] + [e];
    forall i | 0 <= i < n
      ensures a[i] == b[i]
    {
      if i < n - 1 {
        assert Wrap(Wrap(tail + 1, n) + i, n) == Wrap(tail + 1 + i, n);
      }
    }
  }

  /** One push on the ring value: write at the slot after the last
      element, and when full also move the start on; the contents follow
      the bounded-window law. */
  lemma {:induction false} RingPush<T>(d: seq<T>, tail: nat, count: nat, e: T)
    requires tail < |d| && count <= |d|
    ensures var d' := d[Wrap(tail + count, |d|) := e];
      && (count < |d| ==> Ring(d', tail, count + 1) == Window.Push(Ring(d, tail, count), e, |d|))
      && (count == |d| ==> Ring(d', Wrap(tail + 1, |d|), count) == Window.Push(Ring(d, tail, count), e, |d|))
  {
    Window.PushCases(Ring(d, tail, count), e, |d|);
    if count < |d| {
      RingWriteBelowCapacity(d, tail, count, e);
    } else {
      ModSmall(tail + count, |d|);
      assert Wrap(tail + count, |d|) == tail;
      RingWriteAtCapacity(d, tail, e);
    }
  }

  /** Where `head` and `tail` go after a push: one slot on, wrapping at
      `cap`, and `head` stays `count` slots after `tail`. */
  lemma {:induction false} PushPositions(tail: nat, count: nat, cap: nat)
    requires tail < cap && count <= cap
    ensures var head := Wrap(tail + count, cap);
      && (count < cap ==> (head + 1) % cap == Wrap(tail + (count + 1), cap))
      && (count == cap ==> (head + 1) % cap == Wrap((tail + 1) % cap + count, cap))
  {
    var head := Wrap(tail + count, cap);
    ModSmall(head + 1, cap);
    ModSmall(tail + 1, cap);
  }

  /** `RingPush` stated over the positions `Push` computes with `%`. */
  lemma {:induction false} RingPushed<T>(d: seq<T>, tail: nat, count: nat, e: T, tail': nat, count': nat)
    requires tail < |d| && count <= |d|
    requires count < |d| ==> tail' == tail && count' == count + 1
    requires count == |d| ==> tail' == (tail + 1) % |d| && count' == count
    ensures tail' < |d| && count' <= |d|
    ensures Ring(d[Wrap(tail + count, |d|) := e], tail', count') == Window.Push(Ring(d, tail, count), e, |d|)
  {
    RingPush(d, tail, count, e);
    if count == |d| {
      ModSmall(tail + 1, |d|);
    }
  }

  class RingBuffer<T(0)> {
    var data: array<T>
    var elemSize: nat
    var capacity: nat
    var count: nat
    var head: nat
    var tail: nat

    /** A capacity of 0 is the state before `init` and after `free` (a null
        `data` pointer); otherwise `head` is `count` slots after `tail`. */
    ghost predicate Valid()
      reads this
    {
      && data.Length == capacity
      && count <= capacity
      && (capacity == 0 ==> count == 0)
      && (capacity > 0 ==> tail < capacity && head == Wrap(tail + count, capacity))
    }

    /** The stored elements, oldest first. */
    ghost function Contents(): (s: seq<T>)
      reads this, data
      requires Valid()
      ensures |s| == count
    {
      if capacity == 0 then [] else Ring(data[..], tail, count)
    }

    /** A zero-filled `ring_buffer_t`, as the callers' `memset` leaves it. */
    constructor ()
      ensures Valid() && capacity == 0 && Contents() == []
      ensures count == 0 && head == 0 && tail == 0 && elemSize == 0
    {
      data := new T[0];
      elemSize, capacity, count, head, tail := 0, 0, 0, 0, 0;
    }

    /** `ring_buffer_init`: -1 for a zero element size or capacity (nothing
        changes); otherwise a fresh zeroed array and an empty buffer. The
        allocation itself is taken to succeed. */
    method Init(elemSize: nat, capacity: nat) returns (rc: int)
      requires Valid()
      modifies this
      ensures Valid()
      ensures elemSize == 0 || capacity == 0 ==>
                rc == -1 && unchanged(this)
      ensures elemSize > 0 && capacity > 0 ==>
                && rc == 0 && fresh(data)
                && this.elemSize == elemSize && this.capacity == capacity
                && count == 0 && head == 0 && tail == 0 && Contents() == []
    {
      if elemSize == 0 || capacity == 0 {
        return -1;
      }
      data := new T[capacity];
      this.elemSize := elemSize;
      this.capacity := capacity;
      count, head, tail := 0, 0, 0;
      rc := 0;
    }

    /** `ring_buffer_free`: drop the storage of an initialised buffer; its
        capacity and count become 0 and head and tail are left as they were. */
    method Free()
      requires Valid()
      modifies this
      ensures Valid() && capacity == 0 && count == 0 && Contents() == []
      ensures head == old(head) && tail == old(tail) && elemSize == old(elemSize)
      ensures old(capacity) == 0 ==> unchanged(this)
    {
      if capacity > 0 {
        data := new T[0];
        capacity := 0;
        count := 0;
      }
    }

    /** `ring_buffer_push`: write at `head` and advance it; below capacity
        the count grows, at capacity `tail` advances past the overwritten
        oldest element. Abstractly: append, evicting the oldest when full.
        The buffer must have been initialised (the C code divides by the
        capacity). */
    method Push(e: T)
      requires Valid() && capacity > 0
      modifies this, data
      ensures Valid()
      ensures data == old(data) && capacity == old(capacity) && elemSize == old(elemSize)
      ensures head == (old(head) + 1) % capacity
      ensures old(count) < capacity ==> count == old(count) + 1 && tail == old(tail)
      ensures old(count) == capacity ==> count == capacity && tail == (old(tail) + 1) % capacity
      ensures Contents() == Window.Push(old(Contents()), e, capacity)
    {
      ghost var before, tail0, count0 := data[..], tail, count;
      assert old(Contents()) == Ring(before, tail0, count0);
      PushPositions(tail, count, capacity);
      data[head] := e;
      ghost var after := data[..];
      assert after == before[Wrap(tail0 + count0, capacity) := e];
      head := (head + 1) % capacity;
      if count < capacity {
        count := count + 1;
      } else {
        tail := (tail + 1) % capacity;
      }
      RingPushed(before, tail0, count0, e, tail, count);
      assert Contents() == Ring(after, tail, count);
    }

    /** `ring_buffer_get`: the element `index` places after the oldest, or
        nothing when `index` is not below the count. */
    method Get(index: nat) returns (r: Option<T>)
      requires Valid()
      ensures index < |Contents()| ==> r == Some(Contents()[index])
      ensures index >= |Contents()| ==> r == None
    {
      if index >= count {
        return None;
      }
      r := Some(data[Wrap(tail + index, capacity)]);
    }

    /** `ring_buffer_newest`: the slot before `head`, which holds the last
        element; nothing when empty. */
    method Newest() returns (r: Option<T>)
      requires Valid()
      ensures Contents() == [] ==> r == None
      ensures Contents() != [] ==> r == Some(Contents()[|Contents()| - 1])
    {
      if count == 0 {
        return None;
      }
      ModSmall(head + capacity - 1, capacity);
      r := Some(data[(head + capacity - 1) % capacity]);
    }

    /** `ring_buffer_oldest`: the element at `tail`; nothing when empty. */
    method Oldest() returns (r: Option<T>)
      requires Valid()
      ensures Contents() == [] ==> r == None
      ensures Contents() != [] ==> r == Some(Contents()[0])
    {
      if count == 0 {
        return None;
      }
      r := Some(data[tail]);
    }

    /** `ring_buffer_count` */
    function Count(): (n: nat)
      reads this, data
      requires Valid()
      ensures n == |Contents()|
    {
      count
    }

    /** `ring_buffer_empty` */
    function Empty(): (b: bool)
      reads this, data
      requires Valid()
      ensures b <==> Contents() == []
    {
      count == 0
    }

    /** `ring_buffer_full`: a push now would evict the oldest element. */
    function Full(): (b: bool)
      reads this, data
      requires Valid()
      ensures b <==> |Contents()| == capacity
    {
      count == capacity
    }

    /** `ring_buffer_clear`: empty the buffer and keep its storage. */
    method Clear()
      requires Valid()
      modifies this
      ensures Valid() && Contents() == []
      ensures count == 0 && head == 0 && tail == 0
      ensures data == old(data) && capacity == old(capacity) && elemSize == old(elemSize)
    {
      count, head, tail := 0, 0, 0;
    }

    /** `ring_buffer_copy_to_array`: copy the elements oldest first into the
        start of `dest`, which must have room for them, and return how many
        were copied. */
    method CopyToArray(dest: array<T>) returns (n: nat)
      requires Valid() && dest != data && dest.Length >= count
      modifies dest
      ensures n == |Contents()| && dest[..n] == Contents()
      ensures dest[n..] == old(dest[n..])
    {
      if count == 0 {
        return 0;
      }
      var i := 0;
      while i < count
        invariant 0 <= i <= count
        invariant dest[..i] == Contents()[..i]
        invariant dest[count..] == old(dest[count..])
      {
        var src := Get(i);
        dest[i] := src.value;
        i := i + 1;
      }
      n := count;
    }
  }
}

=== FILE: scheduler.dfy ===
/** The daemon's probe scheduler (src/core/scheduler.h,
    src/core/scheduler.c): per target, a probe state machine driven by a
    periodic tick. Probe I/O (the TCP connect start and poll, the ICMP
    ping) and the clocks are inputs to the tick; each target's sample ring
    buffer is held by its contents, which a probe result extends exactly
    as `RingBuffer.Push` does. */
module Scheduler {
  import opened Wrappers
  import Window
  import opened StatsTypes
  import opened DaemonConfig

  const DEFAULT_TICK_TIMEOUT_MS: int := 1000
  const METRICS_PERIOD_MS: nat := 1000
  const UINT64_MODULUS: int := 0x1_0000_0000_0000_0000
  const UINT32_MODULUS: int := 0x1_0000_0000

  /** `(int)x` of an unsigned value on a two's-complement 32-bit `int`:
      keep the low 32 bits and read them signed. */
  function ToInt32(x: int): (r: int)
    ensures -0x8000_0000 <= r < 0x8000_0000
    ensures 0 <= x < 0x8000_0000 ==> r == x
    ensures -0x8000_0000 <= x < 0 ==> r == x
  {
    var low := x % UINT32_MODULUS;
    if low < 0x8000_0000 then low else low - UINT32_MODULUS
  }

  /** `a - b` on `uint64_t`. */
  function Sub64(a: nat, b: nat): (d: nat)
    ensures d < UINT64_MODULUS
    ensures b <= a < UINT64_MODULUS ==> d == a - b
  {
    (a - b) % UINT64_MODULUS
  }

  datatype ProbeState = Idle | Connecting | Done

  /** `probe_result_t` of `tcp_probe_check`. */
  datatype ProbeResult = ProbePending | ProbeSuccess | ProbeError

  /** What the network answers for one target during a tick: the fd
      `tcp_probe_start` returns (-1 on error), the RTT `icmp_probe_ping`
      returns (negative on failure) and the status `tcp_probe_check`
      reports. Only the one the target's state asks for is used. */
  datatype ProbeIo = ProbeIo(startFd: int, icmpRttMs: real, check: ProbeResult)

  /** `target_state_t` without the metrics, bad-condition tracker and
      scratch space of the metrics phase. */
  datatype TargetState = TargetState(
    config: TargetConfig,
    samples: seq<Sample>,
    probeState: ProbeState,
    probeFd: int,
    probeStartMs: nat,
    nextProbeMs: nat)

  /** A socket is held exactly while connecting; the window is bounded. */
  predicate ProbeConsistent(t: TargetState)
  {
    && |t.samples| <= DEFAULT_WINDOW_SIZE
    && (t.probeState == Connecting ==> t.probeFd >= 0)
    && (t.probeState != Connecting ==> t.probeFd == -1)
  }

  /** `handle_probe_complete`: one sample (RTT 0 when the probe failed)
      into the window, back to idle, next probe one interval from now. */
  function Complete(t: TargetState, success: bool, rttMs: real, now: nat, wall: nat, interval: nat): (r: TargetState)
    ensures r.samples == Window.Push(t.samples, Sample(wall, if success then rttMs else 0.0, success), DEFAULT_WINDOW_SIZE)
    ensures |t.samples| <= DEFAULT_WINDOW_SIZE ==>
              && |r.samples| <= DEFAULT_WINDOW_SIZE
              && r.samples == Window.LastN(t.samples + [Sample(wall, if success then rttMs else 0.0, success)], DEFAULT_WINDOW_SIZE)
    ensures r.probeState == Idle && r.nextProbeMs == now + interval
    ensures r.config == t.config && r.probeFd == t.probeFd && r.probeStartMs == t.probeStartMs
  {
    var sample := Sample(wall, if success then rttMs else 0.0, success);
    Window.PushIsLastN(t.samples, sample, DEFAULT_WINDOW_SIZE);
    t.(samples := Window.Push(t.samples, sample, DEFAULT_WINDOW_SIZE), probeState := Idle, nextProbeMs := now + interval)
  }

  /** A target's new state after a tick, and the wait it asks the poll
      loop for, if any. */
  datatype TargetStep = TargetStep(next: TargetState, wait: Option<int>)

  /** One target's turn in `scheduler_tick`. */
  function StepTarget(t: TargetState, io: ProbeIo, now: nat, wall: nat, useIcmp: bool,
                      interval: nat, probeTimeout: nat): (r: TargetStep)
  {
    match t.probeState
    case Idle =>
      if now >= t.nextProbeMs then
        if useIcmp then
          TargetStep(Complete(t, io.icmpRttMs >= 0.0, io.icmpRttMs, now, wall, interval), None)
        else if io.startFd >= 0 then
          TargetStep(t.(probeFd := io.startFd, probeStartMs := now, probeState := Connecting), None)
        else
          TargetStep(Complete(t, false, 0.0, now, wall, interval), None)
      else
        TargetStep(t, Some(ToInt32(t.nextProbeMs - now)))
    case Connecting =>
      var elapsed := Sub64(now, t.probeStartMs);
      var remaining := ToInt32(probeTimeout - elapsed);
      if remaining <= 0 then
        TargetStep(Complete(t.(probeFd := -1), false, 0.0, now, wall, interval), None)
      else if io.check == ProbeSuccess then
        TargetStep(Complete(t.(probeFd := -1), true, elapsed as real, now, wall, interval), None)
      else if io.check == ProbeError then
        TargetStep(Complete(t.(probeFd := -1), false, 0.0, now, wall, interval), None)
      else
        TargetStep(t, Some(remaining))
    case Done =>
      TargetStep(t.(probeState := Idle), None)
  }

  /** What a target's turn does, case by case. */
  lemma {:induction false} StepTargetCases(t: TargetState, io: ProbeIo, now: nat, wall: nat, useIcmp: bool,
                                           interval: nat, probeTimeout: nat)
    ensures var r := StepTarget(t, io, now, wall, useIcmp, interval, probeTimeout);
      // idle and due: probe now (ICMP completes at once, TCP starts connecting)
      && (t.probeState == Idle && now >= t.nextProbeMs ==>
            && r.wait.None?
            && (if useIcmp then r.next == Complete(t, io.icmpRttMs >= 0.0, io.icmpRttMs, now, wall, interval)
                else if io.startFd >= 0 then r.next == t.(probeFd := io.startFd, probeStartMs := now, probeState := Connecting)
                else r.next == Complete(t, false, 0.0, now, wall, interval)))
      // idle and not due: nothing changes, wait until it is due
      && (t.probeState == Idle && now < t.nextProbeMs ==>
            r.next == t && r.wait == Some(ToInt32(t.nextProbeMs - now)))
      // connecting: time out, finish or keep waiting
      && (t.probeState == Connecting ==>
            var remaining := ToInt32(probeTimeout - Sub64(now, t.probeStartMs));
            if remaining <= 0 then r.wait.None? && r.next == Complete(t.(probeFd := -1), false, 0.0, now, wall, interval)
            else if io.check == ProbeSuccess then
              r.wait.None? && r.next == Complete(t.(probeFd := -1), true, Sub64(now, t.probeStartMs) as real, now, wall, interval)
            else if io.check == ProbeError then r.wait.None? && r.next == Complete(t.(probeFd := -1), false, 0.0, now, wall, interval)
            else r.next == t && r.wait == Some(remaining))
      && (t.probeState == Done ==> r.next == t.(probeState := Idle) && r.wait.None?)
      && r.next.config == t.config
      && (r.wait.Some? ==> r.next == t)
  {
  }

  /** A turn keeps the probe state and the descriptor consistent and the
      window within its size. */
  lemma {:induction false} StepTargetConsistent(t: TargetState, io: ProbeIo, now: nat, wall: nat, useIcmp: bool,
                                                interval: nat, probeTimeout: nat)
    requires ProbeConsistent(t)
    ensures ProbeConsistent(StepTarget(t, io, now, wall, useIcmp, interval, probeTimeout).next)
  {
  }

  /** A turn that records a sample ends the probe: the target is idle,
      holds no socket, is next due one interval from now, asks for no
      wait, and its newest sample is stamped with the wall clock. A turn
      that asks for a wait records nothing. */
  lemma {:induction false} StepTargetRecordsSample(t: TargetState, io: ProbeIo, now: nat, wall: nat, useIcmp: bool,
                                                   interval: nat, probeTimeout: nat)
    requires ProbeConsistent(t)
    ensures var r := StepTarget(t, io, now, wall, useIcmp, interval, probeTimeout);
      && (r.next.samples != t.samples ==>
            && r.next.probeState == Idle && r.next.probeFd == -1
            && r.next.nextProbeMs == now + interval && r.wait.None?
            && 0 < |r.next.samples| <= DEFAULT_WINDOW_SIZE
            && r.next.samples[|r.next.samples| - 1].timestampMs == wall)
      && (r.wait.Some? ==> r.next.samples == t.samples)
  {
    StepTargetCases(t, io, now, wall, useIcmp, interval, probeTimeout);
    StepTargetConsistent(t, io, now, wall, useIcmp, interval, probeTimeout);
  }

  /** `min_timeout` after the first `|ts|` targets' turns: the least of
      1000 and the waits they asked for. */
  function MinWait(ts: seq<TargetState>, io: seq<ProbeIo>, now: nat, wall: nat, useIcmp: bool,
                   interval: nat, probeTimeout: nat): (m: int)
    requires |io| >= |ts|
    ensures m <= DEFAULT_TICK_TIMEOUT_MS
    decreases |ts|
  {
    if ts == [] then DEFAULT_TICK_TIMEOUT_MS
    else
      var n := |ts| - 1;
      var m := MinWait(ts[..n], io, now, wall, useIcmp, interval, probeTimeout);
      match StepTarget(ts[n], io[n], now, wall, useIcmp, interval, probeTimeout).wait
      case Some(w) => if w < m then w else m
      case None => m
  }

  /** The tick's wait is the least of 1000 and every wait a target asked
      for, and is one of them. */
  lemma {:induction false} MinWaitIsLeast(ts: seq<TargetState>, io: seq<ProbeIo>, now: nat, wall: nat, useIcmp: bool,
                                          interval: nat, probeTimeout: nat)
    requires |io| >= |ts|
    ensures var m := MinWait(ts, io, now, wall, useIcmp, interval, probeTimeout);
      && (forall i :: 0 <= i < |ts| && StepTarget(ts[i], io[i], now, wall, useIcmp, interval, probeTimeout).wait.Some? ==>
            m <= StepTarget(ts[i], io[i], now, wall, useIcmp, interval, probeTimeout).wait.value)
      && (m == DEFAULT_TICK_TIMEOUT_MS ||
          exists i :: 0 <= i < |ts| && StepTarget(ts[i], io[i], now, wall, useIcmp, interval, probeTimeout).wait == Some(m))
    decreases |ts|
  {
    if ts != [] {
      var n := |ts| - 1;
      MinWaitIsLeast(ts[..n], io, now, wall, useIcmp, interval, probeTimeout);
      var m' := MinWait(ts[..n], io, now, wall, useIcmp, interval, probeTimeout);
      assert forall i :: 0 <= i < n ==> ts[..n][i] == ts[i];
      if m' != DEFAULT_TICK_TIMEOUT_MS {
        var j :| 0 <= j < n && StepTarget(ts[..n][j], io[j], now, wall, useIcmp, interval, probeTimeout).wait == Some(m');
        assert StepTarget(ts[j], io[j], now, wall, useIcmp, interval, probeTimeout).wait == Some(m');
      }
    }
  }

  /** One more target's turn extends the least wait. */
  lemma {:induction false} MinWaitStep(ts: seq<TargetState>, i: nat, io: seq<ProbeIo>, now: nat, wall: nat, useIcmp: bool,
                    interval: nat, probeTimeout: nat)
    requires i < |ts| && |io| >= |ts|
    ensures var w := StepTarget(ts[i], io[i], now, wall, useIcmp, interval, probeTimeout).wait;
      var m := MinWait(ts[..i], io, now, wall, useIcmp, interval, probeTimeout);
      MinWait(ts[..i + 1], io, now, wall, useIcmp, interval, probeTimeout) == if w.Some? && w.value < m then w.value else m
  {
    assert ts[..i + 1][..i] == ts[..i];
  }

  /** The value `scheduler_tick` returns for a least wait `m`. */
  function PollTimeout(m: int): (r: int)
    ensures m > 0 ==> r == m
    ensures m <= 0 ==> r == 1
  {
    if m > 0 then m else 1
  }

  function ConfigsOf(ts: seq<TargetState>): (cs: seq<TargetConfig>)
    ensures |cs| == |ts| && forall i :: 0 <= i < |ts| ==> cs[i] == ts[i].config
  {
    seq(|ts|, i requires 0 <= i < |ts| => ts[i].config)
  }

  /** One target's turn, taken in its slot. */
  method TakeTurn(targets: array<TargetState>, i: nat, io: ProbeIo, now: nat, wall: nat,
                  useIcmp: bool, interval: nat, probeTimeout: nat) returns (wait: Option<int>)
    requires i < targets.Length
    modifies targets
    ensures var step := StepTarget(old(targets[i]), io, now, wall, useIcmp, interval, probeTimeout);
      targets[i] == step.next && wait == step.wait
    ensures forall k :: 0 <= k < targets.Length && k != i ==> targets[k] == old(targets[k])
  {
    var step := StepTarget(targets[i], io, now, wall, useIcmp, interval, probeTimeout);
    targets[i] := step.next;
    wait := step.wait;
  }

  /** The per-target loop of `scheduler_tick` over the first `count`
      slots: each takes its turn in place, and the least requested wait
      is returned. */
  method TickTargets(targets: array<TargetState>, count: nat, io: seq<ProbeIo>, now: nat, wall: nat,
                     useIcmp: bool, interval: nat, probeTimeout: nat) returns (minTimeout: int)
    requires count <= targets.Length && |io| >= count
    modifies targets
    ensures forall k :: 0 <= k < count ==>
              targets[k] == StepTarget(old(targets[k]), io[k], now, wall, useIcmp, interval, probeTimeout).next
    ensures forall k :: count <= k < targets.Length ==> targets[k] == old(targets[k])
    ensures minTimeout == MinWait(old(targets[..count]), io, now, wall, useIcmp, interval, probeTimeout)
  {
    ghost var before := targets[..count];
    minTimeout := DEFAULT_TICK_TIMEOUT_MS;
    var i := 0;
    while i < count
      invariant 0 <= i <= count
      invariant minTimeout == MinWait(before[..i], io, now, wall, useIcmp, interval, probeTimeout)
      invariant forall k :: 0 <= k < i ==> targets[k] == StepTarget(before[k], io[k], now, wall, useIcmp, interval, probeTimeout).next
      invariant forall k :: i <= k < targets.Length ==> targets[k] == old(targets[k])
    {
      assert targets[i] == before[i];
      var wait := TakeTurn(targets, i, io[i], now, wall, useIcmp, interval, probeTimeout);
      MinWaitStep(before, i, io, now, wall, useIcmp, interval, probeTimeout);
      if wait.Some? && wait.value < minTimeout {
        minTimeout := wait.value;
      }
      i := i + 1;
    }
    assert before[..count] == before;
  }

  /** `scheduler_t` without the event log, ICMP socket state and
      callbacks. */
  class Scheduler {
    const config: Config
    var targets: array<TargetState>
    var targetCount: nat
    var lastMetricsUpdateMs: nat
    var startTimeMs: nat
    var running: bool

    ghost predicate Valid()
      reads this, targets
    {
      && targets.Length == MAX_TARGETS
      && targetCount <= MAX_TARGETS
      && forall i :: 0 <= i < targetCount ==> ProbeConsistent(targets[i])
    }

    /** The configurations of the live targets, in order. */
    ghost function Configs(): (cs: seq<TargetConfig>)
      reads this, targets
      requires Valid()
      ensures |cs| == targetCount
      ensures forall i :: 0 <= i < targetCount ==> cs[i] == targets[i].config
    {
      ConfigsOf(targets[..targetCount])
    }

    /** `scheduler_init` up to the target sync: a zeroed, running
        scheduler on `config` started at `now`. */
    constructor (config: Config, now: nat)
      ensures Valid() && this.config == config && fresh(targets)
      ensures targetCount == 0 && running && startTimeMs == now && lastMetricsUpdateMs == 0
    {
      this.config := config;
      targets := new TargetState[MAX_TARGETS](_ => TargetState(EMPTY_SLOT, [], Idle, 0, 0, 0));
      targetCount := 0;
      lastMetricsUpdateMs := 0;
      startTimeMs := now;
      running := true;
    }

    /** `scheduler_sync_targets`: drop every target and rebuild one per
        configured target, idle, without a socket, due now, with an empty
        window. `allocFailsAt` is the index of the first target whose
        window allocation fails, if any; then no target is left and -1 is
        returned. */
    method SyncTargets(now: nat, allocFailsAt: Option<nat>) returns (rc: int)
      requires Valid() && config.Valid()
      modifies this, targets
      ensures Valid() && targets == old(targets)
      ensures running == old(running) && lastMetricsUpdateMs == old(lastMetricsUpdateMs)
      ensures startTimeMs == old(startTimeMs)
      ensures allocFailsAt.Some? && allocFailsAt.value < config.targetCount ==> rc == -1 && targetCount == 0
      ensures !(allocFailsAt.Some? && allocFailsAt.value < config.targetCount) ==>
                && rc == 0 && targetCount == config.targetCount
                && Configs() == config.Registry()
                && forall i :: 0 <= i < targetCount ==> targets[i] == TargetState(config.targets[i], [], Idle, -1, 0, now)
    {
      targetCount := 0;
      var i := 0;
      while i < config.targetCount
        modifies targets
        invariant 0 <= i <= config.targetCount
        invariant allocFailsAt.Some? ==> i <= allocFailsAt.value
        invariant forall k :: 0 <= k < i ==> targets[k] == TargetState(config.targets[k], [], Idle, -1, 0, now)
      {
        if allocFailsAt == Some(i) {
          targets[i] := TargetState(config.targets[i], [], Idle, 0, 0, 0);
          return -1;
        }
        targets[i] := TargetState(config.targets[i], [], Idle, -1, 0, now);
        i := i + 1;
      }
      targetCount := i;
      assert Configs() == config.Registry();
      rc := 0;
    }

    /** `scheduler_tick`: when stopped, 1000 and nothing else; otherwise
        every target takes its turn, the least requested wait (at most
        1000, at least 1) is returned, and the metrics phase is due when
        at least a second (on the `uint64_t` clock) has passed since the
        last one, which then becomes `now`. */
    method Tick(now: nat, wall: nat, useIcmp: bool, io: seq<ProbeIo>) returns (timeout: int, metricsDue: bool)
      requires Valid() && |io| >= targetCount
      modifies this, targets
      ensures Valid() && targets == old(targets) && targetCount == old(targetCount)
      ensures running == old(running) && startTimeMs == old(startTimeMs)
      ensures 1 <= timeout <= DEFAULT_TICK_TIMEOUT_MS
      ensures !running ==> timeout == DEFAULT_TICK_TIMEOUT_MS && !metricsDue
                           && lastMetricsUpdateMs == old(lastMetricsUpdateMs)
                           && targets[..] == old(targets[..])
      ensures running ==>
                && (forall i :: 0 <= i < targetCount ==>
                      targets[i] == StepTarget(old(targets[i]), io[i], now, wall, useIcmp,
                                               config.probeIntervalMs, config.probeTimeoutMs).next)
                && timeout == PollTimeout(MinWait(old(targets[..targetCount]), io, now, wall, useIcmp,
                                                  config.probeIntervalMs, config.probeTimeoutMs))
                && metricsDue == (Sub64(now, old(lastMetricsUpdateMs)) >= METRICS_PERIOD_MS)
                && lastMetricsUpdateMs == (if metricsDue then now else old(lastMetricsUpdateMs))
      ensures forall i :: targetCount <= i < MAX_TARGETS ==> targets[i] == old(targets[i])
    {
      if !running {
        return DEFAULT_TICK_TIMEOUT_MS, false;
      }
      ghost var before := targets[..];
      var minTimeout := TickTargets(targets, targetCount, io, now, wall, useIcmp,
                                    config.probeIntervalMs, config.probeTimeoutMs);
      forall i | 0 <= i < targetCount
        ensures ProbeConsistent(targets[i])
      {
        StepTargetConsistent(before[i], io[i], now, wall, useIcmp, config.probeIntervalMs, config.probeTimeoutMs);
      }
      if Sub64(now, lastMetricsUpdateMs) >= METRICS_PERIOD_MS {
        lastMetricsUpdateMs := now;
        metricsDue := true;
      } else {
        metricsDue := false;
      }
      timeout := if minTimeout > 0 then minTimeout else 1;
    }

    /** `scheduler_get_target`: the index of the first live target whose id
        is `id`, or nothing. */
    method GetTarget(id: string) returns (r: Option<nat>)
      requires Valid()
      ensures r == IndexOfId(Configs(), id)
    {
      var i := 0;
      while i < targetCount
        invariant 0 <= i <= targetCount
        invariant forall k :: 0 <= k < i ==> targets[k].config.id != id
      {
        if targets[i].config.id == id {
          return Some(i);
        }
        i := i + 1;
      }
      return None;
    }
  }
  /** `scheduler_init`: a fresh running scheduler on `config` started at
      `now`, closed by a target sync; its result is the sync's. */
  method Init(config: Config, now: nat, allocFailsAt: Option<nat>) returns (sched: Scheduler, rc: int)
    requires config.Valid()
    ensures fresh(sched) && fresh(sched.targets)
    ensures sched.Valid() && sched.config == config
    ensures sched.running && sched.startTimeMs == now && sched.lastMetricsUpdateMs == 0
    ensures allocFailsAt.Some? && allocFailsAt.value < config.targetCount ==> rc == -1 && sched.targetCount == 0
    ensures !(allocFailsAt.Some? && allocFailsAt.value < config.targetCount) ==>
              && rc == 0 && sched.Configs() == config.Registry()
              && forall i :: 0 <= i < sched.targetCount ==> sched.targets[i] == TargetState(config.targets[i], [], Idle, -1, 0, now)
  {
    sched := new Scheduler(config, now);
    rc := sched.SyncTargets(now, allocFailsAt);
  }

}

=== FILE: stats_types.dfy ===
/** The daemon's probe sample and metrics records (src/core/stats.h).
    `double` fields are modelled as reals; `uint64_t` timestamps as
    naturals. How the metrics are computed (src/core/stats.c) is not part
    of this model: metrics are inputs. */
module StatsTypes {
  /** `sample_t`: one probe result; the RTT is 0 for a failed probe. */
  datatype Sample = Sample(timestampMs: nat, rttMs: real, success: bool)

  /** `metrics_t` */
  datatype Metrics = Metrics(
    currentRttMs: real,
    maxRttMs: real,
    lossPct: real,
    jitterMs: real,
    p50Ms: real,
    p95Ms: real,
    lastUpdated: nat)
}

=== FILE: target_card.dfy ===
/** The status helpers of one target card
    (frontend/src/components/TargetCard.tsx): metric colouring, the
    warming-up row, the online and stale predicates and the time-ago text. */
module TargetCard {
  import opened Wrappers
  import opened FrontendTypes
  import opened Ratio
  import Text

  /** Cards show warm-up placeholders until this many samples have arrived. */
  const WARMING_THRESHOLD: nat := 20
  /** A target whose newest sample is older than this is stale. */
  const STALE_AFTER_MS: int := 5000

  datatype StatusColor = Red | Yellow | Green

  /** `getStatusColor`: red over the threshold, yellow approaching it,
      green otherwise; the same ratio rule as the fleet grade. */
  function GetStatusColor(value: real, threshold: real): (c: StatusColor)
    ensures c == Red <==> LevelOf(value, threshold) == Over
    ensures c == Yellow <==> LevelOf(value, threshold) == Approaching
    ensures value >= 0.0 && threshold >= 0.0 ==>
      && (c == Red <==> value > threshold)
      && (c == Yellow <==> WARN_RATIO * threshold < value <= threshold)
      && (c == Green <==> value <= WARN_RATIO * threshold)
  {
    if RatioExceeds(value, threshold, 1.0) then Red
    else if RatioExceeds(value, threshold, WARN_RATIO) then Yellow
    else Green
  }

  /** How one metric row is rendered: a warm-up placeholder, or the value in
      the neutral colour (no threshold) or in its status colour. */
  datatype RowView = WarmingUp | Neutral(value: real) | Coloured(value: real, color: StatusColor)

  /** `MetricRow` */
  function MetricRow(value: real, threshold: Option<real>, isWarming: bool): (v: RowView)
    ensures isWarming <==> v == WarmingUp
    ensures !isWarming && threshold.None? ==> v == Neutral(value)
    ensures !isWarming && threshold.Some? ==>
              v == Coloured(value, GetStatusColor(value, threshold.value))
  {
    if isWarming then WarmingUp
    else if threshold.Some? then Coloured(value, GetStatusColor(value, threshold.value))
    else Neutral(value)
  }

  /** `formatTimeAgo`. Elapsed times are whole milliseconds, and Dafny's
      division by the positive 1000 and 60 rounds down like `Math.floor`. */
  function FormatTimeAgo(ms: int): string {
    var seconds := ms / 1000;
    if seconds < 1 then "just now"
    else if seconds < 60 then Text.NatToString(seconds) + "s ago"
    else Text.NatToString(seconds / 60) + "m ago"
  }

  /** The text reads back as the elapsed time: "just now" under a second,
      then whole seconds under a minute, then whole minutes. */
  lemma {:induction false} FormatTimeAgoReadsBack(ms: int)
    ensures ms < 1000 ==> FormatTimeAgo(ms) == "just now"
    ensures 1000 <= ms < 60000 ==>
      var r := FormatTimeAgo(ms);
      && |r| > 5 && r[|r| - 5..] == "s ago"
      && (forall i :: 0 <= i < |r| - 5 ==> Text.IsDigit(r[i]))
      && Text.ParseDecimal(r[..|r| - 5]) == ms / 1000
    ensures 60000 <= ms ==>
      var r := FormatTimeAgo(ms);
      && |r| > 5 && r[|r| - 5..] == "m ago"
      && (forall i :: 0 <= i < |r| - 5 ==> Text.IsDigit(r[i]))
      && Text.ParseDecimal(r[..|r| - 5]) == ms / 60000
  {
    var r := FormatTimeAgo(ms);
    if 1000 <= ms < 60000 {
      var d := Text.NatToString(ms / 1000);
      assert r == d + "s ago";
      assert r[..|r| - 5] == d;
      Text.ParseNatToString(ms / 1000);
    } else if 60000 <= ms {
      var d := Text.NatToString(ms / 1000 / 60);
      assert ms / 1000 / 60 == ms / 60000;
      assert r == d + "m ago";
      assert r[..|r| - 5] == d;
      Text.ParseNatToString(ms / 60000);
    }
  }

  /** `lastSample?.ts ?? 0`: the newest sample's timestamp, 0 when none. */
  function LastUpdateMs(samples: seq<Sample>): int {
    if samples == [] then 0 else samples[|samples| - 1].ts
  }

  /** The header of a card at time `now`: online/offline, warming, and the
      freshness label shown when there is a last update. The label's elapsed
      time is the value the card's refresh interval computes at `now`. */
  datatype CardStatus = CardStatus(online: bool, warming: bool, freshness: Option<string>)

  function Status(t: Target, now: int): (s: CardStatus)
    ensures s.online <==> t.metrics.currentRttMs > 0.0
    ensures s.warming <==> |t.samples| < WARMING_THRESHOLD
    ensures s.freshness.Some? <==> LastUpdateMs(t.samples) > 0
    ensures s.freshness == Some("Stale") <==>
              LastUpdateMs(t.samples) > 0 && now - LastUpdateMs(t.samples) > STALE_AFTER_MS
  {
    var last := LastUpdateMs(t.samples);
    var sinceUpdate := if last != 0 then now - last else 0;
    var isStale := sinceUpdate > STALE_AFTER_MS;
    var text := if isStale then "Stale" else FormatTimeAgo(sinceUpdate);
    assert !isStale ==> text != "Stale" by {
      if !isStale {
        FormatTimeAgoReadsBack(sinceUpdate);
        if 1000 <= sinceUpdate {
          assert text[|text| - 5..] != "Stale"[|"Stale"| - 5..];
        }
      }
    }
    CardStatus(
      t.metrics.currentRttMs > 0.0,
      |t.samples| < WARMING_THRESHOLD,
      if last > 0 then Some(text) else None)
  }
}

=== FILE: text.dfy ===
/** Decimal rendering of natural numbers, as done by JavaScript template
    literals (`${n}`) and by the C `%u`/`%llu` conversions, with the parser
    that inverts it. */
module Text {

  predicate IsDigit(c: char) {
    '0' <= c <= '9'
  }

  function DigitChar(d: nat): (c: char)
    requires d < 10
    ensures IsDigit(c) && c as int - '0' as int == d
  {
    ('0' as int + d) as char
  }

  /** Shortest decimal representation of `n` (no leading zeros). */
  function NatToString(n: nat): (s: string)
    ensures 1 <= |s|
    ensures forall i :: 0 <= i < |s| ==> IsDigit(s[i])
    ensures |s| > 1 ==> s[0] != '0'
    ensures n < 10 <==> |s| == 1
  {
    if n < 10 then [DigitChar(n)] else NatToString(n / 10) + [DigitChar(n % 10)]
  }

  function DigitValue(c: char): (d: nat)
    requires IsDigit(c)
    ensures d < 10
  {
    c as int - '0' as int
  }

  /** The value of a string of decimal digits. */
  function ParseDecimal(s: string): nat
    requires forall i :: 0 <= i < |s| ==> IsDigit(s[i])
  {
    if s == [] then 0
    else ParseDecimal(s[..|s| - 1]) * 10 + DigitValue(s[|s| - 1])
  }

  /** Rendering a number and reading it back gives the number. */
  lemma {:induction false} ParseNatToString(n: nat)
    ensures ParseDecimal(NatToString(n)) == n
  {
    var s := NatToString(n);
    if n >= 10 {
      assert s[..|s| - 1] == NatToString(n / 10);
      ParseNatToString(n / 10);
    }
  }

  /** Distinct numbers render to distinct strings. */
  lemma {:induction false} NatToStringInjective(m: nat, n: nat)
    requires NatToString(m) == NatToString(n)
    ensures m == n
  {
    ParseNatToString(m);
    ParseNatToString(n);
  }
}

=== FILE: websocket.dfy ===
/** The stream transport and message dispatcher
    (frontend/src/api/websocket.ts). The client object's fields `ws`,
    `reconnectTimeout` and `reconnectDelay` are updated in place by the
    socket callbacks and by the reconnect timer, so the client is a class.
    The browser's socket and timer are abstract handles; their callbacks are
    the methods OnOpen, OnClose, OnError, OnMessage and OnTimer, which the
    environment may invoke in any order. */
module WebSocket {
  import opened Wrappers
  import opened FrontendTypes
  import MetricsStore

  const INITIAL_RECONNECT_DELAY: nat := 1000
  const MAX_RECONNECT_DELAY: nat := 30000

  function Pow2(n: nat): (p: nat)
    ensures p >= 1
  {
    if n == 0 then 1 else 2 * Pow2(n - 1)
  }

  function Min(a: int, b: int): int {
    if a <= b then a else b
  }

  /** The reconnect delay after `n` reconnect timers have fired since the
      last successful open: 1000 ms doubled `n` times, capped at 30000 ms. */
  function BackoffDelay(n: nat): nat {
    Min(INITIAL_RECONNECT_DELAY * Pow2(n), MAX_RECONNECT_DELAY)
  }

  /** The delay stays within [1000, 30000], one firing doubles it up to the
      cap, the fourth delay in a row is 8000 ms and from the sixth on it is
      the cap. */
  lemma {:induction false} BackoffDelayFacts(n: nat)
    ensures INITIAL_RECONNECT_DELAY <= BackoffDelay(n) <= MAX_RECONNECT_DELAY
    ensures BackoffDelay(n + 1) == Min(2 * BackoffDelay(n), MAX_RECONNECT_DELAY)
    ensures BackoffDelay(3) == 8000
    ensures n >= 5 ==> BackoffDelay(n) == MAX_RECONNECT_DELAY
    ensures BackoffDelay(n) <= BackoffDelay(n + 1)
  {
    assert Pow2(n + 1) == 2 * Pow2(n);
    assert Pow2(3) == 8 by {
      assert Pow2(1) == 2;
      assert Pow2(2) == 4;
    }
    if n >= 5 {
      Pow2Monotone(5, n);
      assert Pow2(5) == 32 by {
        assert Pow2(1) == 2;
        assert Pow2(2) == 4;
        assert Pow2(3) == 8;
        assert Pow2(4) == 16;
      }
    }
  }

  lemma {:induction false} Pow2Monotone(m: nat, n: nat)
    requires m <= n
    ensures Pow2(m) <= Pow2(n)
    decreases n - m
  {
    if m < n {
      Pow2Monotone(m, n - 1);
    }
  }

  /** The ready states of a browser WebSocket. */
  datatype ReadyState = Connecting | Open | Closing | Closed

  /** A browser WebSocket; its ready state is changed by the browser. */
  class Socket {
    var readyState: ReadyState

    constructor ()
      ensures readyState == Connecting
    {
      readyState := Connecting;
    }
  }

  /** A handle returned by `window.setTimeout`. */
  class Timer {
    constructor () {}
  }

  /** The six message variants of the stream protocol, plus any other tag. */
  datatype Message =
    | SnapshotMsg(targets: seq<Target>, config: Config)
    | SampleMsg(targetId: string, ts: int, rttMs: real, success: bool)
    | MetricsMsg(targetId: string, metrics: Metrics)
    | EventMsg(ts: int, targetId: string, reason: string, details: map<string, real>)
    | ConfigUpdatedMsg(config: Config)
    | TargetsUpdatedMsg(targets: seq<Target>, config: Config)
    | Unrecognised(tag: string)

  /** The payload of one inbound frame: text that `JSON.parse` rejects, or a
      decoded message. */
  datatype Frame = Malformed | Decoded(msg: Message)

  /** `handleMessage`: route one message to the store action for its tag.
      None means the action threw, which the caller's `try` swallows: the
      `targets_updated` branch calls `store.setTargets`, an action the store
      does not define, so that branch always throws before touching the
      store. */
  function Dispatch(s: MetricsStore.State, m: Message): (r: Option<MetricsStore.State>)
    ensures m.SnapshotMsg? ==> r == Some(MetricsStore.SetSnapshot(s, m.targets, m.config))
    ensures m.SampleMsg? ==>
      r == Some(MetricsStore.AddSample(s, m.targetId, Sample(m.ts, m.rttMs, m.success)))
    ensures m.MetricsMsg? ==> r == Some(MetricsStore.UpdateMetrics(s, m.targetId, m.metrics))
    ensures m.EventMsg? ==>
      r == Some(MetricsStore.AddEvent(s, NetEvent(m.ts, m.targetId, m.reason, m.details)))
    ensures m.ConfigUpdatedMsg? ==> r == Some(MetricsStore.UpdateConfig(s, m.config))
    ensures m.TargetsUpdatedMsg? ==> r == None
    ensures m.Unrecognised? ==> r == Some(s)
    ensures r.Some? ==> r.value.connected == s.connected
  {
    match m
    case SnapshotMsg(ts, c) => Some(MetricsStore.SetSnapshot(s, ts, c))
    case SampleMsg(id, t, rtt, ok) => Some(MetricsStore.AddSample(s, id, Sample(t, rtt, ok)))
    case MetricsMsg(id, metrics) => Some(MetricsStore.UpdateMetrics(s, id, metrics))
    case EventMsg(t, id, reason, details) =>
      Some(MetricsStore.AddEvent(s, NetEvent(t, id, reason, details)))
    case ConfigUpdatedMsg(c) => Some(MetricsStore.UpdateConfig(s, c))
    case TargetsUpdatedMsg(_, _) => None
    case Unrecognised(_) => Some(s)
  }

  /** Windows of at most 120 samples in every target a message carries. */
  predicate WindowsWithinCapacity(m: Message) {
    (m.SnapshotMsg? || m.TargetsUpdatedMsg?) ==>
      forall i :: 0 <= i < |m.targets| ==> |m.targets[i].samples| <= MetricsStore.MAX_SAMPLES
  }

  /** Dispatching a message whose windows are within capacity keeps a
      bounded store bounded. */
  lemma {:induction false} DispatchPreservesBounded(s: MetricsStore.State, m: Message)
    requires MetricsStore.Bounded(s) && WindowsWithinCapacity(m)
    ensures Dispatch(s, m).Some? ==> MetricsStore.Bounded(Dispatch(s, m).value)
  {
    match m
    case SnapshotMsg(ts, c) => MetricsStore.SnapshotBounded(s, ts, c);
    case SampleMsg(id, t, rtt, ok) =>
      MetricsStore.IncrementalActionsPreserveBounded(s, id, Sample(t, rtt, ok),
        Metrics(0.0, 0.0, 0.0, 0.0, 0.0, 0.0), NetEvent(0, "", "", map[]),
        Config(0, 0, Thresholds(0.0, 0.0, 0.0)), false);
    case _ =>
  }

  class WebSocketClient {
    var ws: Socket?
    var reconnectTimeout: Timer?
    var reconnectDelay: nat
    /** The process-wide store the handlers write to. */
    var store: MetricsStore.State
    /** Reconnect timers fired since the last successful open. */
    ghost var failedAttempts: nat

    ghost predicate Valid()
      reads this
    {
      && reconnectDelay == BackoffDelay(failedAttempts)
      && INITIAL_RECONNECT_DELAY <= reconnectDelay <= MAX_RECONNECT_DELAY
    }

    constructor (initial: MetricsStore.State)
      ensures Valid()
      ensures ws == null && reconnectTimeout == null
      ensures reconnectDelay == INITIAL_RECONNECT_DELAY && store == initial
    {
      ws := null;
      reconnectTimeout := null;
      reconnectDelay := INITIAL_RECONNECT_DELAY;
      store := initial;
      failedAttempts := 0;
      BackoffDelayFacts(0);
    }

    /** `connect`: a no-op exactly when the current socket is open; otherwise
        a new socket replaces the current one, even one still connecting. */
    method Connect()
      modifies this
      ensures old(ws) != null && old(ws.readyState) == Open ==> ws == old(ws)
      ensures !(old(ws) != null && old(ws.readyState) == Open) ==>
                fresh(ws) && ws.readyState == Connecting
      ensures reconnectTimeout == old(reconnectTimeout) && reconnectDelay == old(reconnectDelay)
      ensures store == old(store) && failedAttempts == old(failedAttempts)
    {
      if ws != null && ws.readyState == Open {
        return;
      }
      ws := new Socket();
    }

    /** The browser reports that socket `s` opened and runs its `onopen`:
        the store is marked connected and the backoff is reset. */
    method OnOpen(s: Socket)
      requires Valid()
      modifies this, s
      ensures Valid()
      ensures s.readyState == Open
      ensures store == MetricsStore.SetConnected(old(store), true)
      ensures reconnectDelay == INITIAL_RECONNECT_DELAY && failedAttempts == 0
      ensures ws == old(ws) && reconnectTimeout == old(reconnectTimeout)
    {
      s.readyState := Open;
      store := MetricsStore.SetConnected(store, true);
      reconnectDelay := INITIAL_RECONNECT_DELAY;
      failedAttempts := 0;
      BackoffDelayFacts(0);
    }

    /** The browser reports that socket `s` closed and runs its `onclose`:
        the store is marked disconnected and a reconnect is scheduled unless
        one is already pending. `scheduled` is the delay handed to
        `setTimeout`, if any. Any socket this client ever opened can close,
        including one that `disconnect` already let go of. */
    method OnClose(s: Socket) returns (scheduled: Option<nat>)
      requires Valid()
      modifies this, s
      ensures Valid()
      ensures s.readyState == Closed
      ensures store == MetricsStore.SetConnected(old(store), false)
      ensures old(reconnectTimeout) == null ==>
                fresh(reconnectTimeout) && scheduled == Some(old(reconnectDelay))
      ensures old(reconnectTimeout) != null ==>
                reconnectTimeout == old(reconnectTimeout) && scheduled == None
      ensures scheduled.Some? ==>
                scheduled.value == BackoffDelay(failedAttempts)
                && INITIAL_RECONNECT_DELAY <= scheduled.value <= MAX_RECONNECT_DELAY
      ensures ws == old(ws) && reconnectDelay == old(reconnectDelay)
      ensures failedAttempts == old(failedAttempts)
    {
      s.readyState := Closed;
      store := MetricsStore.SetConnected(store, false);
      scheduled := ScheduleReconnect();
    }

    /** `scheduleReconnect`: start one timer with the current delay unless a
        timer is already pending. */
    method ScheduleReconnect() returns (scheduled: Option<nat>)
      requires Valid()
      modifies this
      ensures Valid()
      ensures old(reconnectTimeout) == null ==>
                fresh(reconnectTimeout) && scheduled == Some(reconnectDelay)
      ensures old(reconnectTimeout) != null ==>
                reconnectTimeout == old(reconnectTimeout) && scheduled == None
      ensures ws == old(ws) && reconnectDelay == old(reconnectDelay) && store == old(store)
      ensures failedAttempts == old(failedAttempts)
    {
      if reconnectTimeout != null {
        return None;
      }
      reconnectTimeout := new Timer();
      scheduled := Some(reconnectDelay);
    }

    /** The browser reports an error on socket `s`; `onerror` only logs it. */
    method OnError(s: Socket)
      ensures unchanged(this, s)
    {
    }

    /** The browser delivers a frame on socket `s` and runs its `onmessage`. */
    method OnMessage(f: Frame)
      modifies this
      ensures f.Malformed? ==> store == old(store)
      ensures f.Decoded? ==> store == Dispatch(old(store), f.msg).GetOr(old(store))
      ensures ws == old(ws) && reconnectTimeout == old(reconnectTimeout)
      ensures reconnectDelay == old(reconnectDelay) && failedAttempts == old(failedAttempts)
    {
      match f {
        case Malformed =>
        case Decoded(m) =>
          var r := Dispatch(store, m);
          if r.Some? {
            store := r.value;
          }
      }
    }

    /** The pending reconnect timer fires: forget the handle, connect, then
        double the delay up to the cap. */
    method OnTimer()
      requires Valid() && reconnectTimeout != null
      modifies this
      ensures Valid()
      ensures reconnectTimeout == null
      ensures failedAttempts == old(failedAttempts) + 1
      ensures reconnectDelay == Min(2 * old(reconnectDelay), MAX_RECONNECT_DELAY)
      ensures old(ws) != null && old(ws.readyState) == Open ==> ws == old(ws)
      ensures !(old(ws) != null && old(ws.readyState) == Open) ==>
                fresh(ws) && ws.readyState == Connecting
      ensures store == old(store)
    {
      reconnectTimeout := null;
      Connect();
      reconnectDelay := Min(reconnectDelay * 2, MAX_RECONNECT_DELAY);
      BackoffDelayFacts(failedAttempts);
      failedAttempts := failedAttempts + 1;
      BackoffDelayFacts(failedAttempts);
    }

    /** `disconnect`: cancel the pending timer and close and forget the
        socket. `close()` moves a connecting or open socket to Closing; the
        socket's own close event arrives later and still runs `onclose`. */
    method Disconnect()
      modifies this, ws
      ensures ws == null && reconnectTimeout == null
      ensures old(ws) != null ==>
                old(ws).readyState ==
                  if old(ws.readyState) in {Connecting, Open} then Closing else old(ws.readyState)
      ensures reconnectDelay == old(reconnectDelay) && store == old(store)
      ensures failedAttempts == old(failedAttempts)
    {
      if reconnectTimeout != null {
        reconnectTimeout := null;
      }
      if ws != null {
        if ws.readyState in {Connecting, Open} {
          ws.readyState := Closing;
        }
        ws := null;
      }
    }
  }

  /** After `disconnect`, the close event of the socket it let go of still
      schedules a reconnect: teardown does not stop the client from coming
      back. */
  method DisconnectDoesNotPreventReconnect(c: WebSocketClient)
    requires c.Valid() && c.ws != null
    modifies c, c.ws
    ensures c.reconnectTimeout != null
  {
    var s := c.ws;
    c.Disconnect();
    var scheduled := c.OnClose(s);
  }

  /** Three closes, each followed by its reconnect timer firing without a
      successful open, make the fourth scheduled delay 8000 ms. */
  method BackoffScenario() returns (delays: seq<Option<nat>>)
    ensures delays == [Some(1000), Some(2000), Some(4000), Some(8000)]
  {
    var c := new WebSocketClient(MetricsStore.Initial());
    c.Connect();
    delays := [];
    var i := 0;
    while i < 4
      invariant 0 <= i <= 4 && |delays| == i
      invariant fresh(c) && c.ws != null && fresh(c.ws)
      invariant c.Valid() && c.failedAttempts == i && c.reconnectTimeout == null
      invariant forall k :: 0 <= k < i ==> delays[k] == Some(BackoffDelay(k))
    {
      var d := c.OnClose(c.ws);
      delays := delays + [d];
      c.OnTimer();
      i := i + 1;
    }
    assert BackoffDelay(0) == 1000 && BackoffDelay(1) == 2000 && BackoffDelay(2) == 4000 by {
      assert Pow2(1) == 2;
      assert Pow2(2) == 4;
    }
    BackoffDelayFacts(0);
  }
}

=== FILE: window.dfy ===
/** The bounded first-in-first-out window shared by the client store
    (`addSample` keeps 120 samples per target, `addEvent` keeps 100 events)
    and by the daemon's ring buffer: append at the newest end, and when the
    result is longer than the capacity drop exactly one element at the
    oldest end. */
module Window {

  /** Append `x`, then drop the oldest element if the result exceeds `cap`.
      This is the client's `[...s, x]` followed by at most one `shift()`. */
  function Push<T>(s: seq<T>, x: T, cap: nat): seq<T>
  {
    var t := s + [x];
    if |t| > cap then t[1..] else t
  }

  /** The newest `n` elements of `s`, in order. */
  function LastN<T>(s: seq<T>, n: nat): (r: seq<T>)
    ensures |r| == if |s| <= n then |s| else n
    ensures forall i :: 0 <= i < |r| ==> r[i] == s[|s| - |r| + i]
  {
    if |s| <= n then s else s[|s| - n..]
  }

  /** Pushing several elements one at a time, oldest first. */
  function PushAll<T>(s: seq<T>, xs: seq<T>, cap: nat): seq<T>
    decreases |xs|
  {
    if xs == [] then s else PushAll(Push(s, xs[0], cap), xs[1..], cap)
  }

  /** On a window within its capacity (and only then), one push keeps exactly the newest
      `cap` elements of the window followed by the new element: the new
      element is last, the order is preserved and only the oldest is
      evicted. */
  lemma {:induction false} PushIsLastN<T>(s: seq<T>, x: T, cap: nat)
    ensures |s| <= cap ==>
      && Push(s, x, cap) == LastN(s + [x], cap)
      && |Push(s, x, cap)| <= cap
      && (cap > 0 ==> Push(s, x, cap)[|Push(s, x, cap)| - 1] == x)
  {
  }

  /** Below capacity nothing is evicted; at capacity exactly the oldest is. */
  lemma {:induction false} PushCases<T>(s: seq<T>, x: T, cap: nat)
    ensures |s| < cap ==> Push(s, x, cap) == s + [x]
    ensures 0 < |s| && cap <= |s| ==> Push(s, x, cap) == s[1..] + [x]
  {
    if 0 < |s| && cap <= |s| {
      assert (s + [x])[1..] == s[1..] + [x];
    }
  }

  /** A window that is already over capacity shrinks by nothing: `shift()`
      removes one element and the push added one, so the bound of `cap`
      holds afterwards only if it held before. */
  lemma {:induction false} PushOverfullKeepsLength<T>(s: seq<T>, x: T, cap: nat)
    requires |s| > cap
    ensures |Push(s, x, cap)| == |s|
  {
  }

  lemma {:induction false} LastNOfLastN<T>(a: seq<T>, b: seq<T>, n: nat)
    ensures LastN(LastN(a, n) + b, n) == LastN(a + b, n)
  {
    var l := LastN(a, n);
    var left := LastN(l + b, n);
    var right := LastN(a + b, n);
    assert |left| == |right|;
    forall i | 0 <= i < |left|
      ensures left[i] == right[i]
    {
      var k := |l + b| - |left| + i;
      if k >= |l| {
        assert (l + b)[k] == b[k - |l|];
        assert (a + b)[|a + b| - |right| + i] == b[k - |l|];
      } else {
        assert (l + b)[k] == l[k] == a[|a| - |l| + k];
        assert (a + b)[|a + b| - |right| + i] == a[|a| - |l| + k];
      }
    }
  }

  /** Any sequence of pushes onto a window within its capacity leaves the
      newest `cap` elements of everything pushed, in arrival order; in
      particular the window never exceeds its capacity. */
  lemma {:induction false} PushAllIsLastN<T>(s: seq<T>, xs: seq<T>, cap: nat)
    requires |s| <= cap
    ensures PushAll(s, xs, cap) == LastN(s + xs, cap)
    ensures |PushAll(s, xs, cap)| <= cap
    decreases |xs|
  {
    if xs == [] {
      assert s + xs == s;
    } else {
      var s' := Push(s, xs[0], cap);
      PushIsLastN(s, xs[0], cap);
      PushAllIsLastN(s', xs[1..], cap);
      assert PushAll(s, xs, cap) == LastN(s' + xs[1..], cap);
      LastNOfLastN(s + [xs[0]], xs[1..], cap);
      assert s + [xs[0]] + xs[1..] == s + xs;
    }
  }
}

=== FILE: wrappers.dfy ===
/** The Some/None datatype used wherever the C or TypeScript code returns a nullable pointer,
    an optional field or a value that may be absent. */
module Wrappers {

  datatype Option<+T> = None | Some(value: T) {

    /** The value, or `default` when absent. */
    function GetOr(default: T): T {
      match this
      case Some(v) => v
      case None() => default
    }
  }
}
